=== FILE: README.md ===
# A Dafny model of a PYNQ overlay loader, an HLS UART and two PYNQ drivers

This project models four pieces of a Zynq/PYNQ code base and proves what they
promise.

- **The embedded-device overlay loader** (`pynq_vision_xclbin_sobel/embedded_device.py`) covers several pieces:
  - the tagged header of a `.bit` file (`parse_bit_header`);
  - the word-swapped `.bin` image (`bit2bin`);
  - the choice of bitstream handler by file suffix;
  - `get_parser`, which joins HWH and xclbin memory metadata (`_unify_dictionaries`);
  - the synthetic memory topology packaged when only HWH metadata exists (`_ip_to_topology`);
  - the choice of the PS memory (`default_memory`);
  - the page arithmetic of `mmap`;
  - the AXI port-width register writes of `set_axi_port_width`, with the SLCR and AFIFM tables;
  - the FPGA-manager flag of `download`.
- **The HLS UART core** (`hls-uart/src/uart_hls.cpp`):
  - `uart_tx` and `uart_rx` are state machines stepped once per call of `uart_hls`;
  - `uart_hls` latches the configuration, handles reset, and packs the status and counter registers.
  - On top of single steps, the model follows whole 8N1 frames: a byte taken from the transmit stream is driven as its frame, a receiver fed that frame writes the byte back, and, with the testbench's loopback wiring, a byte sent is received back.
- **The UART's PYNQ driver** (`hls-uart/src/uart_hls_driver.py`):
  - the baud divisor;
  - the enable bits;
  - status decoding;
  - the reset sequence.
- **The AXI4 PWM driver** (`pynq-axi4-pwm/pwm_driver.py`):
  - argument checks;
  - register offsets;
  - the register self-test and the state it restores.

Modelling conventions:

- **Python values:**
  - Python dictionaries are insertion-ordered association lists (`OrderedDicts`).
  - Python slicing and negative indexing are spelled out (`PySeq`), because the header scanner can reach negative offsets.
  - A raised exception is the `Err` case of a `Result`.
- **Driver calls:** each one returns the register writes it performs, in order, with what it returns. Reading the register block happens before those writes.
- **The UART core:**
  - Lines are booleans, `true` being the idle-high level.
  - `ap_uint<32>` counters wrap modulo 2^32 (`UartCore.Inc32`).
  - The receive synchroniser assigns its three stages in program order, so it passes the pin straight through (`UartCore.SynchroniseIsTransparent`). The model keeps that behaviour.

## Model

| member | source | states |
|---|---|---|
| `BitHeader.ReadLength` | pynq_vision_xclbin_sobel/embedded_device.py:66-67 | a length field reads exactly when the Python slice at the offset holds the full two or four bytes; an unsigned read is never negative |
| `BitHeaderLemmas.LengthRead` | pynq_vision_xclbin_sobel/embedded_device.py:66-67 | two big-endian bytes holding a length below 0x8000 read back as that length, signed or unsigned |
| `BitHeader.ReadText` | pynq_vision_xclbin_sobel/embedded_device.py:69-73 | a text body decodes only for a non-negative length and yields one character fewer than its length, the terminator being dropped |
| `BitHeader.SetFieldEntries` | pynq_vision_xclbin_sobel/embedded_device.py:75-84 | tag 0x61 stores the longest `;`-free prefix as design and the longest `;`-free suffix as version; 0x62..0x64 store the whole text as part, date, time; no tag touches another's entries |
| `BitHeaderLemmas.ScanTextStep` | pynq_vision_xclbin_sobel/embedded_device.py:61-84 | one loop turn over a text tag whose length and text read cleanly records the field and continues right after its body |
| `BitHeaderLemmas.ScanEndTurn` | pynq_vision_xclbin_sobel/embedded_device.py:85-94 | at tag 0x65 the scan stops: a failed length read raises, a length not reaching exactly the end raises "Invalid length found", otherwise the header carries the length and the slice after it |
| `BitHeaderLemmas.ScanEndStep` | pynq_vision_xclbin_sobel/embedded_device.py:85-94 | a scan that succeeds at the payload tag returns as payload the trailing bytes it declares |
| `BitHeaderLemmas.ScanTextFails` | pynq_vision_xclbin_sobel/embedded_device.py:65-96 | at a tag other than 0x65 the scan raises unless the length and text read and the tag is one of 0x61..0x64 |
| `BitHeaderLemmas.UnknownTagRejected` | pynq_vision_xclbin_sobel/embedded_device.py:95-96 | a tag outside 0x61..0x65 is never accepted, and once its body reads the error is "Unknown field" naming that tag |
| `BitHeaderLemmas.MisplacedEndRejected` | pynq_vision_xclbin_sobel/embedded_device.py:92-93 | a payload length that does not end exactly at the end of the input raises "Invalid length found" |
| `BitHeaderLemmas.ScanSuffix` | pynq_vision_xclbin_sobel/embedded_device.py:61-97 | from any non-negative offset, a successful scan returns the declared number of trailing bytes as the payload |
| `BitHeaderLemmas.ParseIsScan` | pynq_vision_xclbin_sobel/embedded_device.py:53-58 | once the leading length reads, parsing is scanning from past the leading field and the two-byte field |
| `BitHeaderLemmas.ParseSuffix` | pynq_vision_xclbin_sobel/embedded_device.py:53-97 | a successful parse read its leading length, and when that length does not move the scan to a negative offset the payload is the declared trailing bytes |
| `BitHeaderLemmas.RoundTrip` | pynq_vision_xclbin_sobel/embedded_device.py:26-97 | a file built from a leading field, a two-byte field, text fields and a payload parses back to those fields (later tags overwriting earlier ones), the payload length and the payload, with signed or unsigned lengths |
| `BitHeaderLemmas.TerminatedTextDecodes` | pynq_vision_xclbin_sobel/embedded_device.py:72 | ASCII text followed by a NUL decodes and, with the last character dropped, is the text again |
| `BitHeaderLemmas.ParseBitHeaderPayload` | pynq_vision_xclbin_sobel/embedded_device.py:26-97 | the parser as written returns the declared trailing bytes as payload provided the leading length is at least -4 |
| `BitHeaderLemmas.SignedLengthShortPayload` | pynq_vision_xclbin_sobel/embedded_device.py:53-94 | with the signed reads as written, the 8-byte input FF F6 65 00 00 00 09 AA parses with declared length 9 and a one-byte payload |
| `BitHeaderLemmas.ParseBitHeaderUnsignedPayload` | pynq_vision_xclbin_sobel/embedded_device.py:26-97 | with unsigned length reads a successful parse always returns exactly the declared number of trailing bytes |
| `BitHeaderLemmas.UnsignedLengthRejectsShortPayload` | pynq_vision_xclbin_sobel/embedded_device.py:53-58 | with unsigned reads the same 8-byte input is rejected |
| `PySeq.Clamp` | pynq_vision_xclbin_sobel/embedded_device.py:54 | a slice bound inside the sequence is itself, a negative one counts from the end, and one beyond either end is clamped to it |
| `PySeq.Slice` | pynq_vision_xclbin_sobel/embedded_device.py:70-71 | an in-range slice is the Dafny subsequence; a slice of the requested length ends inside the sequence; no slice is longer than the sequence |
| `PySeq.Index` | pynq_vision_xclbin_sobel/embedded_device.py:62 | `contents[offset]` reads exactly when `-n <= offset < n`, at the offset itself or counted from the end |
| `Strings.SplitJoin` | pynq_vision_xclbin_sobel/embedded_device.py:76 | joining the segments of `split(';')` with `;` gives back the text |
| `Strings.SplitFree` | pynq_vision_xclbin_sobel/embedded_device.py:76 | no segment contains the separator |
| `Strings.SplitSingle` | pynq_vision_xclbin_sobel/embedded_device.py:76 | there is one segment exactly when the text has no separator, and then it is the whole text |
| `Strings.FirstSegment` | pynq_vision_xclbin_sobel/embedded_device.py:76-77 | `s[0]` is the longest separator-free prefix of the text |
| `Strings.LastSegment` | pynq_vision_xclbin_sobel/embedded_device.py:76-78 | `s[-1]` is the longest separator-free suffix of the text |
| `Strings.DecimalRoundTrip` | pynq_vision_xclbin_sobel/embedded_device.py:307 | reading back the decimal rendering of a number gives the number |
| `Strings.NatToStringInjective` | pynq_vision_xclbin_sobel/embedded_device.py:307 | distinct numbers render as distinct decimal strings |
| `Payload.WordSwap` | pynq_vision_xclbin_sobel/embedded_device.py:105-106 | the byte-swapped image has the payload's length and each byte comes from the mirror position within its own 32-bit word |
| `Payload.WordSwapInvolution` | pynq_vision_xclbin_sobel/embedded_device.py:105-106 | swapping twice restores the payload |
| `Payload.Bit2Bin` | pynq_vision_xclbin_sobel/embedded_device.py:100-107 | over the header parse as written, the conversion fails exactly when the header fails or the payload is not whole words; the image swaps back to the payload, and has the declared length whenever the leading length is at least -4 |
| `Payload.Bit2BinShortImage` | pynq_vision_xclbin_sobel/embedded_device.py:53-107 | the 11-byte file FF F3 65 00 00 00 0F 01 02 03 04 declares 15 payload bytes yet converts to the 4-byte image 04 03 02 01 |
| `Payload.Bit2BinUnsigned` | pynq_vision_xclbin_sobel/embedded_device.py:100-107 | over the corrected header parse with unsigned lengths, a successful conversion always has the declared length and swaps back to the payload |
| `Handlers.RFind` | pynq_vision_xclbin_sobel/embedded_device.py:241 | the result is the position of the last occurrence of the character, or -1 when there is none |
| `Handlers.Name` | pynq_vision_xclbin_sobel/embedded_device.py:241 | the last path component holds no `/` |
| `Handlers.SuffixIs` | pynq_vision_xclbin_sobel/embedded_device.py:241 | the suffix of a path is an extension exactly when the name ends in it after a non-empty stem |
| `Handlers.HandlerKind` | pynq_vision_xclbin_sobel/embedded_device.py:240-244 | the only failure is "Unknown file format" |
| `Handlers.HandlerKindSpec` | pynq_vision_xclbin_sobel/embedded_device.py:233-244 | `.bit`, `.bin` and `.xclbin` each select their handler exactly for names with that extension after a non-empty stem; every other name is an unknown format |
| `Handlers.BinData` | pynq_vision_xclbin_sobel/embedded_device.py:205-227 | a `.bin` file is its own image; an xclbin without a BITSTREAM section has none; a `.bit` file or a BITSTREAM section yields an image exactly when `bit2bin` succeeds on it, and that image is its conversion |
| `Handlers.Synthesize` | pynq_vision_xclbin_sobel/embedded_device.py:320-339 | an existing xclbin image is kept untouched; otherwise it fails exactly when the topology cannot be built (with that error) or the packager fails, and on success the image is the packager's output for the topology of the HWH memories, and the memories gain `xrt_mem_idx` and remain well formed |
| `Handlers.GetParserSpec` | pynq_vision_xclbin_sobel/embedded_device.py:176-202 | no parser exactly when there is neither HWH nor xclbin data; the HWH parser exactly when HWH data exists, and then its xclbin data is the image kept or packaged and its memory dictionary is the join of the HWH memories with that image's xclbin metadata; an existing xclbin image is attached; the xclbin parser's memories are that image's; the bin and dtbo data are the handler's |
| `Handlers.GetParserFails` | pynq_vision_xclbin_sobel/embedded_device.py:176-202 | with HWH metadata the call raises a packaging failure first, then a failed join, then a failed `.bin` conversion, and otherwise succeeds; without it, it raises exactly when an existing xclbin's image fails to convert |
| `Handlers.XclbinNeverLacksMetadata` | pynq_vision_xclbin_sobel/embedded_device.py:603-607 | looking up the metadata of an `.xclbin` file never reports missing metadata |
| `Handlers.DownloadSpec` | pynq_vision_xclbin_sobel/embedded_device.py:579-600 | the device is shut down exactly for a full bitstream, before anything else; when the image name reaches the FPGA manager the flags file already reads as the decimal 1 for a partial bitstream and 0 for a full one; afterwards the manager holds the image name, and the XRT download is the last of the modelled effects (`post_download` follows it in the source) |
| `Metadata.Rekey` | pynq_vision_xclbin_sobel/embedded_device.py:16-17 | re-keying by a field fails exactly when some region lacks it; otherwise every region is kept, in order, under its own value of that field |
| `Metadata.AddressIndex` | pynq_vision_xclbin_sobel/embedded_device.py:16-17 | the address index has no repeated key |
| `Metadata.AddressIndexLookup` | pynq_vision_xclbin_sobel/embedded_device.py:16-17 | the index fails exactly when a region has no `base_address`, and an address finds the last xclbin region carrying it |
| `Metadata.EnrichOne` | pynq_vision_xclbin_sobel/embedded_device.py:19-21 | one pass keeps the region and the index proper dictionaries |
| `Metadata.EnrichOneSpec` | pynq_vision_xclbin_sobel/embedded_device.py:19-21 | one pass raises only for a claiming region without `phys_addr`; it merges the index entry exactly when the probe is indexed, and removes exactly the probed address |
| `Metadata.Enrich` | pynq_vision_xclbin_sobel/embedded_device.py:18-21 | the first loop keeps every HWH name in place |
| `Metadata.EnrichFails` | pynq_vision_xclbin_sobel/embedded_device.py:18-21 | the first loop raises exactly when some claiming region lacks `phys_addr` |
| `Metadata.EnrichRegions` | pynq_vision_xclbin_sobel/embedded_device.py:18-21 | each region is merged with the xclbin region at its address exactly when it is the first to probe that indexed address |
| `Metadata.EnrichRemaining` | pynq_vision_xclbin_sobel/embedded_device.py:18-21 | the entries left in the index are exactly those whose address no HWH region probed |
| `Metadata.ConsumedOnce` | pynq_vision_xclbin_sobel/embedded_device.py:18-21 | no two regions claim the same address, and an indexed address survives exactly when no region claims it |
| `Metadata.PromoteOrphans` | pynq_vision_xclbin_sobel/embedded_device.py:22-23 | the second loop leaves a proper dictionary |
| `Metadata.PromoteOrphansSpec` | pynq_vision_xclbin_sobel/embedded_device.py:22-23 | every existing name stays in place; a name no orphan tag hits keeps its region; each orphan lands under its tag unless a later orphan shares it |
| `Metadata.Unify` | pynq_vision_xclbin_sobel/embedded_device.py:11-23 | the joined memory dictionary has no repeated key |
| `Metadata.UnifyStages` | pynq_vision_xclbin_sobel/embedded_device.py:11-23 | a successful join built the index, ran the first loop and tagged the orphans, and its result is the second loop over them |
| `Metadata.UnifySpec` | pynq_vision_xclbin_sobel/embedded_device.py:11-23 | no HWH name is removed or moved; each name no orphan replaces holds its enriched region; each unclaimed xclbin region is stored under its tag unless a later orphan shares it; no key other than the HWH names and the orphan tags appears |
| `Metadata.FirstPsMemory` | pynq_vision_xclbin_sobel/embedded_device.py:509-512 | a region found has base address 0; the only failures are a missing `base_address` and "XRT design does not contain PS memory" |
| `Metadata.FirstPsMemoryAt` | pynq_vision_xclbin_sobel/embedded_device.py:509-511 | after passing over regions with non-zero addresses, the next region returns if its address is 0 and raises `KeyError` if it has none |
| `Metadata.FirstPsMemoryNone` | pynq_vision_xclbin_sobel/embedded_device.py:509-512 | when every region has a non-zero base address there is no PS memory |
| `Metadata.DefaultMemory` | pynq_vision_xclbin_sobel/embedded_device.py:505-512 | an empty dictionary means "Overlay is not downloaded", and no other case does; a region returned has base address 0 |
| `Topology.KiB` | pynq_vision_xclbin_sobel/embedded_device.py:306 | `addr_range // 1024` succeeds exactly on integers and is the floor of the division |
| `Topology.Row` | pynq_vision_xclbin_sobel/embedded_device.py:302-309 | a row is built exactly when the region has an integer `addr_range` and a `phys_addr`; it describes the region at its position, and the region gains `xrt_mem_idx` |
| `Topology.RowsSpec` | pynq_vision_xclbin_sobel/embedded_device.py:301-309 | the loop succeeds exactly when every region is describable; row `i` describes region `i`, and region `i` gains its row number |
| `Topology.IpToTopologySpec` | pynq_vision_xclbin_sobel/embedded_device.py:293-311 | the table starts with the 256 MiB PSDDR row at address 0; region `i` becomes row `i + 1` tagged `MIG{i + 1}`; `m_count` counts the rows; each region gains `xrt_mem_idx` naming its row, and nothing else changes |
| `Topology.TopologyTagsDistinct` | pynq_vision_xclbin_sobel/embedded_device.py:293-311 | no two rows of the table share a tag |
| `Topology.MigTagsDistinct` | pynq_vision_xclbin_sobel/embedded_device.py:307 | generated tags for distinct positions differ, and none is `PSDDR` |
| `Topology.TopologyKeepsWellFormed` | pynq_vision_xclbin_sobel/embedded_device.py:301-302 | storing `xrt_mem_idx` keeps the memory dictionary and its regions proper dictionaries |
| `OrderedDicts.Put` | pynq_vision_xclbin_sobel/embedded_device.py:23 | `d[k] = v` replaces an existing key's value in place and appends a new key |
| `OrderedDicts.PutGet` | pynq_vision_xclbin_sobel/embedded_device.py:302 | after `d[k] = v`, `k` reads `v` and every other key reads as before |
| `OrderedDicts.Update` | pynq_vision_xclbin_sobel/embedded_device.py:20 | `update` keeps the existing keys in place at the front and leaves no key repeated |
| `OrderedDicts.UpdateGet` | pynq_vision_xclbin_sobel/embedded_device.py:20 | after `a.update(b)`, a key reads its last value in `b` if `b` has it, else its value in `a` |
| `OrderedDicts.WithoutGet` | pynq_vision_xclbin_sobel/embedded_device.py:21 | after deleting keys, a deleted key is absent and every other key reads as before |
| `MemoryMap.ClearLowBitsRoundsDown` | pynq_vision_xclbin_sobel/embedded_device.py:530 | `x & ~(2**k - 1)` rounds `x` down to a multiple of `2**k`, and `x >> k` is `x // 2**k` |
| `MemoryMap.MmapWindow` | pynq_vision_xclbin_sobel/embedded_device.py:523-543 | only root maps; the window is page aligned, the address lies less than a page into it, the mapping covers the requested bytes, and the view holds the whole words of the length |
| `MemoryMap.MmapElementAddress` | pynq_vision_xclbin_sobel/embedded_device.py:537-542 | word `k` of the view lies at the requested address plus `4k`, inside the mapping |
| `PortWidth.SlcrShape` | pynq_vision_xclbin_sobel/embedded_device.py:342-362 | each master-port selector is one two-bit field: bits 9:8 and 11:10 of 0xFD615000, and bits 9:8 of 0xFF419000 |
| `PortWidth.AxifmShape` | pynq_vision_xclbin_sobel/embedded_device.py:369-441 | each slave port has read and write fields at bits 1:0 of two registers 0x14 apart |
| `PortWidth.AxifmBasesApart` | pynq_vision_xclbin_sobel/embedded_device.py:369-441 | the AFIFM blocks lie in increasing order at least 64 KiB apart |
| `PortWidth.AxifmAddress` | pynq_vision_xclbin_sobel/embedded_device.py:369-441 | every AFIFM field is in an AFIFM block register, away from the SLCR selectors |
| `PortWidth.EncodingsFit` | pynq_vision_xclbin_sobel/embedded_device.py:342-446 | every width encoding of every parameter fits each field that parameter writes, so no assignment is truncated |
| `PortWidth.PortParamsEncodings` | pynq_vision_xclbin_sobel/embedded_device.py:363-368 | every parameter has a field to write, and its table knows exactly the widths 32, 64 and 128 |
| `PortWidth.PortParamsWellFormed` | pynq_vision_xclbin_sobel/embedded_device.py:342-441 | the tables' fields are valid and no two of them share a bit |
| `PortWidth.FieldsApart` | pynq_vision_xclbin_sobel/embedded_device.py:342-441 | any two distinct fields of the tables are disjoint |
| `PortWidth.PlanError` | pynq_vision_xclbin_sobel/embedded_device.py:564-577 | the loops raise exactly when some parameter present has a width its table does not know |
| `PortWidth.PlanErrorAt` | pynq_vision_xclbin_sobel/embedded_device.py:564-577 | the `KeyError` names the first unknown width, and only the writes of the parameters before it happened |
| `PortWidth.PlanValid` | pynq_vision_xclbin_sobel/embedded_device.py:564-577 | every write targets a valid field with a value that fits |
| `PortWidth.PlanTouches` | pynq_vision_xclbin_sobel/embedded_device.py:564-577 | every field written is a field of the tables |
| `PortWidth.PlanLast` | pynq_vision_xclbin_sobel/embedded_device.py:564-577 | the last value written to a field is its parameter's width encoding, and an absent parameter's fields are never written |
| `PortWidth.PlanReads` | pynq_vision_xclbin_sobel/embedded_device.py:564-577 | after the loops, a present parameter's fields read its width encoding and an absent one's read as before |
| `PortWidth.SetAxiPortWidthOutcome` | pynq_vision_xclbin_sobel/embedded_device.py:545-577 | only a `zynq_ultra_ps_e` processing system gets writes or an error, and there the call raises exactly when a present port parameter has a width other than 32, 64 or 128 |
| `PortWidth.SetAxiPortWidthReads` | pynq_vision_xclbin_sobel/embedded_device.py:545-577 | after a call that raised nothing, each named port's fields hold the encoding of its width and each unnamed port's fields are unchanged |
| `PortWidth.SetAxiPortWidthUntouched` | pynq_vision_xclbin_sobel/embedded_device.py:545-577 | a register field sharing no bit with the tables is never changed |
| `Bitfield.WriteField` | pynq_vision_xclbin_sobel/embedded_device.py:570 | `Register(addr)[hi:lo] = v` puts the low bits of `v` into the field and leaves other registers and the field's neighbouring bits alone |
| `Bitfield.ReadBack` | pynq_vision_xclbin_sobel/embedded_device.py:570 | a value that fits reads back from the field it was written to |
| `Bitfield.WriteKeepsDisjoint` | pynq_vision_xclbin_sobel/embedded_device.py:570 | writing a field leaves every disjoint field unchanged |
| `Bitfield.ApplyRead` | pynq_vision_xclbin_sobel/embedded_device.py:564-577 | after a run of writes, a field holds the last value written to it, or its old contents |
| `Bitfield.ValueBits` | pynq_vision_xclbin_sobel/embedded_device.py:570 | a number below `2**n` survives conversion to `n` bits and back |
| `Bitfield.BitsValue` | pynq_vision_xclbin_sobel/embedded_device.py:570 | `n` bits survive conversion to a number and back |
| `RegisterMap.Write` | pynq-axi4-pwm/pwm_driver.py:32 | a register write changes the one offset it targets |
| `RegisterMap.Or` | hls-uart/src/uart_hls_driver.py:106 | each bit of the bitwise or of two words is set when either operand's is |
| `RegisterMap.AndNot` | hls-uart/src/uart_hls_driver.py:108 | each bit of `x & ~y` is that of `x` unless `y` sets it |
| `UartCore.Inc32` | hls-uart/src/uart_hls.cpp:59 | a 32-bit counter increment adds one below the top and wraps to zero at it |
| `UartCore.TxIdleStep` | hls-uart/src/uart_hls.cpp:18-29 | the idle transmitter drives high and leaves idle, taking exactly the head of the stream, only when enabled with a byte waiting; its busy flag says whether it did |
| `UartCore.TxBusyStep` | hls-uart/src/uart_hls.cpp:30-65 | outside idle the transmitter drives its phase's level, moves START, DATA bits 0..7, STOP, IDLE as each slot ends, and counts a frame only when STOP ends |
| `UartCore.TxKeepsBusy` | hls-uart/src/uart_hls.cpp:18-66 | a transmitter that was idle or busy-flagged stays so: it is never mid-frame without its busy flag |
| `UartCore.SynchroniseIsTransparent` | hls-uart/src/uart_hls.cpp:83-87 | the three synchroniser stages all take the current pin level, which is the level sampled |
| `UartCore.RxFalseStart` | hls-uart/src/uart_hls.cpp:99-112 | a line high at the half-divisor sample of START is a false start: back to idle with nothing received |
| `UartCore.RxDataStep` | hls-uart/src/uart_hls.cpp:114-126 | the end of a data slot stores the sampled level as the current bit and moves to the next bit or to STOP |
| `UartCore.RxStopStep` | hls-uart/src/uart_hls.cpp:128-146 | a byte is written, with `rx_valid` raised and the counter advanced, exactly when the stop sample is high and the stream has room; the byte is the eight sampled bits |
| `UartCore.ResetStep` | hls-uart/src/uart_hls.cpp:191-196 | with the reset bit set, the counters and flags are zero, the line is high, neither stream is touched and the status reads zero |
| `UartCore.BaudLatch` | hls-uart/src/uart_hls.cpp:174-188 | the divisor register is latched only when non-zero, so the latched divisor starts at 54 and stays positive |
| `UartCore.ControlBits` | hls-uart/src/uart_hls.cpp:181-183 | control bits 0, 1 and 2 become the transmit enable, the receive enable and the reset flag |
| `UartCore.StatusPacking` | hls-uart/src/uart_hls.cpp:206-215 | the status register holds `tx_busy` in bit 0 and `rx_valid` in bit 1, every other bit zero, and the count registers mirror the counters |
| `UartCore.StatusBits` | hls-uart/src/uart_hls.cpp:206-212 | the packed status word carries the two flags in bits 0 and 1 and nothing above |
| `UartCore.TxCountOnlyAtStop` | hls-uart/src/uart_hls.cpp:55-64 | outside reset the transmit counter advances by one exactly on the step that ends a STOP slot |
| `UartCore.RunStep` | hls-uart/src/uart_hls.cpp:191-203 | without reset a call is `uart_tx` followed by `uart_rx` on the freshly latched configuration |
| `UartCore.ResetHidesFrame` | hls-uart/src/uart_hls.cpp:191-212 | as written, reset during a frame clears `tx_busy` but not the transmitter, which carries on sending while the status reads idle |
| `UartCore.WholeResetKeepsBusy` | hls-uart/src/uart_hls.cpp:191-212 | with a reset that also idles both machines, a frame in progress always shows as busy in the status register |
| `UartFrames.TxFrame` | hls-uart/src/uart_hls.cpp:4-66 | after taking a byte, the next `10 * d` calls drive its 8N1 frame (start low, data LSB first, stop high), then the transmitter is idle with one more frame counted |
| `UartFrames.AssembledByte` | hls-uart/src/uart_hls.cpp:114-137 | eight sampled bits equal to a byte's bits assemble that byte |
| `UartFrames.RxFrameOn` | hls-uart/src/uart_hls.cpp:69-148 | an idle receiver fed any line carrying a frame, with divisor at least 3, writes exactly that byte, counts it and ends idle |
| `UartFrames.RxFrame` | hls-uart/src/uart_hls.cpp:69-148 | an idle receiver fed the frame of a byte, with divisor at least 3, writes exactly that byte, counts it and ends idle |
| `UartFrames.Loopback` | hls-uart/src/uart_hls_tb.cpp:80-129 | with the receive pin wired to the previous call's transmit pin, a byte taken from the transmit stream is written back to the receive stream and both counters advance by one |
| `UartDriver.SetBaudRateSpec` | hls-uart/src/uart_hls_driver.py:66-94 | only the four supported rates are accepted, others raising before any write; the divisor written and returned is the largest whose oversampled bit time fits in the clock, and it is positive |
| `UartDriver.BaudDivisors` | hls-uart/src/uart_hls_driver.py:79-86 | the four rates give divisors 54, 27, 13 and 6 |
| `UartDriver.DefaultRateIsPowerOn` | hls-uart/src/uart_hls.cpp:174 | the driver's divisor for 115200 baud is the core's power-on divisor |
| `UartDriver.ToggleBits` | hls-uart/src/uart_hls_driver.py:104-109 | setting or clearing one bit of the control word leaves every other bit alone |
| `UartDriver.EnableTxSpec` | hls-uart/src/uart_hls_driver.py:96-109 | one write to the control register, bit 0 as requested, every other bit as read |
| `UartDriver.EnableRxSpec` | hls-uart/src/uart_hls_driver.py:111-124 | one write to the control register, bit 1 as requested, every other bit as read |
| `UartDriver.EnableSpec` | hls-uart/src/uart_hls_driver.py:126-141 | one write to the control register: bit 0 is `tx`, bit 1 is `rx`, all others, the reset bit included, zero |
| `UartDriver.EnableReachesCore` | hls-uart/src/uart_hls.cpp:181-183 | the core enables exactly the machines `enable` asked for and is not held in reset |
| `UartDriver.GetStatusOfCore` | hls-uart/src/uart_hls_driver.py:143-160 | on the registers the core produced, `get_status` reports its busy and valid flags and counters, and both FIFO flags as false |
| `UartDriver.ReadStatus` | hls-uart/src/uart_hls_driver.py:151-160 | the four flags are bits 0 to 3 of the status word, each as the core's bit packing places it, and the counts are the two count registers |
| `UartDriver.ResetSpec` | hls-uart/src/uart_hls_driver.py:60-64 | two control writes: first the reset bit with both machines disabled, then zero; no other register changes |
| `PwmDriver.SetPeriodSpec` | pynq-axi4-pwm/pwm_driver.py:22-40 | exactly the plain integers in `[0, 0xFFFFFFFF]` are accepted and written to the period register alone, where `get_period` finds them; other values fail the driver's check, and a boolean, which passes it, is refused by the MMIO write; no failure writes anything |
| `PwmDriver.SetDutySpec` | pynq-axi4-pwm/pwm_driver.py:22-56 | the count is checked before the index; a boolean count is refused by the MMIO write, and so is a channel from 16 on, whose register lies beyond the 128-byte window; no failure writes anything; otherwise the count is written to `64 + 4 * index` alone |
| `PwmDriver.GetDutySpec` | pynq-axi4-pwm/pwm_driver.py:22-71 | a negative or non-integer index raises, and so does a channel from 16 on, beyond the window; otherwise `64 + 4 * index` is read |
| `PwmDriver.DutyRoundTrip` | pynq-axi4-pwm/pwm_driver.py:42-71 | `get_duty` reads back what `set_duty` wrote; the other channels, the period and the control register are unchanged |
| `PwmDriver.EnableDisableSpec` | pynq-axi4-pwm/pwm_driver.py:73-79 | `enable` writes 1 and `disable` writes 0 to the control register, and nothing else changes |
| `PwmDriver.SelfTestSpec` | pynq-axi4-pwm/pwm_driver.py:81-117 | the self-test passes exactly when the control register takes writes and the period register takes them or already holds the pattern; on a pass every register is back at its original value |
| `PwmDriver.SelfTestPlain` | pynq-axi4-pwm/pwm_driver.py:81-113 | on a controller whose registers all take writes the self-test passes and leaves every register as it found it |

## Left out

- File and device I/O is not modelled. That covers reading the bitstream and its sibling `.hwh`, `.xclbin` and `.dtbo` files, writing the firmware image, the FPGA-manager files, `/dev/mem` and the mapping itself. The data the code reads arrives as parameters; the data it writes is returned.
- The HWH and xclbin parsers, `parse_xclbin_header` and the `xclbinutil` subprocess are outside the model. Their results are parameters (`xclbinParse`, `package`, `Files`); `package` yielding `None` stands for a failed `xclbinutil` run.
- `_preload_binfile`, `shutdown`, `_xrt_download` and `post_download` are left out: they are I/O and XRT calls. `download` is modelled as the ordered list of its effects, with the sysfs writes as text (`Handlers.DownloadSteps`); the `.bin` image name arrives as a parameter and the default parser is not modelled.
- `set_axi_port_width` reads `parser.ip_dict[parser.ps_name]['parameters']` before the family check. The lookup itself is not modelled: the processing system's family and parameters arrive as one value (`PortWidth.Ps`).
- `pynq.registers.Register` is not part of this model. Its slice assignment is modelled as a read-modify-write of the named bits (`Bitfield.WriteField`).
- Partial mutation before an exception is not modelled. When `_unify_dictionaries` or `_ip_to_topology` raises `KeyError` part-way, the Python dictionaries keep the updates already made; the model returns only the error.
- Metadata.UnifySpec: the full characterisation assumes that no xclbin region carries a `phys_addr` of its own. The source deletes `mem_by_address[v['phys_addr']]` after the update, so such a region could change the key deleted. `Metadata.Enrich` models that case faithfully but states nothing more about it.
- Metadata.EnrichFails: same `phys_addr` assumption as `Metadata.UnifySpec`.
- Metadata.EnrichRegions: same `phys_addr` assumption as `Metadata.UnifySpec`.
- Metadata.EnrichRemaining: same `phys_addr` assumption as `Metadata.UnifySpec`.
- Metadata.ConsumedOnce: same `phys_addr` assumption as `Metadata.UnifySpec`.
- Metadata.EnrichOneSpec: same `phys_addr` assumption as `Metadata.UnifySpec`.
- Metadata.AddressIndex: its ensures states only that the index has no repeated key. Its failures and lookups are stated by `Metadata.AddressIndexLookup`.
- Metadata.EnrichOne: its ensures states only that both dictionaries stay proper. The pass itself is characterised by `Metadata.EnrichOneSpec`.
- Metadata.Enrich: its ensures states only that the names are kept and the dictionaries stay proper. Failure, merging and leftovers are stated by `Metadata.EnrichFails`, `Metadata.EnrichRegions` and `Metadata.EnrichRemaining`.
- Metadata.PromoteOrphans: its ensures states only that the result is a proper dictionary. Its contents are stated by `Metadata.PromoteOrphansSpec`.
- Metadata.Unify: its ensures states only that the result is a proper dictionary. Its contents are stated by `Metadata.UnifySpec`.
- Metadata.FirstPsMemory: its ensures bounds the result and the errors. Which region is found, and when each error arises, are stated by `Metadata.FirstPsMemoryAt` and `Metadata.FirstPsMemoryNone`.
- BitHeader.ReadLength: its ensures states when the read succeeds, not the value read. The value of an encoded two-byte length is stated by `BitHeaderLemmas.LengthRead`.
- The header's `length` entry is kept as the number itself (`BitHeader.Header.length`), not as the decimal string `str(length)` that the source stores in the dictionary (pynq_vision_xclbin_sobel/embedded_device.py:91). `Strings.DecimalRoundTrip` shows the two carry the same information for a non-negative length.
- BitHeader.ReadText: its ensures states the length of the text, not its characters. Decoding is stated by `BitHeaderLemmas.TerminatedTextDecodes` and `BitHeaderLemmas.RoundTrip`.
- Handlers.HandlerKind: its ensures states only the error raised. Which handler each name selects is stated by `Handlers.HandlerKindSpec`.
- Handlers.Name: its ensures states only that the component holds no `/`. The suffix taken from it is stated by `Handlers.SuffixIs`.
- OrderedDicts.Update: its ensures states only the key order. Lookups after the update are stated by `OrderedDicts.UpdateGet`.
- Metadata values are limited to `None`, integers and strings. Regions holding other Python values are not modelled.
- `Path.suffix` is modelled on the last component after trailing slashes are removed. `.` and `..` components and platform-specific separators are not.
- UartFrames.TxFrame: frames are followed with the transmitter disabled and its stream empty while busy. This is not a restriction, because the transmitter reads neither outside idle (`UartCore.TxBusyStep`).
- UartFrames.RxFrame: the receiver is enabled with room in its stream, and the divisor is at least 3. A divisor of 1 or 2 is not covered, because the receiver's half-divisor start sample then falls in the slot after the start bit rather than inside it.
- UartFrames.RxFrameOn: same enabled, not-full and divisor-at-least-3 conditions as `UartFrames.RxFrame`.
- UartFrames.Loopback: one byte is followed through the loopback, with divisor at least 3. The testbench's five-byte run and its iteration bound are not modelled.
- The HLS interface pragmas, the AXI-Stream `keep`/`last` sideband fields and clock-level timing are not modelled. The model has one step per call of `uart_hls`.
- The UART driver's streaming helpers (`send_byte`, `receive_bytes`, `wait_tx_done`, DMA configuration, `print_status`) are left out: they are outside the modelled core and depend on time and DMA.
- `set_baud_rate` is modelled for integer arguments. The console message and the read-back that feeds it are left out. The read-back divides by the divisor read from the register; on a register that holds its write that is the divisor just written, which `UartDriver.SetBaudRateSpec` proves positive, so the division cannot fail. A register reading 0 would make it raise `ZeroDivisionError`, which the model does not follow.
- In `self_test` the exception handler is unreachable, since every call it makes gets a valid argument. The model therefore has no exception path. A device whose writes do not take is modelled as a set of stuck registers.
- PWM arguments are modelled as integers, booleans (as Python's `isinstance(x, int)` accepts them) or other values. Floats and other integer subclasses are not distinguished further.
- `pynq.MMIO` is not part of this model. Its accesses are taken to raise without touching the device when the word lies beyond the mapped 128 bytes or when the data written is not exactly an `int`, as for a `bool` (`PwmDriver.MmioWrite`). Which exception class it raises is not distinguished.

## Findings

| source | as written | input that shows it | evidently intended | confidence | as-written member | corrected member |
|---|---|---|---|---|---|---|
| pynq_vision_xclbin_sobel/embedded_device.py:54-94 | lengths are read signed (`>h`, `>i`), so a negative leading length moves the scan backwards and a payload can be shorter than declared | the 8 bytes FF F6 65 00 00 00 09 AA parse with declared length 9 and a one-byte payload; through `bit2bin`, FF F3 65 00 00 00 0F 01 02 03 04 declares 15 payload bytes and converts to a 4-byte image (`Payload.Bit2BinShortImage`) | lengths read unsigned (`>H`, `>I`), so the payload is always the declared trailing bytes | not executed | `BitHeaderLemmas.SignedLengthShortPayload` | `BitHeaderLemmas.ParseBitHeaderUnsignedPayload` |
| hls-uart/src/uart_hls.cpp:191-196 | reset clears `tx_busy` and the counters but leaves the transmit and receive machines in their state | a reset call while the transmitter is sending data bits: the status reads 0 and the next call carries on with the frame | reset returns both machines to idle, so the busy flag covers every frame in progress | not executed | `UartCore.ResetHidesFrame` | `UartCore.WholeResetKeepsBusy` |

=== FILE: bitfield.dfy ===
/** Read-modify-write of a bit range in 32-bit device registers, the
    operation behind `Register(addr)[hi:lo] = value` in
    `set_axi_port_width` (pynq_vision_xclbin_sobel/embedded_device.py).
    The register class itself belongs to the host library; here a register
    is a sequence of 32 bits, least significant first, a register file maps
    addresses to registers, and an address never written reads as zero. */
module Bitfield {
  import opened Bytes
  import opened OrderedDicts

  type Word = w: seq<bool> | |w| == 32 witness seq(32, _ => false)

  /** The low `n` bits of `v`, least significant first. */
  function Bits(v: nat, n: nat): (r: seq<bool>)
    ensures |r| == n
  {
    if n == 0 then [] else [v % 2 == 1] + Bits(v / 2, n - 1)
  }

  /** The number whose bits, least significant first, are `b`. */
  function Value(b: seq<bool>): (r: nat)
    ensures r < Pow2(|b|)
  {
    if |b| == 0 then 0 else (if b[0] then 1 else 0) + 2 * Value(b[1..])
  }

  /** A number below `2**n` survives the trip through its `n` bits. */
  lemma {:induction false} ValueBits(v: nat, n: nat)
    requires v < Pow2(n)
    ensures Value(Bits(v, n)) == v
  {
    if n > 0 {
      ValueBits(v / 2, n - 1);
      assert Bits(v, n)[1..] == Bits(v / 2, n - 1);
    }
  }

  /** `n` bits rebuild the number they came from. */
  lemma {:induction false} BitsValue(b: seq<bool>)
    ensures Bits(Value(b), |b|) == b
    decreases |b|
  {
    if |b| > 0 {
      BitsValue(b[1..]);
      var v := Value(b);
      assert v % 2 == 1 <==> b[0];
      assert v / 2 == Value(b[1..]);
    }
  }

  /** Bit `k` of the sequence is bit `k` of the number, `(v >> k) & 1`. */
  lemma {:induction false} BitsAt(v: nat, n: nat, k: nat)
    requires k < n
    ensures Bits(v, n)[k] == ((v / Pow2(k)) % 2 == 1)
    decreases k
  {
    if k > 0 {
      BitsAt(v / 2, n - 1, k - 1);
      HalfThenDivide(v, Pow2(k - 1));
    }
  }

  /** The single bit of `2**j` is bit `j`. */
  lemma {:induction false} BitsPow2(j: nat, n: nat, k: nat)
    requires k < n
    ensures Bits(Pow2(j), n)[k] == (j == k)
    decreases n
  {
    if k > 0 {
      if j > 0 {
        assert Pow2(j) / 2 == Pow2(j - 1);
        BitsPow2(j - 1, n - 1, k - 1);
      } else {
        BitsZero(n - 1, k - 1);
      }
    }
  }

  lemma {:induction false} BitsZero(n: nat, k: nat)
    requires k < n
    ensures !Bits(0, n)[k]
    decreases n
  {
    if k > 0 {
      BitsZero(n - 1, k - 1);
    }
  }

  /** Bits `hi` down to `lo` of the register at `addr`. */
  datatype Field = Field(addr: nat, hi: nat, lo: nat)

  predicate Valid(f: Field) {
    f.lo <= f.hi < 32
  }

  function Width(f: Field): nat
    requires Valid(f)
  {
    f.hi - f.lo + 1
  }

  /** `v` has no bits beyond the field's width. */
  predicate Fits(f: Field, v: nat)
    requires Valid(f)
  {
    v < Pow2(Width(f))
  }

  /** Two fields share no bit: different registers, or ranges that do not
      overlap. */
  predicate Disjoint(f: Field, g: Field) {
    f.addr != g.addr || f.hi < g.lo || g.hi < f.lo
  }

  type Registers = map<nat, Word>

  function Peek(m: Registers, addr: nat): Word {
    if addr in m then m[addr] else seq(32, _ => false)
  }

  function ReadField(m: Registers, f: Field): (r: nat)
    requires Valid(f)
    ensures Fits(f, r)
  {
    Value(Peek(m, f.addr)[f.lo..f.hi + 1])
  }

  /** Write the low bits of `v` into the field, keeping the register's other
      bits. */
  function WriteField(m: Registers, f: Field, v: nat): (r: Registers)
    requires Valid(f)
    ensures forall a :: a != f.addr ==> Peek(r, a) == Peek(m, a)
    ensures forall i :: 0 <= i < 32 && (i < f.lo || f.hi < i) ==>
      Peek(r, f.addr)[i] == Peek(m, f.addr)[i]
    ensures Peek(r, f.addr)[f.lo..f.hi + 1] == Bits(v, Width(f))
  {
    var w := Peek(m, f.addr);
    var w' := w[..f.lo] + Bits(v, Width(f)) + w[f.hi + 1..];
    assert w'[f.lo..f.hi + 1] == Bits(v, Width(f));
    m[f.addr := w']
  }

  /** A value that fits reads back from the field it was written to. */
  lemma ReadBack(m: Registers, f: Field, v: nat)
    requires Valid(f) && Fits(f, v)
    ensures ReadField(WriteField(m, f, v), f) == v
  {
    ValueBits(v, Width(f));
  }

  /** Writing a field leaves every field disjoint from it as it was. */
  lemma WriteKeepsDisjoint(m: Registers, f: Field, v: nat, g: Field)
    requires Valid(f) && Valid(g) && Disjoint(f, g)
    ensures ReadField(WriteField(m, f, v), g) == ReadField(m, g)
  {
    var r := WriteField(m, f, v);
    assert Peek(r, g.addr)[g.lo..g.hi + 1] == Peek(m, g.addr)[g.lo..g.hi + 1];
  }

  /** Each write's field is valid and its value fits. */
  predicate ValidWrites(w: seq<(Field, nat)>) {
    forall k :: 0 <= k < |w| ==> Valid(w[k].0) && Fits(w[k].0, w[k].1)
  }

  /** Perform the writes in order. */
  function Apply(m: Registers, w: seq<(Field, nat)>): Registers
    requires ValidWrites(w)
    decreases |w|
  {
    if |w| == 0 then m else Apply(WriteField(m, w[0].0, w[0].1), w[1..])
  }

  /** When every write targets `g` itself or a field disjoint from it, `g` ends
      up holding the last value written to it, or its old contents if none
      was. */
  lemma {:induction false} ApplyRead(m: Registers, w: seq<(Field, nat)>, g: Field)
    requires ValidWrites(w) && Valid(g)
    requires forall k :: 0 <= k < |w| ==> w[k].0 == g || Disjoint(w[k].0, g)
    ensures ReadField(Apply(m, w), g) ==
      match GetLast(w, g)
      case None => ReadField(m, g)
      case Some(v) => v
    decreases |w|
  {
    if |w| > 0 {
      var m' := WriteField(m, w[0].0, w[0].1);
      assert forall k :: 0 <= k < |w| - 1 ==> w[1..][k] == w[k + 1];
      ApplyRead(m', w[1..], g);
      KeysTail(w, g);
      if w[0].0 == g {
        ReadBack(m, g, w[0].1);
      } else {
        WriteKeepsDisjoint(m, w[0].0, w[0].1, g);
      }
    }
  }
}

=== FILE: bitheader.dfy ===
/** The tagged-field header of a `.bit` configuration file, as `parse_bit_header`
    scans it (pynq_vision_xclbin_sobel/embedded_device.py).

    The file starts with a length-prefixed opaque field and a two-byte field,
    both skipped. Then come one-byte tags: 0x61..0x64 carry a two-byte length and
    that many ASCII bytes whose last character (a terminator) is dropped; 0x65
    carries a four-byte length and the payload, which must end exactly at the end
    of the input. Offsets follow Python's indexing rules, so a negative length
    can move the scan backwards from the end of the input. */
module BitHeader {
  import opened Results
  import opened Bytes
  import PySeq
  import Strings

  datatype ParseError =
    | Truncated(offset: int)       // struct.error: fewer bytes than the format needs
    | NegativeLength(offset: int)  // struct.error: a '>{n}s' format with negative n
    | NoTag(offset: int)           // IndexError reading the next tag byte
    | NotAscii(offset: int)        // UnicodeDecodeError from decode('ascii')
    | InvalidLength                // "Invalid length found"
    | UnknownField(tag: byte)      // "Unknown field: 0x.."

  /** The text entries of the returned dictionary; `None` where the tag never occurred. */
  datatype Fields = Fields(
    design: Option<string>,
    version: Option<string>,
    part: Option<string>,
    date: Option<string>,
    time: Option<string>)

  const NoFields := Fields(None, None, None, None, None)

  /** A successful scan: the text entries, the declared payload length
      (stored by the source as `str(length)`) and the payload bytes. */
  datatype Header = Header(fields: Fields, length: int, data: seq<byte>)

  /** How the two- and four-byte lengths are read: `Signed` is what the source
      does ('>h' and '>i'); `Unsigned` ('>H' and '>I') is the corrected reading. */
  datatype LengthMode = Signed | Unsigned

  /** The payload is the last `length` bytes of the input. */
  predicate PayloadIsSuffix(contents: seq<byte>, h: Header) {
    0 <= h.length <= |contents| && h.data == contents[|contents| - h.length..]
  }

  /** `struct.unpack(fmt, contents[offset:offset + width])[0]` for a length field. */
  function ReadLength(contents: seq<byte>, offset: int, width: nat, mode: LengthMode): (r: Result<int, ParseError>)
    requires width == 2 || width == 4
    ensures r.Ok? <==> |PySeq.Slice(contents, offset, offset + width)| == width
    ensures r.Ok? && mode == Unsigned ==> r.value >= 0
  {
    var b := PySeq.Slice(contents, offset, offset + width);
    if |b| != width then Err(Truncated(offset))
    else if mode == Signed then Ok(ToSigned(BeUnsigned(b), width))
    else Ok(BeUnsigned(b))
  }

  /** `s[:-1]`: drops the last character, if any. */
  function DropLast(s: string): string {
    if |s| == 0 then s else s[..|s| - 1]
  }

  /** A text field body: `length` bytes at `offset`, decoded as ASCII, with the
      final character (the terminator) dropped. */
  function ReadText(contents: seq<byte>, offset: int, length: int): (r: Result<string, ParseError>)
    ensures r.Ok? ==> length >= 0
    ensures r.Ok? ==> |r.value| == if length == 0 then 0 else length - 1
  {
    if length < 0 then Err(NegativeLength(offset))
    else
      var b := PySeq.Slice(contents, offset, offset + length);
      if |b| != length then Err(Truncated(offset))
      else if !IsAscii(b) then Err(NotAscii(offset))
      else Ok(DropLast(AsciiDecode(b)))
  }

  /** The dictionary entries a text tag sets; 0x61 splits its text on ';'. */
  function SetField(f: Fields, tag: byte, text: string): (r: Fields)
    requires 0x61 <= tag <= 0x64
  {
    if tag == 0x61 then
      var s := Strings.Split(text, ';');
      f.(design := Some(s[0]), version := Some(s[|s| - 1]))
    else if tag == 0x62 then f.(part := Some(text))
    else if tag == 0x63 then f.(date := Some(text))
    else f.(time := Some(text))
  }

  /** Tag 0x61 stores the text before the first ';' as the design and the text
      after the last ';' as the version; 0x62..0x64 store the whole text as part,
      date and time. Each tag sets only its own entries. */
  lemma SetFieldEntries(f: Fields, tag: byte, text: string)
    requires 0x61 <= tag <= 0x64
    ensures var r := SetField(f, tag, text);
      && (tag == 0x61 ==>
            && r.design.Some? && Strings.LeadingSegment(r.design.value, text, ';')
            && r.version.Some? && Strings.TrailingSegment(r.version.value, text, ';')
            && r.part == f.part && r.date == f.date && r.time == f.time)
      && (tag == 0x62 ==> r == f.(part := Some(text)))
      && (tag == 0x63 ==> r == f.(date := Some(text)))
      && (tag == 0x64 ==> r == f.(time := Some(text)))
  {
    if tag == 0x61 {
      var segs := Strings.Split(text, ';');
      assert SetField(f, tag, text) == f.(design := Some(segs[0]), version := Some(segs[|segs| - 1]));
      Strings.FirstSegment(text, ';');
      Strings.LastSegment(text, ';');
    }
  }

  /** The offset of the payload after the payload tag at `offset`: one tag
      byte and four length bytes precede it. */
  function PayloadStart(offset: int): int {
    offset + 1 + 4
  }

  /** The offset of the tag after a text field at `offset` whose body is
      `length` bytes: one tag byte and two length bytes precede the body. */
  function NextTag(offset: int, length: int): int {
    offset + 3 + length
  }

  /** The `while not finished` loop, from the tag at `offset` on. */
  function Scan(contents: seq<byte>, offset: int, acc: Fields, mode: LengthMode): Result<Header, ParseError>
    decreases if offset < |contents| then |contents| - offset else 0
  {
    match PySeq.Index(|contents|, offset)
    case None => Err(NoTag(offset))
    case Some(p) =>
      var desc := contents[p];
      var afterTag := offset + 1;
      if desc == 0x65 then
        match ReadLength(contents, afterTag, 4, mode)
        case Err(e) => Err(e)
        case Ok(length) =>
          var start := PayloadStart(offset);
          if length + start != |contents| then Err(InvalidLength)
          else Ok(Header(acc, length, PySeq.Slice(contents, start, start + length)))
      else
        match ReadLength(contents, afterTag, 2, mode)
        case Err(e) => Err(e)
        case Ok(length) =>
          match ReadText(contents, offset + 3, length)
          case Err(e) => Err(e)
          case Ok(text) =>
            var next := NextTag(offset, length);
            if 0x61 <= desc <= 0x64 then Scan(contents, next, SetField(acc, desc, text), mode)
            else Err(UnknownField(desc))
  }

  /** The offset of the first tag: past the two-byte length, the `lead` bytes
      it announces and the two-byte field after them. */
  function FirstTag(lead: int): int {
    2 + lead + 2
  }

  /** Skips the length-prefixed first field and the two-byte field, then scans. */
  function ParseWith(contents: seq<byte>, mode: LengthMode): (r: Result<Header, ParseError>)
  {
    match ReadLength(contents, 0, 2, mode)
    case Err(e) => Err(e)
    case Ok(lead) => Scan(contents, FirstTag(lead), NoFields, mode)
  }

  /** The leading length as the source reads it ('>h'). */
  function LeadingLength(contents: seq<byte>): int
    requires |contents| >= 2
  {
    ToSigned(BeUnsigned(contents[..2]), 2)
  }

  /** `parse_bit_header` as written, with signed length reads. */
  function ParseBitHeader(contents: seq<byte>): Result<Header, ParseError> {
    ParseWith(contents, Signed)
  }

  /** `parse_bit_header` with unsigned length reads. */
  function ParseBitHeaderUnsigned(contents: seq<byte>): Result<Header, ParseError> {
    ParseWith(contents, Unsigned)
  }
}

=== FILE: bitheader_lemmas.dfy ===
/** What the `.bit` header scanner promises: a well-formed file built from its
    fields decodes back to those fields, malformed input is rejected, and the
    signed length reads of the source admit a payload shorter than declared. */
module BitHeaderLemmas {
  import opened Results
  import opened Bytes
  import PySeq
  import opened BitHeader

  /** A text field of the header: tag 0x61..0x64 and its text without terminator. */
  datatype TextField = TextField(tag: byte, text: string)

  predicate ValidField(f: TextField) {
    && 0x61 <= f.tag <= 0x64
    && |f.text| + 1 < 0x8000
    && forall i :: 0 <= i < |f.text| ==> f.text[i] as int < 128
  }

  predicate ValidFields(fs: seq<TextField>) {
    forall i :: 0 <= i < |fs| ==> ValidField(fs[i])
  }

  /** A text field on disk: tag, two-byte length, the ASCII text and a NUL. */
  function EncodeField(f: TextField): seq<byte>
    requires ValidField(f)
  {
    [f.tag] + Be16(|f.text| + 1) + AsciiEncode(f.text) + [0]
  }

  function EncodeFields(fs: seq<TextField>): seq<byte>
    requires ValidFields(fs)
  {
    if |fs| == 0 then [] else EncodeField(fs[0]) + EncodeFields(fs[1..])
  }

  /** The terminal field: tag 0x65, four-byte length and the payload. */
  function EncodePayload(payload: seq<byte>): seq<byte>
    requires |payload| < 0x8000_0000
  {
    [0x65] + Be32(|payload|) + payload
  }

  /** A complete `.bit` file: the length-prefixed leading field, the two-byte
      field, the text fields and the payload. */
  function EncodeBitFile(lead: seq<byte>, skip: seq<byte>, fs: seq<TextField>, payload: seq<byte>): seq<byte>
    requires |lead| < 0x8000 && |skip| == 2 && ValidFields(fs) && |payload| < 0x8000_0000
  {
    Be16(|lead|) + lead + skip + EncodeFields(fs) + EncodePayload(payload)
  }

  /** The dictionary the scan builds from a list of text fields, later tags
      overwriting earlier ones. */
  function ApplyFields(acc: Fields, fs: seq<TextField>): Fields
    requires ValidFields(fs)
    decreases |fs|
  {
    if |fs| == 0 then acc else ApplyFields(SetField(acc, fs[0].tag, fs[0].text), fs[1..])
  }

  /** Splitting `contents` after `offset` into two known parts. */
  lemma SuffixParts(contents: seq<byte>, offset: int, x: seq<byte>, y: seq<byte>, n: int)
    requires 0 <= offset <= |contents| && n == offset + |x|
    requires contents[offset..] == x + y
    ensures n + |y| == |contents|
    ensures contents[offset..n] == x
    ensures contents[n..] == y
  {
    assert contents[offset..][..|x|] == x;
    assert contents[offset..][|x|..] == y;
  }

  /** Scanning the encoded terminal field yields the payload. */
  lemma ScanPayload(contents: seq<byte>, offset: int, acc: Fields, payload: seq<byte>, mode: LengthMode)
    requires 0 <= offset <= |contents| && |payload| < 0x8000_0000
    requires contents[offset..] == EncodePayload(payload)
    ensures Scan(contents, offset, acc, mode) == Ok(Header(acc, |payload|, payload))
  {
    var enc := Be32(|payload|);
    SuffixParts(contents, offset, [0x65], enc + payload, offset + 1);
    SuffixParts(contents, offset + 1, enc, payload, offset + 5);
    assert contents[offset] == 0x65 by {
      assert contents[offset..offset + 1] == [0x65];
    }
    assert PySeq.Slice(contents, offset + 1, offset + 5) == enc;
    assert ReadLength(contents, offset + 1, 4, mode) == Ok(|payload|);
    assert PySeq.Slice(contents, offset + 5, offset + 5 + |payload|) == payload;
  }

  /** One turn of the scan over a text tag whose length and text read cleanly. */
  lemma ScanTextStep(contents: seq<byte>, offset: int, acc: Fields, mode: LengthMode,
                     tag: byte, len: int, text: string)
    requires 0 <= offset < |contents| && contents[offset] == tag && 0x61 <= tag <= 0x64
    requires ReadLength(contents, offset + 1, 2, mode) == Ok(len)
    requires ReadText(contents, offset + 3, len) == Ok(text)
    ensures Scan(contents, offset, acc, mode) == Scan(contents, NextTag(offset, len), SetField(acc, tag, text), mode)
  {
    PySeq.IndexInside(|contents|, offset);
  }

  /** An ASCII text followed by a NUL decodes back to the text once the
      terminator is dropped. */
  lemma TerminatedTextDecodes(text: string)
    requires forall i :: 0 <= i < |text| ==> text[i] as int < 128
    ensures IsAscii(AsciiEncode(text) + [0])
    ensures DropLast(AsciiDecode(AsciiEncode(text) + [0])) == text
  {
    var body := AsciiEncode(text) + [0];
    var d := AsciiDecode(body);
    assert d[..|text|] == AsciiDecode(AsciiEncode(text));
  }

  /** The tag, length and text of an encoded text field read back cleanly. */
  lemma FieldReads(contents: seq<byte>, offset: int, f: TextField, rest: seq<byte>, mode: LengthMode)
    requires 0 <= offset <= |contents| && ValidField(f)
    requires contents[offset..] == EncodeField(f) + rest
    ensures offset < |contents| && contents[offset] == f.tag
    ensures ReadLength(contents, offset + 1, 2, mode) == Ok(|f.text| + 1)
    ensures ReadText(contents, offset + 3, |f.text| + 1) == Ok(f.text)
    ensures offset + 3 + |f.text| + 1 <= |contents| && contents[offset + 3 + |f.text| + 1..] == rest
  {
    var end := offset + 3 + |f.text| + 1;
    FieldParts(contents, offset, f, rest, end);
    LengthRead(contents, offset + 1, offset + 3, |f.text| + 1, mode);
    TextRead(contents, offset + 3, end, f.text);
  }

  /** An encoded text field cut into its tag, length, text and what follows. */
  lemma FieldParts(contents: seq<byte>, offset: int, f: TextField, rest: seq<byte>, end: int)
    requires 0 <= offset <= |contents| && ValidField(f)
    requires contents[offset..] == EncodeField(f) + rest && end == offset + 3 + |f.text| + 1
    ensures offset < |contents| && contents[offset] == f.tag
    ensures offset + 3 <= |contents| && contents[offset + 1..offset + 3] == Be16(|f.text| + 1)
    ensures end <= |contents| && contents[offset + 3..end] == AsciiEncode(f.text) + [0]
    ensures contents[end..] == rest
  {
    var len := Be16(|f.text| + 1);
    var body := AsciiEncode(f.text) + [0];
    assert EncodeField(f) + rest == [f.tag] + (len + (body + rest));
    SuffixParts(contents, offset, [f.tag], len + (body + rest), offset + 1);
    SuffixParts(contents, offset + 1, len, body + rest, offset + 3);
    SuffixParts(contents, offset + 3, body, rest, end);
    assert contents[offset] == contents[offset..offset + 1][0];
  }

  lemma LengthRead(contents: seq<byte>, offset: int, end: int, n: nat, mode: LengthMode)
    requires 0 <= offset && end == offset + 2 && end <= |contents| && n < 0x8000
    requires contents[offset..end] == Be16(n)
    ensures ReadLength(contents, offset, 2, mode) == Ok(n)
  {
    assert PySeq.Slice(contents, offset, offset + 2) == Be16(n);
  }

  lemma TextRead(contents: seq<byte>, offset: int, end: int, text: string)
    requires forall i :: 0 <= i < |text| ==> text[i] as int < 128
    requires 0 <= offset && end == offset + |text| + 1 && end <= |contents|
    requires contents[offset..end] == AsciiEncode(text) + [0]
    ensures ReadText(contents, offset, |text| + 1) == Ok(text)
  {
    assert PySeq.Slice(contents, offset, offset + |text| + 1) == AsciiEncode(text) + [0];
    TerminatedTextDecodes(text);
  }

  /** Scanning one encoded text field applies it and moves past it. */
  lemma ScanOneField(contents: seq<byte>, offset: int, acc: Fields, f: TextField, rest: seq<byte>, mode: LengthMode)
    returns (next: int)
    requires 0 <= offset <= |contents| && ValidField(f)
    requires contents[offset..] == EncodeField(f) + rest
    ensures 0 <= next <= |contents| && contents[next..] == rest
    ensures Scan(contents, offset, acc, mode) == Scan(contents, next, SetField(acc, f.tag, f.text), mode)
  {
    var len := |f.text| + 1;
    next := NextTag(offset, len);
    assert && contents[offset] == f.tag
           && ReadLength(contents, offset + 1, 2, mode) == Ok(len)
           && ReadText(contents, offset + 3, len) == Ok(f.text)
           && 0 <= next <= |contents| && contents[next..] == rest by {
      FieldReads(contents, offset, f, rest, mode);
    }
    ScanTextStep(contents, offset, acc, mode, f.tag, len, f.text);
  }

  /** Scanning encoded text fields followed by the payload. */
  lemma {:induction false} ScanEncoded(contents: seq<byte>, offset: int, acc: Fields, fs: seq<TextField>,
                                       payload: seq<byte>, mode: LengthMode)
    requires 0 <= offset <= |contents| && ValidFields(fs) && |payload| < 0x8000_0000
    requires contents[offset..] == EncodeFields(fs) + EncodePayload(payload)
    ensures Scan(contents, offset, acc, mode) == Ok(Header(ApplyFields(acc, fs), |payload|, payload))
    decreases |fs|
  {
    if |fs| == 0 {
      ScanPayload(contents, offset, acc, payload, mode);
    } else {
      var f := fs[0];
      assert ValidField(f);
      var rest := EncodeFields(fs[1..]) + EncodePayload(payload);
      assert contents[offset..] == EncodeField(f) + rest;
      var next := ScanOneField(contents, offset, acc, f, rest, mode);
      assert ValidFields(fs[1..]) by {
        forall i | 0 <= i < |fs| - 1 ensures ValidField(fs[1..][i]) {
          assert fs[1..][i] == fs[i + 1];
        }
      }
      ScanEncoded(contents, next, SetField(acc, f.tag, f.text), fs[1..], payload, mode);
    }
  }

  /** Decoding an encoded `.bit` file gives back its fields, its declared length
      and its payload, whichever way the lengths are read. */
  lemma RoundTrip(lead: seq<byte>, skip: seq<byte>, fs: seq<TextField>, payload: seq<byte>, mode: LengthMode)
    requires |lead| < 0x8000 && |skip| == 2 && ValidFields(fs) && |payload| < 0x8000_0000
    ensures ParseWith(EncodeBitFile(lead, skip, fs, payload), mode)
         == Ok(Header(ApplyFields(NoFields, fs), |payload|, payload))
  {
    var c := EncodeBitFile(lead, skip, fs, payload);
    var body := EncodeFields(fs) + EncodePayload(payload);
    assert c == Be16(|lead|) + (lead + skip + body);
    SuffixParts(c, 0, Be16(|lead|), lead + skip + body, 2);
    assert PySeq.Slice(c, 0, 2) == Be16(|lead|);
    assert ReadLength(c, 0, 2, mode) == Ok(|lead|);
    SuffixParts(c, 2, lead + skip, body, 2 + |lead| + 2);
    ScanEncoded(c, FirstTag(|lead|), NoFields, fs, payload, mode);
  }

  /** At the payload tag, a scan that succeeds returns the trailing bytes it
      declares. */
  lemma ScanEndStep(contents: seq<byte>, offset: int, acc: Fields, mode: LengthMode)
    requires 0 <= offset < |contents| && contents[offset] == 0x65
    ensures var r := Scan(contents, offset, acc, mode); r.Ok? ==> PayloadIsSuffix(contents, r.value)
  {
    var length := ReadLength(contents, offset + 1, 4, mode);
    if length.Err? {
      ScanEndTurn(contents, offset, acc, mode);
    } else {
      var n := length.value;
      var start := PayloadStart(offset);
      ScanEndTurn(contents, offset, acc, mode);
      if n + start == |contents| {
        assert |PySeq.Slice(contents, offset + 1, offset + 1 + 4)| == 4;
        assert 0 <= n;
        assert PySeq.Slice(contents, start, start + n) == contents[|contents| - n..];
      }
    }
  }

  /** One turn of the scan at the payload tag. */
  lemma ScanEndTurn(contents: seq<byte>, offset: int, acc: Fields, mode: LengthMode)
    requires 0 <= offset < |contents| && contents[offset] == 0x65
    ensures var length := ReadLength(contents, offset + 1, 4, mode);
      var start := PayloadStart(offset);
      Scan(contents, offset, acc, mode)
        == if length.Err? then Err(length.error)
           else if length.value + start != |contents| then Err(InvalidLength)
           else Ok(Header(acc, length.value, PySeq.Slice(contents, start, start + length.value)))
  {
    PySeq.IndexInside(|contents|, offset);
  }

  /** At any other tag, the scan fails unless the length and text read cleanly
      and the tag is a text tag. */
  lemma ScanTextFails(contents: seq<byte>, offset: int, acc: Fields, mode: LengthMode)
    requires 0 <= offset < |contents| && contents[offset] != 0x65
    requires var len := ReadLength(contents, offset + 1, 2, mode);
      !(len.Ok? && ReadText(contents, offset + 3, len.value).Ok? && 0x61 <= contents[offset] <= 0x64)
    ensures Scan(contents, offset, acc, mode).Err?
  {
    PySeq.IndexInside(|contents|, offset);
  }

  /** A scan from a non-negative offset that succeeds returns the trailing
      bytes it declares as the payload. */
  lemma {:induction false} ScanSuffix(contents: seq<byte>, offset: int, acc: Fields, mode: LengthMode)
    requires offset >= 0
    ensures var r := Scan(contents, offset, acc, mode); r.Ok? ==> PayloadIsSuffix(contents, r.value)
    decreases if offset < |contents| then |contents| - offset else 0
  {
    if offset >= |contents| {
      assert PySeq.Index(|contents|, offset) == None;
    } else if contents[offset] == 0x65 {
      ScanEndStep(contents, offset, acc, mode);
    } else {
      var tag := contents[offset];
      var length := ReadLength(contents, offset + 1, 2, mode);
      if length.Ok? && ReadText(contents, offset + 3, length.value).Ok? && 0x61 <= tag <= 0x64 {
        var text := ReadText(contents, offset + 3, length.value).value;
        var next := NextTag(offset, length.value);
        ScanTextStep(contents, offset, acc, mode, tag, length.value, text);
        ScanSuffix(contents, next, SetField(acc, tag, text), mode);
      } else {
        ScanTextFails(contents, offset, acc, mode);
      }
    }
  }

  /** A parse whose scan starts at a non-negative offset returns the declared
      trailing bytes as its payload. */
  lemma ParseSuffix(contents: seq<byte>, mode: LengthMode)
    ensures var r := ParseWith(contents, mode);
      r.Ok? ==> (ReadLength(contents, 0, 2, mode).Ok?
                 && (ReadLength(contents, 0, 2, mode).value + 4 >= 0 ==> PayloadIsSuffix(contents, r.value)))
  {
    var lead := ReadLength(contents, 0, 2, mode);
    if lead.Ok? {
      ParseIsScan(contents, mode, lead.value);
      if FirstTag(lead.value) >= 0 {
        ScanSuffix(contents, FirstTag(lead.value), NoFields, mode);
      }
    } else {
      assert ParseWith(contents, mode) == Err(lead.error);
    }
  }

  /** Once the leading length reads, parsing is scanning from past the two
      skipped fields. */
  lemma ParseIsScan(contents: seq<byte>, mode: LengthMode, lead: int)
    requires ReadLength(contents, 0, 2, mode) == Ok(lead)
    ensures ParseWith(contents, mode) == Scan(contents, FirstTag(lead), NoFields, mode)
  {
  }

  /** `parse_bit_header` as written returns the declared number of trailing
      bytes as the payload, provided the leading length does not send the scan
      to a negative offset. */
  lemma ParseBitHeaderPayload(contents: seq<byte>)
    ensures var r := ParseBitHeader(contents);
      r.Ok? ==> |contents| >= 2 && (LeadingLength(contents) >= -4 ==> PayloadIsSuffix(contents, r.value))
  {
    ParseSuffix(contents, Signed);
    if ParseBitHeader(contents).Ok? {
      assert PySeq.Slice(contents, 0, 2) == contents[..2];
    }
  }

  /** With unsigned length reads the payload is always the declared number of
      trailing bytes. */
  lemma ParseBitHeaderUnsignedPayload(contents: seq<byte>)
    ensures var r := ParseBitHeaderUnsigned(contents);
      r.Ok? ==> PayloadIsSuffix(contents, r.value) && |r.value.data| == r.value.length
  {
    ParseSuffix(contents, Unsigned);
  }

  /** A tag outside 0x61..0x65 is never accepted; once its length and text read
      cleanly, the error is "Unknown field" naming the tag. */
  lemma UnknownTagRejected(contents: seq<byte>, offset: int, acc: Fields, mode: LengthMode)
    requires 0 <= offset < |contents|
    requires !(0x61 <= contents[offset] <= 0x65)
    ensures Scan(contents, offset, acc, mode).Err?
    ensures var len := ReadLength(contents, offset + 1, 2, mode);
      len.Ok? && ReadText(contents, offset + 3, len.value).Ok? ==>
        Scan(contents, offset, acc, mode) == Err(UnknownField(contents[offset]))
  {
  }

  /** At the payload tag, a declared length that does not reach exactly the end
      of the input raises "Invalid length found". */
  lemma MisplacedEndRejected(contents: seq<byte>, offset: int, acc: Fields, mode: LengthMode)
    requires 0 <= offset < |contents| && contents[offset] == 0x65
    requires var len := ReadLength(contents, offset + 1, 4, mode);
      len.Ok? && len.value + offset + 5 != |contents|
    ensures Scan(contents, offset, acc, mode) == Err(InvalidLength)
  {
  }

  /** The file FF F6 65 00 00 00 09 AA, read with the source's signed lengths:
      the leading length -10 moves the scan to offset -6 (Python's index 2),
      the declared length 9 passes the end-of-input check from offset -1, and
      the payload returned is the single byte AA. */
  lemma SignedLengthShortPayload()
    ensures var c: seq<byte> := [0xFF, 0xF6, 0x65, 0x00, 0x00, 0x00, 0x09, 0xAA];
      && ParseBitHeader(c) == Ok(Header(NoFields, 9, [0xAA]))
      && !PayloadIsSuffix(c, ParseBitHeader(c).value)
  {
    var c: seq<byte> := [0xFF, 0xF6, 0x65, 0x00, 0x00, 0x00, 0x09, 0xAA];
    assert c[..2] == [0xFF, 0xF6];
    assert BeUnsigned([0xFF, 0xF6]) == 0xFFF6 by {
      assert [0xFF, 0xF6][..1] == [0xFF];
      assert [0xFF][..0] == [];
    }
    assert PySeq.Slice(c, 0, 2) == [0xFF, 0xF6];
    assert ReadLength(c, 0, 2, Signed) == Ok(-10);
    assert PySeq.Index(|c|, -6) == Some(2);
    assert PySeq.Slice(c, -5, -1) == [0x00, 0x00, 0x00, 0x09];
    assert BeUnsigned([0x00, 0x00, 0x00, 0x09]) == 9 by {
      assert [0x00, 0x00, 0x00, 0x09][..3] == [0x00, 0x00, 0x00];
      assert [0x00, 0x00, 0x00][..2] == [0x00, 0x00];
      assert [0x00, 0x00][..1] == [0x00];
      assert [0x00][..0] == [];
    }
    assert ReadLength(c, -5, 4, Signed) == Ok(9);
    assert PySeq.Slice(c, -1, 8) == [0xAA];
  }

  /** The same file is rejected when the lengths are read unsigned: the leading
      length 0xFFF6 runs past the end of the input. */
  lemma UnsignedLengthRejectsShortPayload()
    ensures ParseBitHeaderUnsigned([0xFF, 0xF6, 0x65, 0x00, 0x00, 0x00, 0x09, 0xAA]).Err?
  {
  }
}

=== FILE: bytes.dfy ===
/** Bytes and the fixed-width big-endian integers that `struct.unpack` reads:
    `>h`/`>H` (two bytes) and `>i`/`>I` (four bytes). */
module Bytes {

  type byte = x: int | 0 <= x < 256

  /** `ap_uint<32>` and the 32-bit registers the drivers read and write. */
  type uint32 = x: int | 0 <= x < 0x1_0000_0000

  const Two16: int := 0x1_0000
  const Two32: int := 0x1_0000_0000

  function Pow2(k: nat): (r: nat)
    ensures r >= 1
  {
    if k == 0 then 1 else 2 * Pow2(k - 1)
  }

  lemma {:induction false} Pow2Add(a: nat, b: nat)
    ensures Pow2(a + b) == Pow2(a) * Pow2(b)
    decreases a
  {
    if a > 0 {
      Pow2Add(a - 1, b);
    }
  }

  /** `2**32` is the modulus of a 32-bit register. */
  lemma Pow2Of32()
    ensures Pow2(32) == Two32
  {
    assert Pow2(2) == 4;
    Pow2Add(2, 2);
    Pow2Add(4, 4);
    Pow2Add(8, 8);
    Pow2Add(16, 16);
  }

  /** Halving, then dividing by `p`, is dividing by `2 * p`. */
  lemma HalfThenDivide(x: nat, p: nat)
    requires p > 0
    ensures (x / 2) / p == x / (2 * p)
  {
    var q := (x / 2) / p;
    var r := (x / 2) % p;
    assert x / 2 == q * p + r;
    assert x == q * (2 * p) + (2 * r + x % 2);
    DivModUnique(x, 2 * p, q, 2 * r + x % 2);
  }

  /** Quotient and remainder are the only pair that rebuilds `x`. */
  lemma DivModUnique(x: int, d: int, q: int, r: int)
    requires d > 0 && x == q * d + r && 0 <= r < d
    ensures x / d == q && x % d == r
  {
    var q' := x / d;
    assert x == q' * d + x % d && 0 <= x % d < d;
    if q' > q {
      MulAtLeast(q' - q, d);
      assert false;
    } else if q' < q {
      MulAtLeast(q - q', d);
      assert false;
    }
  }

  lemma MulAtLeast(e: int, d: int)
    requires e >= 1 && d > 0
    ensures e * d >= d
  {
  }

  /** Unsigned big-endian value of a byte string. */
  function BeUnsigned(b: seq<byte>): (r: nat)
    decreases |b|
  {
    if |b| == 0 then 0 else BeUnsigned(b[..|b| - 1]) * 256 + b[|b| - 1]
  }

  /** Two's-complement reading of an unsigned value of `width` bytes
      (`width` is 2 or 4, as in the `h` and `i` formats). */
  function ToSigned(u: int, width: nat): (r: int)
    requires width == 2 || width == 4
  {
    var half := if width == 2 then 0x8000 else 0x8000_0000;
    if u >= half then u - 2 * half else u
  }

  /** The two bytes `struct.pack('>H', v)` produces. */
  function Be16(v: nat): (r: seq<byte>)
    requires v < Two16
    ensures |r| == 2 && BeUnsigned(r) == v
  {
    var r := [v / 256, v % 256];
    assert r[..1] == [v / 256] && [v / 256][..0] == [];
    assert BeUnsigned([v / 256]) == v / 256;
    assert BeUnsigned(r) == (v / 256) * 256 + v % 256;
    r
  }

  /** The four bytes `struct.pack('>I', v)` produces. */
  function Be32(v: nat): (r: seq<byte>)
    requires v < Two32
    ensures |r| == 4 && BeUnsigned(r) == v
  {
    var hi := v / Two16;
    var lo := v % Two16;
    assert BeUnsigned([hi / 256, hi % 256, lo / 256]) == hi * 256 + lo / 256 by {
      assert BeUnsigned(Be16(hi)) == hi;
      assert [hi / 256, hi % 256, lo / 256][..2] == Be16(hi);
    }
    assert [hi / 256, hi % 256, lo / 256, lo % 256][..3] == [hi / 256, hi % 256, lo / 256];
    [hi / 256, hi % 256, lo / 256, lo % 256]
  }

  /** Every byte is a seven-bit ASCII code. */
  predicate IsAscii(b: seq<byte>) {
    forall i :: 0 <= i < |b| ==> b[i] < 128
  }

  /** `bytes.decode('ascii')` on bytes that are all ASCII. */
  function AsciiDecode(b: seq<byte>): (r: string)
    requires IsAscii(b)
    ensures |r| == |b|
    ensures forall i :: 0 <= i < |b| ==> r[i] as int == b[i]
  {
    seq(|b|, i requires 0 <= i < |b| => b[i] as char)
  }

  /** `str.encode('ascii')` on a string whose characters are all below 128. */
  function AsciiEncode(s: string): (r: seq<byte>)
    requires forall i :: 0 <= i < |s| ==> s[i] as int < 128
    ensures |r| == |s| && IsAscii(r)
    ensures AsciiDecode(r) == s
  {
    var r := seq(|s|, i requires 0 <= i < |s| => s[i] as int as byte);
    assert AsciiDecode(r) == s by {
      forall i | 0 <= i < |s| ensures AsciiDecode(r)[i] == s[i] {
        assert AsciiDecode(r)[i] as int == s[i] as int;
      }
    }
    r
  }
}

=== FILE: handlers.dfy ===
/** Bitstream handlers (pynq_vision_xclbin_sobel/embedded_device.py): which
    handler a file name selects, the `.bin` image each handler produces, how
    `get_parser` chooses between HWH and xclbin metadata, and the FPGA manager
    flag of a download.

    Reading the bitstream and its sibling `.hwh`, `.xclbin` and `.dtbo` files,
    the HWH and xclbin parsers and the `xclbinutil` packager are outside the
    model: their results arrive as parameters. */
module Handlers {
  import opened Results
  import opened Bytes
  import Payload
  import Metadata
  import Topology
  import Strings

  /** The file name with trailing separators removed. */
  function StripTrailingSlashes(path: string): (r: string)
    ensures r <= path && (|r| == 0 || r[|r| - 1] != '/')
    decreases |path|
  {
    if |path| > 0 && path[|path| - 1] == '/' then StripTrailingSlashes(path[..|path| - 1])
    else path
  }

  /** Position of the last `c` in `s`, or -1 (`str.rfind`). */
  function RFind(s: string, c: char): (r: int)
    ensures -1 <= r < |s|
    ensures r >= 0 ==> s[r] == c
    ensures forall j :: r < j < |s| ==> s[j] != c
    decreases |s|
  {
    if |s| == 0 then -1
    else if s[|s| - 1] == c then |s| - 1
    else RFind(s[..|s| - 1], c)
  }

  /** `Path(path).name`: the last component. */
  function Name(path: string): (r: string)
    ensures '/' !in r
  {
    var p := StripTrailingSlashes(path);
    var i := RFind(p, '/');
    p[i + 1..]
  }

  /** `Path(path).suffix`: from the last dot of the name, provided the dot is
      neither the name's first nor its last character; otherwise empty. */
  function Suffix(path: string): string {
    var name := Name(path);
    var i := RFind(name, '.');
    if 0 < i < |name| - 1 then name[i..] else ""
  }

  /** An extension as the handler table spells it: a dot and a dot-free rest. */
  predicate IsExtension(ext: string) {
    |ext| >= 2 && ext[0] == '.' && '.' !in ext[1..]
  }

  /** The suffix of a path is `ext` exactly when the name ends in `ext` after a
      non-empty stem. */
  lemma SuffixIs(path: string, ext: string)
    requires IsExtension(ext)
    ensures var name := Name(path);
      Suffix(path) == ext <==> |name| > |ext| && name[|name| - |ext|..] == ext
  {
    var name := Name(path);
    var i := RFind(name, '.');
    assert Suffix(path) == if 0 < i < |name| - 1 then name[i..] else "";
    if |name| > |ext| && name[|name| - |ext|..] == ext {
      LastDotOfExtension(name, ext);
    }
  }

  /** A name ending in an extension after a non-empty stem has its last dot
      where the extension starts. */
  lemma LastDotOfExtension(name: string, ext: string)
    requires IsExtension(ext) && |name| > |ext| && name[|name| - |ext|..] == ext
    ensures RFind(name, '.') == |name| - |ext|
  {
    var k := |name| - |ext|;
    var r := RFind(name, '.');
    assert name[k] == ext[0] == '.';
    forall j | k < j < |name| ensures name[j] != '.' {
      assert name[j] == ext[j - k] == ext[1..][j - k - 1];
    }
  }

  datatype Kind = BitFile | BinFile | XclbinFile

  datatype HandlerError =
    | UnknownFormat                  // "Unknown file format"
    | NoMetadata                     // "Unable to find metadata for bitstream"
    | PackagingFailed                // "xclbinutil failed: ..."
    | BadMetadata(metaCause: Metadata.MetaError)
    | BadBitstream(binCause: Payload.BinError)

  /** `_get_bitstream_handler`: the table `.bit`, `.bin`, `.xclbin`. */
  function HandlerKind(path: string): (r: Result<Kind, HandlerError>)
    ensures r.Err? ==> r.error == UnknownFormat
  {
    var suffix := Suffix(path);
    if suffix == ".bit" then Ok(BitFile)
    else if suffix == ".bin" then Ok(BinFile)
    else if suffix == ".xclbin" then Ok(XclbinFile)
    else Err(UnknownFormat)
  }

  /** The name ends in `ext` after a non-empty stem. */
  predicate HasExtension(path: string, ext: string) {
    var name := Name(path);
    |name| > |ext| && name[|name| - |ext|..] == ext
  }

  /** Each handler is chosen exactly for names with its extension after a
      non-empty stem; every other name is an unknown format. */
  lemma HandlerKindSpec(path: string)
    ensures HandlerKind(path) == Ok(BitFile) <==> HasExtension(path, ".bit")
    ensures HandlerKind(path) == Ok(BinFile) <==> HasExtension(path, ".bin")
    ensures HandlerKind(path) == Ok(XclbinFile) <==> HasExtension(path, ".xclbin")
    ensures HandlerKind(path).Err? <==>
      !HasExtension(path, ".bit") && !HasExtension(path, ".bin") && !HasExtension(path, ".xclbin")
  {
    assert IsExtension(".bit") && IsExtension(".bin") && IsExtension(".xclbin");
    SuffixIs(path, ".bit");
    SuffixIs(path, ".bin");
    SuffixIs(path, ".xclbin");
  }

  /** What the handler reads: the file itself, the BITSTREAM section an
      xclbin file holds (if any), and the sibling files that exist. */
  datatype Files = Files(
    contents: seq<byte>,
    bitstreamSection: Option<seq<byte>>,
    hwhMem: Option<Metadata.MemDict>,    // the HWH file, as the HWH parser reads it
    xclbinSibling: Option<seq<byte>>,
    dtbo: Option<seq<byte>>)

  /** `get_bin_data`: a `.bit` file converted, a `.bin` file as it is, an xclbin
      file's BITSTREAM section converted if there is one. A conversion fails
      exactly when `bit2bin` does. */
  function BinData(kind: Kind, files: Files): (r: Result<Option<seq<byte>>, HandlerError>)
    ensures kind == BinFile ==> r == Ok(Some(files.contents))
    ensures kind == XclbinFile && files.bitstreamSection.None? ==> r == Ok(None)
    ensures r.Ok? && r.value.Some? && kind != BinFile ==>
      var source := if kind == BitFile then files.contents else files.bitstreamSection.value;
      Payload.Bit2Bin(source) == Ok(r.value.value)
    ensures kind == BitFile ==>
      (r.Ok? <==> Payload.Bit2Bin(files.contents).Ok?) && (r.Ok? ==> r.value.Some?)
    ensures kind == XclbinFile && files.bitstreamSection.Some? ==>
      (r.Ok? <==> Payload.Bit2Bin(files.bitstreamSection.value).Ok?) && (r.Ok? ==> r.value.Some?)
  {
    match kind
    case BitFile =>
      var image :- Convert(files.contents);
      Ok(Some(image))
    case BinFile => Ok(Some(files.contents))
    case XclbinFile =>
      if files.bitstreamSection.None? then Ok(None)
      else
        var image :- Convert(files.bitstreamSection.value);
        Ok(Some(image))
  }

  function Convert(bitData: seq<byte>): (r: Result<seq<byte>, HandlerError>)
    ensures r.Ok? <==> Payload.Bit2Bin(bitData).Ok?
    ensures r.Ok? ==> r.value == Payload.Bit2Bin(bitData).value
  {
    match Payload.Bit2Bin(bitData)
    case Ok(image) => Ok(image)
    case Err(e) => Err(BadBitstream(e))
  }

  /** `get_xclbin_data`: an xclbin file is its own xclbin data; the others use
      the sibling `.xclbin` file when it exists. */
  function XclbinData(kind: Kind, files: Files): Option<seq<byte>> {
    if kind == XclbinFile then Some(files.contents) else files.xclbinSibling
  }

  datatype ParserKind = HwhParser | XclbinParser

  /** The parser `get_parser` returns, with the data it attaches. */
  datatype Parser = Parser(
    kind: ParserKind,
    mem: Metadata.MemDict,
    binData: Option<seq<byte>>,
    xclbinData: seq<byte>,
    dtboData: Option<seq<byte>>)

  /** `get_parser`. With HWH metadata the parser is the HWH one, joined with the
      xclbin metadata; an xclbin image is packaged from the HWH memories when
      none exists (`xclbinParse` reads an image's memory dictionary, `package`
      stands for `xclbinutil` and yields `None` when it fails). Without HWH
      metadata the xclbin parser is used; with neither there is no parser. */
  function GetParser(
    kind: Kind, files: Files,
    xclbinParse: seq<byte> -> Metadata.MemDict,
    package: Topology.MemTopology -> Option<seq<byte>>): (r: Result<Option<Parser>, HandlerError>)
    requires files.hwhMem.Some? ==> Metadata.WellFormed(files.hwhMem.value)
  {
    var xclbin := XclbinData(kind, files);
    if files.hwhMem.Some? then
      var packaged :- Synthesize(files.hwhMem.value, xclbin, package);
      var joined := Metadata.Unify(packaged.0, xclbinParse(packaged.1));
      if joined.Err? then Err(BadMetadata(joined.error))
      else
        var bin :- BinData(kind, files);
        Ok(Some(Parser(HwhParser, joined.value, bin, packaged.1, files.dtbo)))
    else if xclbin.Some? then
      var bin :- BinData(kind, files);
      Ok(Some(Parser(XclbinParser, xclbinParse(xclbin.value), bin, xclbin.value, files.dtbo)))
    else
      Ok(None)
  }

  /** The xclbin image to pair with HWH metadata: the existing one untouched,
      or one packaged from the topology of the HWH memories, whose regions gain
      `xrt_mem_idx` on the way. Packaging fails exactly when the topology
      cannot be built or the packager fails. */
  function Synthesize(
    mem: Metadata.MemDict, xclbin: Option<seq<byte>>,
    package: Topology.MemTopology -> Option<seq<byte>>): (r: Result<(Metadata.MemDict, seq<byte>), HandlerError>)
    requires Metadata.WellFormed(mem)
    ensures r.Ok? ==> Metadata.WellFormed(r.value.0)
    ensures xclbin.Some? ==> r == Ok((mem, xclbin.value))
    ensures xclbin.None? && r.Ok? ==>
      var t := Topology.IpToTopology(mem);
      t.Ok? && r.value.0 == t.value.1 && package(t.value.0) == Some(r.value.1)
    ensures xclbin.None? ==>
      var t := Topology.IpToTopology(mem);
      && (t.Err? ==> r == Err(BadMetadata(t.error)))
      && (t.Ok? ==> (r.Ok? <==> package(t.value.0).Some?))
      && (t.Ok? && package(t.value.0).None? ==> r == Err(PackagingFailed))
  {
    if xclbin.Some? then Ok((mem, xclbin.value))
    else
      match Topology.IpToTopology(mem)
      case Err(e) => Err(BadMetadata(e))
      case Ok(t) =>
        Topology.TopologyKeepsWellFormed(mem);
        match package(t.0)
        case None => Err(PackagingFailed)
        case Some(image) => Ok((t.1, image))
  }

  /** `get_bitfile_metadata`: a handler must be found and it must yield a
      parser. */
  function BitfileMetadata(
    path: string, files: Files,
    xclbinParse: seq<byte> -> Metadata.MemDict,
    package: Topology.MemTopology -> Option<seq<byte>>): (r: Result<Parser, HandlerError>)
    requires files.hwhMem.Some? ==> Metadata.WellFormed(files.hwhMem.value)
  {
    var kind :- HandlerKind(path);
    var parser :- GetParser(kind, files, xclbinParse, package);
    if parser.None? then Err(NoMetadata) else Ok(parser.value)
  }

  /** Branch selection of `get_parser`: there is no parser exactly when there is
      neither HWH metadata nor xclbin data; the HWH parser is used exactly when
      HWH metadata exists; the xclbin data attached is the existing image
      whenever there is one; and the `.bin` image is the handler's. */
  lemma GetParserSpec(
    kind: Kind, files: Files,
    xclbinParse: seq<byte> -> Metadata.MemDict,
    package: Topology.MemTopology -> Option<seq<byte>>)
    requires files.hwhMem.Some? ==> Metadata.WellFormed(files.hwhMem.value)
    ensures var r := GetParser(kind, files, xclbinParse, package);
      r == Ok(None) <==> files.hwhMem.None? && XclbinData(kind, files).None?
    ensures var r := GetParser(kind, files, xclbinParse, package);
      r.Ok? && r.value.Some? ==>
        var p := r.value.value;
        && (p.kind == HwhParser <==> files.hwhMem.Some?)
        && (XclbinData(kind, files).Some? ==> p.xclbinData == XclbinData(kind, files).value)
        && (p.kind == XclbinParser ==> p.mem == xclbinParse(p.xclbinData))
        && BinData(kind, files) == Ok(p.binData)
        && p.dtboData == files.dtbo
    ensures var r := GetParser(kind, files, xclbinParse, package);
      r.Ok? && r.value.Some? && r.value.value.kind == HwhParser ==>
        var p := r.value.value;
        && files.hwhMem.Some?
        && var x := Synthesize(files.hwhMem.value, XclbinData(kind, files), package);
        && x.Ok? && p.xclbinData == x.value.1
        && Metadata.Unify(x.value.0, xclbinParse(x.value.1)).Ok?
        && p.mem == Metadata.Unify(x.value.0, xclbinParse(x.value.1)).value
    ensures var r := GetParser(kind, files, xclbinParse, package);
      r.Err? ==> r.error != NoMetadata && r.error != UnknownFormat
  {
    var xclbin := XclbinData(kind, files);
    var r := GetParser(kind, files, xclbinParse, package);
    if files.hwhMem.Some? {
      var packaged := Synthesize(files.hwhMem.value, xclbin, package);
      assert packaged.Err? ==> r == Err(packaged.error);
    } else if xclbin.Some? {
      assert r.Ok? ==> r.value.Some?;
    }
  }

  /** When `get_parser` raises, and what: with HWH metadata, a failed
      packaging, then a failed join of the two metadata, then a failed `.bin`
      conversion, in that order; without it, only a failed conversion of an
      existing xclbin's image. */
  lemma GetParserFails(
    kind: Kind, files: Files,
    xclbinParse: seq<byte> -> Metadata.MemDict,
    package: Topology.MemTopology -> Option<seq<byte>>)
    requires files.hwhMem.Some? ==> Metadata.WellFormed(files.hwhMem.value)
    ensures var r := GetParser(kind, files, xclbinParse, package);
      files.hwhMem.None? ==>
        (r.Err? <==> XclbinData(kind, files).Some? && BinData(kind, files).Err?)
        && (r.Err? ==> r.error == BinData(kind, files).error)
    ensures var r := GetParser(kind, files, xclbinParse, package);
      files.hwhMem.Some? ==>
        var x := Synthesize(files.hwhMem.value, XclbinData(kind, files), package);
        && (x.Err? ==> r == Err(x.error))
        && (x.Ok? ==>
              var u := Metadata.Unify(x.value.0, xclbinParse(x.value.1));
              && (u.Err? ==> r == Err(BadMetadata(u.error)))
              && (u.Ok? ==> (r.Err? <==> BinData(kind, files).Err?)
                            && (r.Err? ==> r.error == BinData(kind, files).error)))
  {
  }

  /** An `.xclbin` file always carries its own metadata, so looking it up never
      reports missing metadata. */
  lemma XclbinNeverLacksMetadata(
    path: string, files: Files,
    xclbinParse: seq<byte> -> Metadata.MemDict,
    package: Topology.MemTopology -> Option<seq<byte>>)
    requires files.hwhMem.Some? ==> Metadata.WellFormed(files.hwhMem.value)
    requires HasExtension(path, ".xclbin")
    ensures BitfileMetadata(path, files, xclbinParse, package) != Err(NoMetadata)
  {
    HandlerKindSpec(path);
    assert HandlerKind(path) == Ok(XclbinFile);
    GetParserSpec(XclbinFile, files, xclbinParse, package);
    var r := GetParser(XclbinFile, files, xclbinParse, package);
    assert r != Ok(None);
  }

  // ---- download ----

  const FpgaManager: string := "/sys/class/fpga_manager/fpga0/firmware"
  const FpgaManagerFlags: string := "/sys/class/fpga_manager/fpga0/flags"

  /** One effect of `download`, in the order it happens. */
  datatype DownloadStep =
    | Shutdown                              // `self.shutdown()`
    | WriteSysfs(path: string, text: string)
    | SetPortWidths                         // `set_axi_port_width(parser)`
    | XrtDownload                           // `_xrt_download(parser.xclbin_data)`

  /** `download(bitstream, parser)` once the `.bin` image `binfileName` is in
      place: a full bitstream shuts the device down and writes flag 0, a
      partial one writes flag 1; the image name then goes to the FPGA
      manager, and the port widths and the XRT download follow. */
  function DownloadSteps(partial: bool, binfileName: string): seq<DownloadStep> {
    var flag: nat := if partial then 1 else 0;
    (if partial then [] else [Shutdown])
    + [WriteSysfs(FpgaManagerFlags, Strings.NatToString(flag)),
       WriteSysfs(FpgaManager, binfileName),
       SetPortWidths,
       XrtDownload]
  }

  /** The sysfs files after the steps: each write replaces a file's text. */
  function Sysfs(fs: map<string, string>, steps: seq<DownloadStep>): map<string, string>
    decreases |steps|
  {
    if |steps| == 0 then fs
    else
      var fs' := if steps[0].WriteSysfs? then fs[steps[0].path := steps[0].text] else fs;
      Sysfs(fs', steps[1..])
  }

  /** The flags text as the FPGA manager reads it: a decimal number whose
      value 1 requests partial reconfiguration and 0 a full one. */
  predicate FlagsSay(text: string, partial: bool) {
    && (forall i :: 0 <= i < |text| ==> '0' <= text[i] <= '9')
    && (Strings.DecimalValue(text) == 1 <==> partial)
    && (Strings.DecimalValue(text) == 0 <==> !partial)
  }

  lemma {:induction false} SysfsAppend(fs: map<string, string>, a: seq<DownloadStep>, b: seq<DownloadStep>)
    ensures Sysfs(fs, a + b) == Sysfs(Sysfs(fs, a), b)
    decreases |a|
  {
    if |a| > 0 {
      assert (a + b)[1..] == a[1..] + b;
      var fs' := if a[0].WriteSysfs? then fs[a[0].path := a[0].text] else fs;
      SysfsAppend(fs', a[1..], b);
      assert (a + b)[0] == a[0];
      assert Sysfs(fs, a + b) == Sysfs(fs', (a + b)[1..]);
    } else {
      assert a + b == b;
    }
  }

  /** The device is shut down exactly for a full bitstream, and then before
      anything else; when the image name reaches the FPGA manager, the flags
      file already says whether the bitstream is partial; afterwards the
      manager holds the image name, and the XRT download is the last of the
      modelled effects (`post_download`, which follows it, is not modelled). */
  lemma DownloadSpec(partial: bool, binfileName: string, fs: map<string, string>)
    ensures var r := DownloadSteps(partial, binfileName);
      && (Shutdown in r <==> !partial)
      && (forall i :: 0 < i < |r| ==> r[i] != Shutdown)
      && r[|r| - 1] == XrtDownload
    ensures var r := DownloadSteps(partial, binfileName);
      forall i :: 0 <= i < |r| && r[i] == WriteSysfs(FpgaManager, binfileName) ==>
        var before := Sysfs(fs, r[..i]);
        FpgaManagerFlags in before && FlagsSay(before[FpgaManagerFlags], partial)
    ensures var after := Sysfs(fs, DownloadSteps(partial, binfileName));
      && FpgaManagerFlags in after && FlagsSay(after[FpgaManagerFlags], partial)
      && FpgaManager in after && after[FpgaManager] == binfileName
  {
    var r := DownloadSteps(partial, binfileName);
    var flag: nat := if partial then 1 else 0;
    var text := Strings.NatToString(flag);
    Strings.DecimalRoundTrip(flag);
    assert FlagsSay(text, partial);
    var pre: seq<DownloadStep> := if partial then [] else [Shutdown];
    var w := WriteSysfs(FpgaManagerFlags, text);
    var m := WriteSysfs(FpgaManager, binfileName);
    var head := pre + [w];
    var tail := [m, SetPortWidths, XrtDownload];
    assert r == head + tail;
    assert Sysfs(fs, pre) == fs;
    var k := |head|;
    assert r[..k] == head;
    assert r[k] == m;
    SysfsAppend(fs, pre, [w]);
    assert Sysfs(fs, [w]) == fs[FpgaManagerFlags := text];
    assert FpgaManager != FpgaManagerFlags;
    forall i | 0 <= i < |r| && r[i] == m
      ensures var before := Sysfs(fs, r[..i]);
        FpgaManagerFlags in before && FlagsSay(before[FpgaManagerFlags], partial)
    {
      assert i == k;
    }
    var fs1 := fs[FpgaManagerFlags := text];
    SysfsAppend(fs, head, tail);
    var fs2 := fs1[FpgaManager := binfileName];
    assert Sysfs(fs1, tail) == fs2 by {
      assert tail[0] == m && tail[1..] == [SetPortWidths, XrtDownload];
      assert Sysfs(fs1, tail) == Sysfs(fs2, [SetPortWidths, XrtDownload]);
      assert [SetPortWidths, XrtDownload][1..] == [XrtDownload];
      assert Sysfs(fs2, [SetPortWidths, XrtDownload]) == Sysfs(fs2, [XrtDownload]);
      assert [XrtDownload][1..] == [];
      assert Sysfs(fs2, [XrtDownload]) == Sysfs(fs2, []);
    }
  }
}

=== FILE: memorymap.dfy ===
/** The address arithmetic of `EmbeddedDevice.mmap`
    (pynq_vision_xclbin_sobel/embedded_device.py): the page-aligned window
    mapped from `/dev/mem` and the 32-bit view returned inside it. Opening the
    device file and the mapping itself are outside the model; the effective
    user id and the page size arrive as parameters. */
module MemoryMap {
  import opened Results
  import opened Bytes

  /** `x & ~(2**k - 1)` on a non-negative integer, bit by bit: the low `k` bits
      cleared. */
  function ClearLowBits(x: nat, k: nat): nat {
    if k == 0 then x else 2 * ClearLowBits(x / 2, k - 1)
  }

  /** `x >> k` on a non-negative integer. */
  function ShiftRight(x: nat, k: nat): nat {
    if k == 0 then x else ShiftRight(x / 2, k - 1)
  }

  /** Clearing the low `k` bits rounds down to a multiple of `2**k`. */
  lemma {:induction false} ClearLowBitsRoundsDown(x: nat, k: nat)
    ensures ClearLowBits(x, k) == x - x % Pow2(k)
    ensures ShiftRight(x, k) == x / Pow2(k)
    decreases k
  {
    if k > 0 {
      ClearLowBitsRoundsDown(x / 2, k - 1);
      var p := Pow2(k - 1);
      assert Pow2(k) == 2 * p;
      HalveStep(x, p, (x / 2) / p, (x / 2) % p);
    }
  }

  /** Dividing by `2p` is halving, then dividing by `p`. */
  lemma HalveStep(x: nat, p: nat, q: int, r: int)
    requires p > 0 && q == (x / 2) / p && r == (x / 2) % p
    ensures x / (2 * p) == q && x % (2 * p) == 2 * r + x % 2
  {
    assert x / 2 == q * p + r && 0 <= r < p;
    assert x == 2 * (x / 2) + x % 2;
    assert x == q * (2 * p) + (2 * r + x % 2);
    DivModUnique(x, 2 * p, q, 2 * r + x % 2);
  }

  datatype MapError = PermissionDenied   // "Root permissions required."

  /** The mapping: where it starts, how far into it the requested address lies,
      how many bytes it spans, and how many 32-bit words the view holds. */
  datatype Window = Window(base: nat, offset: nat, size: nat, words: nat)

  /** `mmap(base_addr, length)` with `mmap.PAGESIZE == 2**pageShift`. */
  function Mmap(euid: int, baseAddr: nat, length: nat, pageShift: nat): (r: Result<Window, MapError>)
  {
    if euid != 0 then Err(PermissionDenied)
    else
      var virtBase := ClearLowBits(baseAddr, pageShift);
      ClearLowBitsRoundsDown(baseAddr, pageShift);
      var virtOffset := baseAddr - virtBase;
      Ok(Window(virtBase, virtOffset, length + virtOffset, ShiftRight(length, 2)))
  }

  /** Only root maps; then the window starts on a page boundary at or below the
      address, the address lies less than a page into it, the mapping covers
      the requested bytes after that offset, and the view holds the whole
      words of `length`, which fit in the mapping. */
  lemma MmapWindow(euid: int, baseAddr: nat, length: nat, pageShift: nat)
    ensures Mmap(euid, baseAddr, length, pageShift).Ok? <==> euid == 0
    ensures var r := Mmap(euid, baseAddr, length, pageShift);
      r.Ok? ==>
        var w := r.value;
        var page := Pow2(pageShift);
        && w.base % page == 0
        && 0 <= w.offset < page
        && w.base + w.offset == baseAddr
        && w.size == length + w.offset
        && w.words * 4 <= length < w.words * 4 + 4
        && w.offset + 4 * w.words <= w.size
  {
    if euid == 0 {
      ClearLowBitsRoundsDown(baseAddr, pageShift);
      ClearLowBitsRoundsDown(length, 2);
      assert Pow2(2) == 4;
      var page := Pow2(pageShift);
      var w := Mmap(euid, baseAddr, length, pageShift).value;
      assert w.base == baseAddr - baseAddr % page && w.offset == baseAddr % page;
      assert w.words == length / 4;
      RoundDown(baseAddr, page);
      RoundDown(length, 4);
    }
  }

  /** Rounding down to a multiple of `page` leaves a remainder below `page`. */
  lemma RoundDown(x: nat, page: nat)
    requires page > 0
    ensures (x - x % page) % page == 0 && 0 <= x % page < page
    ensures (x / page) * page == x - x % page
  {
    var q := x / page;
    assert x == q * page + x % page;
    DivModUnique(q * page, page, q, 0);
  }

  /** Word `k` of the view is read at `base + offset + 4k`, which is the
      requested address plus `4k`. */
  lemma MmapElementAddress(baseAddr: nat, length: nat, pageShift: nat, k: nat)
    requires k < Mmap(0, baseAddr, length, pageShift).value.words
    ensures var w := Mmap(0, baseAddr, length, pageShift).value;
      w.base + w.offset + 4 * k == baseAddr + 4 * k
      && w.offset + 4 * k + 4 <= w.size
  {
    MmapWindow(0, baseAddr, length, pageShift);
  }
}

=== FILE: metadata.dfy ===
/** The memory metadata of an overlay (pynq_vision_xclbin_sobel/embedded_device.py):
    the join of the HWH memory dictionary with the xclbin one, the synthetic
    memory topology built when no xclbin file exists, and the choice of the
    default (PS) memory.

    A memory dictionary maps a name to a region; a region maps field names to
    values. Both are Python dictionaries, so both keep insertion order. */
module Metadata {
  import opened Results
  import opened OrderedDicts
  import Strings

  /** The values the core inspects: missing-as-`None`, integers and strings. */
  datatype Value = Null | Int(i: int) | Str(s: string)

  type Region = Dict<string, Value>
  type MemDict = Dict<Value, Region>

  datatype MetaError =
    | KeyError(key: Value)      // a missing dictionary key
    | TypeError                 // `//` applied to a value that is not a number
    | RuntimeError(message: string)

  /** Every region is itself a proper dictionary. */
  predicate RegionsDistinct(m: Dict<Value, Region>) {
    forall i :: 0 <= i < |m| ==> DistinctKeys(m[i].1)
  }

  predicate WellFormed(m: MemDict) {
    DistinctKeys(m) && RegionsDistinct(m)
  }

  /** `v[key]`. */
  function Lookup(v: Region, key: string): (r: Result<Value, MetaError>)
    ensures r.Ok? <==> key in Keys(v)
    ensures r.Ok? ==> Get(v, key) == Some(r.value)
    ensures r.Err? ==> r.error == KeyError(Str(key))
  {
    match Get(v, key)
    case None => Err(KeyError(Str(key)))
    case Some(x) => Ok(x)
  }

  /** `v.get('phys_addr', None)`: the address a region is matched by. */
  function Probe(v: Region): Value {
    match Get(v, "phys_addr")
    case None => Null
    case Some(x) => x
  }

  /** The pairs `(v[field], v)`, in order; `KeyError` if some region lacks `field`. */
  function Rekey(m: Dict<Value, Region>, field: string): (r: Result<Dict<Value, Region>, MetaError>)
    ensures r.Ok? <==> forall i :: 0 <= i < |m| ==> field in Keys(m[i].1)
    ensures r.Ok? ==> |r.value| == |m|
    ensures r.Ok? ==> forall i :: 0 <= i < |m| ==>
      r.value[i].1 == m[i].1 && Get(m[i].1, field) == Some(r.value[i].0)
    decreases |m|
  {
    if |m| == 0 then Ok([])
    else
      var key :- Lookup(m[0].1, field);
      var rest :- Rekey(m[1..], field);
      Ok([(key, m[0].1)] + rest)
  }

  /** `{v['base_address']: v for k, v in xclbin.items()}`: a later region with
      the same address replaces an earlier one's value but not its place. */
  function AddressIndex(xclbin: MemDict): (r: Result<Dict<Value, Region>, MetaError>)
    ensures r.Ok? ==> DistinctKeys(r.value)
  {
    var pairs :- Rekey(xclbin, "base_address");
    Ok(Update([], pairs))
  }

  /** The index fails exactly when a region has no base address, and looks an
      address up to the LAST xclbin region carrying it. */
  lemma AddressIndexLookup(xclbin: MemDict, a: Value)
    ensures AddressIndex(xclbin).Ok? <==>
      forall i :: 0 <= i < |xclbin| ==> "base_address" in Keys(xclbin[i].1)
    ensures AddressIndex(xclbin).Ok? ==>
      Get(AddressIndex(xclbin).value, a) == GetLast(Rekey(xclbin, "base_address").value, a)
  {
    var pairs := Rekey(xclbin, "base_address");
    if pairs.Ok? {
      UpdateGet([], pairs.value, a);
    }
  }

  /** No region kept in the index carries a `phys_addr` of its own, so merging
      one into an HWH region keeps that region's address. */
  predicate NoPhysAddr(index: Dict<Value, Region>) {
    AllValues(index, LacksPhysAddr)
  }

  predicate LacksPhysAddr(v: Region) {
    "phys_addr" !in Keys(v)
  }

  /** One pass of the first loop: if the region's probe is still indexed, the
      region takes the entry's fields and the entry leaves the index (keyed by
      the merged region's `phys_addr`, as the source reads it after the
      update). */
  function EnrichOne(v: Region, index: Dict<Value, Region>): (r: Result<(Region, Dict<Value, Region>), MetaError>)
    requires DistinctKeys(v) && DistinctKeys(index)
    ensures r.Ok? ==> DistinctKeys(r.value.0) && DistinctKeys(r.value.1)
  {
    if Probe(v) !in Keys(index) then Ok((v, index))
    else
      var addr :- Lookup(v, "phys_addr");
      var merged := Update(v, Get(index, addr).value);
      var gone :- Lookup(merged, "phys_addr");
      if gone !in Keys(index) then Err(KeyError(gone))
      else Ok((merged, Without(index, {gone})))
  }

  /** The first loop of `_unify_dictionaries`, over the HWH regions in order:
      the enriched regions under their own names, and the index entries nobody
      claimed. */
  function Enrich(hwh: MemDict, index: Dict<Value, Region>): (r: Result<(MemDict, Dict<Value, Region>), MetaError>)
    requires RegionsDistinct(hwh) && DistinctKeys(index)
    ensures r.Ok? ==> |r.value.0| == |hwh|
    ensures r.Ok? ==> forall i :: 0 <= i < |hwh| ==> r.value.0[i].0 == hwh[i].0
    ensures r.Ok? ==> RegionsDistinct(r.value.0) && DistinctKeys(r.value.1)
    decreases |hwh|
  {
    if |hwh| == 0 then Ok(([], index))
    else
      var first :- EnrichOne(hwh[0].1, index);
      var rest :- Enrich(hwh[1..], first.1);
      Ok(([(hwh[0].0, first.0)] + rest.0, rest.1))
  }

  /** The second loop: each unclaimed xclbin region is stored under its own
      `tag`, replacing any region already there. */
  function PromoteOrphans(mem: MemDict, orphans: Dict<Value, Region>): (r: Result<MemDict, MetaError>)
    requires DistinctKeys(mem)
    ensures r.Ok? ==> DistinctKeys(r.value)
  {
    var tagged :- Rekey(orphans, "tag");
    Ok(Update(mem, tagged))
  }

  /** `_unify_dictionaries(hwh, xclbin)`: the HWH memory dictionary afterwards. */
  function Unify(hwh: MemDict, xclbin: MemDict): (r: Result<MemDict, MetaError>)
    requires WellFormed(hwh)
    ensures r.Ok? ==> DistinctKeys(r.value)
  {
    var index :- AddressIndex(xclbin);
    var enriched :- Enrich(hwh, index);
    PromoteOrphans(enriched.0, enriched.1)
  }

  /** Region `i` of `hwh` takes the index entry at its address: the address is
      indexed and no earlier region probed the same address. */
  predicate Claims(hwh: MemDict, index: Dict<Value, Region>, i: nat)
    requires i < |hwh|
  {
    && Probe(hwh[i].1) in Keys(index)
    && forall j :: 0 <= j < i ==> Probe(hwh[j].1) != Probe(hwh[i].1)
  }

  /** The addresses all HWH regions probe. */
  function Probes(hwh: MemDict): set<Value> {
    set i | 0 <= i < |hwh| :: Probe(hwh[i].1)
  }

  /** What region `i` becomes after the first loop. */
  function EnrichedRegion(hwh: MemDict, index: Dict<Value, Region>, i: nat): Region
    requires i < |hwh| && DistinctKeys(hwh[i].1)
  {
    if Claims(hwh, index, i) then Update(hwh[i].1, Get(index, Probe(hwh[i].1)).value)
    else hwh[i].1
  }

  lemma ProbesTail(hwh: MemDict)
    requires |hwh| > 0
    ensures Probes(hwh) == {Probe(hwh[0].1)} + Probes(hwh[1..])
  {
    forall a | a in Probes(hwh) ensures a in {Probe(hwh[0].1)} + Probes(hwh[1..]) {
      var i :| 0 <= i < |hwh| && Probe(hwh[i].1) == a;
      if i > 0 {
        assert hwh[1..][i - 1] == hwh[i];
      }
    }
    forall a | a in Probes(hwh[1..]) ensures a in Probes(hwh) {
      var i :| 0 <= i < |hwh[1..]| && Probe(hwh[1..][i].1) == a;
      assert hwh[1..][i] == hwh[i + 1];
    }
  }

  /** The single-region step, when index entries carry no `phys_addr`: it fails
      only for a claiming region without a `phys_addr`, merges exactly when the
      probe is indexed, and removes exactly the probed address. */
  lemma EnrichOneSpec(v: Region, index: Dict<Value, Region>)
    requires DistinctKeys(v) && DistinctKeys(index) && NoPhysAddr(index)
    ensures var r := EnrichOne(v, index);
      && (r.Ok? <==> Probe(v) !in Keys(index) || "phys_addr" in Keys(v))
      && (r.Ok? ==> r.value.0 == if Probe(v) in Keys(index) then Update(v, Get(index, Probe(v)).value) else v)
      && (r.Ok? ==> r.value.1 == Without(index, {Probe(v)}))
  {
    if Probe(v) !in Keys(index) {
      WithoutAbsent(index, {Probe(v)});
    } else if "phys_addr" in Keys(v) {
      var e := Get(index, Probe(v)).value;
      var p := PositionOf(index, Probe(v));
      assert LacksPhysAddr(index[p].1);
      UpdateGet(v, e, "phys_addr");
    }
  }

  lemma NoPhysAddrWithout(index: Dict<Value, Region>, gone: set<Value>)
    requires DistinctKeys(index) && NoPhysAddr(index)
    ensures NoPhysAddr(Without(index, gone))
  {
    var w := Without(index, gone);
    forall i | 0 <= i < |w| ensures LacksPhysAddr(w[i].1) {
      var k := w[i].0;
      assert k in Keys(w);
      var p := PositionOf(index, k);
      WithoutGet(index, gone, k);
      assert Get(w, k) == Some(w[i].1);
      assert Get(index, k) == Some(index[p].1);
      assert LacksPhysAddr(index[p].1);
    }
  }

  /** Claiming is decided the same way for the remaining regions against the
      index left after the first one. */
  lemma ClaimsTail(hwh: MemDict, index: Dict<Value, Region>, i: nat)
    requires 0 < i < |hwh| && DistinctKeys(index) && DistinctKeys(hwh[i].1)
    ensures var index' := Without(index, {Probe(hwh[0].1)});
      && (Claims(hwh[1..], index', i - 1) <==> Claims(hwh, index, i))
      && EnrichedRegion(hwh[1..], index', i - 1) == EnrichedRegion(hwh, index, i)
  {
    var index' := Without(index, {Probe(hwh[0].1)});
    var q := Probe(hwh[i].1);
    assert hwh[1..][i - 1] == hwh[i];
    ClaimsTailIff(hwh, index, i);
    if Claims(hwh, index, i) {
      assert Probe(hwh[0].1) != q;
      WithoutGet(index, {Probe(hwh[0].1)}, q);
    }
  }

  lemma ClaimsTailIff(hwh: MemDict, index: Dict<Value, Region>, i: nat)
    requires 0 < i < |hwh|
    ensures Claims(hwh[1..], Without(index, {Probe(hwh[0].1)}), i - 1) <==> Claims(hwh, index, i)
  {
    var index' := Without(index, {Probe(hwh[0].1)});
    var q := Probe(hwh[i].1);
    assert hwh[1..][i - 1] == hwh[i];
    if Claims(hwh, index, i) {
      assert Probe(hwh[0].1) != q;
      forall j | 0 <= j < i - 1 ensures Probe(hwh[1..][j].1) != q {
        assert hwh[1..][j] == hwh[j + 1];
      }
    }
    if Claims(hwh[1..], index', i - 1) {
      forall j | 0 <= j < i ensures Probe(hwh[j].1) != q {
        if j > 0 {
          assert hwh[1..][j - 1] == hwh[j];
        }
      }
    }
  }

  lemma RegionsDistinctTail(hwh: MemDict)
    requires |hwh| > 0 && RegionsDistinct(hwh)
    ensures RegionsDistinct(hwh[1..])
  {
    forall j | 0 <= j < |hwh| - 1 ensures DistinctKeys(hwh[1..][j].1) {
      assert hwh[1..][j] == hwh[j + 1];
    }
  }

  /** How the first loop splits into its first pass and the rest, when index
      entries carry no `phys_addr`. */
  lemma EnrichUnfold(hwh: MemDict, index: Dict<Value, Region>)
    requires |hwh| > 0 && RegionsDistinct(hwh) && DistinctKeys(index) && NoPhysAddr(index)
    ensures RegionsDistinct(hwh[1..])
    ensures NoPhysAddr(Without(index, {Probe(hwh[0].1)}))
    ensures var first := EnrichOne(hwh[0].1, index);
      var r := Enrich(hwh, index);
      var rest := Enrich(hwh[1..], Without(index, {Probe(hwh[0].1)}));
      && (first.Ok? <==> !Claims(hwh, index, 0) || "phys_addr" in Keys(hwh[0].1))
      && (r.Ok? <==> first.Ok? && rest.Ok?)
      && (r.Ok? ==> r.value.0[0].1 == EnrichedRegion(hwh, index, 0))
      && (r.Ok? ==> r.value.0[1..] == rest.value.0 && r.value.1 == rest.value.1)
  {
    RegionsDistinctTail(hwh);
    NoPhysAddrWithout(index, {Probe(hwh[0].1)});
    EnrichOneSpec(hwh[0].1, index);
  }

  /** The first loop fails exactly when a claiming region has no `phys_addr`
      (when index entries carry none). */
  lemma {:induction false} EnrichFails(hwh: MemDict, index: Dict<Value, Region>)
    requires RegionsDistinct(hwh) && DistinctKeys(index) && NoPhysAddr(index)
    ensures Enrich(hwh, index).Ok? <==>
      forall i :: 0 <= i < |hwh| && Claims(hwh, index, i) ==> "phys_addr" in Keys(hwh[i].1)
    decreases |hwh|
  {
    if |hwh| > 0 {
      var index' := Without(index, {Probe(hwh[0].1)});
      EnrichUnfold(hwh, index);
      EnrichFails(hwh[1..], index');
      forall i | 0 < i < |hwh|
        ensures hwh[1..][i - 1] == hwh[i]
        ensures Claims(hwh[1..], index', i - 1) <==> Claims(hwh, index, i)
      {
        ClaimsTail(hwh, index, i);
      }
    }
  }

  /** Each region is merged with the entry at its address exactly when it
      claims it (when index entries carry no `phys_addr`). */
  lemma {:induction false} EnrichRegions(hwh: MemDict, index: Dict<Value, Region>)
    requires RegionsDistinct(hwh) && DistinctKeys(index) && NoPhysAddr(index)
    ensures var r := Enrich(hwh, index);
      r.Ok? ==> forall i :: 0 <= i < |hwh| ==> r.value.0[i].1 == EnrichedRegion(hwh, index, i)
    decreases |hwh|
  {
    var r := Enrich(hwh, index);
    if |hwh| > 0 && r.Ok? {
      var index' := Without(index, {Probe(hwh[0].1)});
      EnrichUnfold(hwh, index);
      EnrichRegions(hwh[1..], index');
      forall i | 0 < i < |hwh| ensures r.value.0[i].1 == EnrichedRegion(hwh, index, i) {
        ClaimsTail(hwh, index, i);
        assert r.value.0[i] == r.value.0[1..][i - 1];
      }
    }
  }

  /** The index keeps exactly the addresses no region probed: each xclbin entry
      is consumed at most once (when index entries carry no `phys_addr`). */
  lemma {:induction false} EnrichRemaining(hwh: MemDict, index: Dict<Value, Region>)
    requires RegionsDistinct(hwh) && DistinctKeys(index) && NoPhysAddr(index)
    ensures var r := Enrich(hwh, index);
      r.Ok? ==> r.value.1 == Without(index, Probes(hwh))
    decreases |hwh|
  {
    var r := Enrich(hwh, index);
    if |hwh| == 0 {
      WithoutAbsent(index, Probes(hwh));
    } else if r.Ok? {
      var p0 := Probe(hwh[0].1);
      EnrichUnfold(hwh, index);
      EnrichRemaining(hwh[1..], Without(index, {p0}));
      ProbesTail(hwh);
      WithoutTwice(index, {p0}, Probes(hwh[1..]));
    }
  }

  /** The first region probing an address claims it, if it is indexed. */
  lemma {:induction false} FirstClaim(hwh: MemDict, index: Dict<Value, Region>, i: nat)
    requires i < |hwh| && Probe(hwh[i].1) in Keys(index)
    ensures exists j :: 0 <= j <= i && Probe(hwh[j].1) == Probe(hwh[i].1) && Claims(hwh, index, j)
    decreases i
  {
    if !Claims(hwh, index, i) {
      var j :| 0 <= j < i && Probe(hwh[j].1) == Probe(hwh[i].1);
      FirstClaim(hwh, index, j);
    }
  }

  /** At-most-once consumption. That no two regions claim one address holds
      by the definition of `Claims` (a claimant has no earlier region probing
      its address); the substance is that an indexed address is left over
      exactly when no region claims it. */
  lemma ConsumedOnce(hwh: MemDict, index: Dict<Value, Region>, a: Value)
    requires RegionsDistinct(hwh) && DistinctKeys(index) && NoPhysAddr(index)
    requires Enrich(hwh, index).Ok?
    ensures forall i, j :: 0 <= i < j < |hwh| && Claims(hwh, index, i) && Claims(hwh, index, j) ==>
      Probe(hwh[i].1) != Probe(hwh[j].1)
    ensures a in Keys(Enrich(hwh, index).value.1) <==>
      a in Keys(index) && forall i :: 0 <= i < |hwh| && Claims(hwh, index, i) ==> Probe(hwh[i].1) != a
  {
    EnrichRemaining(hwh, index);
    var rem := Enrich(hwh, index).value.1;
    if a in Keys(index) && a !in Keys(rem) {
      var i :| 0 <= i < |hwh| && Probe(hwh[i].1) == a;
      FirstClaim(hwh, index, i);
    }
  }

  /** An index built from regions without `phys_addr` holds none either. */
  lemma IndexLacksPhysAddr(xclbin: MemDict)
    requires NoPhysAddr(xclbin) && AddressIndex(xclbin).Ok?
    ensures NoPhysAddr(AddressIndex(xclbin).value)
  {
    var pairs := Rekey(xclbin, "base_address").value;
    assert AllValues(pairs, LacksPhysAddr) by {
      forall i | 0 <= i < |pairs| ensures LacksPhysAddr(pairs[i].1) {
        assert pairs[i].1 == xclbin[i].1;
      }
    }
    UpdateAllValues([], pairs, LacksPhysAddr);
  }

  /** The three stages `Unify` is made of, when it succeeds. */
  lemma UnifyStages(hwh: MemDict, xclbin: MemDict)
    requires WellFormed(hwh) && Unify(hwh, xclbin).Ok?
    ensures AddressIndex(xclbin).Ok?
    ensures Enrich(hwh, AddressIndex(xclbin).value).Ok?
    ensures var orphans := Enrich(hwh, AddressIndex(xclbin).value).value.1;
      Rekey(orphans, "tag").Ok?
    ensures var enriched := Enrich(hwh, AddressIndex(xclbin).value).value;
      Unify(hwh, xclbin) == PromoteOrphans(enriched.0, enriched.1)
  {
  }

  /** The second loop keeps every name of `mem` in place; a name no orphan
      tag hits keeps its region; and each orphan is stored under its tag
      unless a later orphan has the same tag. */
  lemma PromoteOrphansSpec(mem: MemDict, orphans: Dict<Value, Region>)
    requires DistinctKeys(mem) && PromoteOrphans(mem, orphans).Ok?
    ensures var r := PromoteOrphans(mem, orphans).value;
      var tagged := Rekey(orphans, "tag").value;
      && |mem| <= |r| && Keys(r)[..|mem|] == Keys(mem)
      && (forall k :: k !in Keys(tagged) ==> Get(r, k) == Get(mem, k))
      && (forall j :: 0 <= j < |orphans| && (forall j' :: j < j' < |tagged| ==> tagged[j'].0 != tagged[j].0) ==>
            Get(r, tagged[j].0) == Some(orphans[j].1))
  {
    var tagged := Rekey(orphans, "tag").value;
    forall k | k !in Keys(tagged) ensures Get(Update(mem, tagged), k) == Get(mem, k) {
      UpdateGet(mem, tagged, k);
    }
    forall j | 0 <= j < |orphans| && (forall j' :: j < j' < |tagged| ==> tagged[j'].0 != tagged[j].0)
      ensures Get(Update(mem, tagged), tagged[j].0) == Some(orphans[j].1)
    {
      assert tagged[j].0 in Keys(tagged);
      UpdateGet(mem, tagged, tagged[j].0);
      GetLastAt(tagged, j);
    }
  }

  lemma EnrichedNames(hwh: MemDict, out: MemDict)
    requires DistinctKeys(hwh) && |out| == |hwh|
    requires forall i :: 0 <= i < |hwh| ==> out[i].0 == hwh[i].0
    ensures Keys(out) == Keys(hwh) && DistinctKeys(out)
    ensures forall i :: 0 <= i < |hwh| ==> Get(out, hwh[i].0) == Some(out[i].1)
  {
    assert Keys(out) == Keys(hwh);
  }

  /** `_unify_dictionaries` when no xclbin region carries a `phys_addr`: no HWH
      name is removed or moved; under each HWH name that no orphan tag replaces
      is the region the first loop made of it; each unclaimed xclbin region is
      stored under its tag unless a later orphan has the same tag; and no key
      other than the HWH names and the orphan tags appears. */
  lemma UnifySpec(hwh: MemDict, xclbin: MemDict)
    requires WellFormed(hwh) && NoPhysAddr(xclbin) && Unify(hwh, xclbin).Ok?
    ensures var u := Unify(hwh, xclbin).value;
      var index := AddressIndex(xclbin).value;
      var orphans := Without(index, Probes(hwh));
      && Rekey(orphans, "tag").Ok?
      && var tagged := Rekey(orphans, "tag").value;
      && |hwh| <= |u| && Keys(u)[..|hwh|] == Keys(hwh)
      && (forall i :: 0 <= i < |hwh| && hwh[i].0 !in Keys(tagged) ==>
            Get(u, hwh[i].0) == Some(EnrichedRegion(hwh, index, i)))
      && (forall j :: 0 <= j < |orphans| && (forall j' :: j < j' < |tagged| ==> tagged[j'].0 != tagged[j].0) ==>
            Get(u, tagged[j].0) == Some(orphans[j].1))
      && (forall k :: k !in Keys(hwh) && k !in Keys(tagged) ==> Get(u, k) == None)
  {
    UnifyStages(hwh, xclbin);
    IndexLacksPhysAddr(xclbin);
    var index := AddressIndex(xclbin).value;
    var enriched := Enrich(hwh, index).value;
    EnrichRegions(hwh, index);
    EnrichRemaining(hwh, index);
    EnrichedNames(hwh, enriched.0);
    PromoteOrphansSpec(enriched.0, enriched.1);
  }

  const NotDownloaded := "Overlay is not downloaded"
  const NoPsMemory := "XRT design does not contain PS memory"

  /** A region at address 0: the PS memory. */
  predicate IsPsRegion(v: Region) {
    Get(v, "base_address") == Some(Int(0))
  }

  /** A region the search looks at and passes over. */
  predicate PassedOver(v: Region) {
    "base_address" in Keys(v) && !IsPsRegion(v)
  }

  /** The loop of `default_memory`: the first region whose base address is 0. */
  function FirstPsMemory(mem: MemDict): (r: Result<Region, MetaError>)
    ensures r.Ok? ==> IsPsRegion(r.value)
    ensures r.Err? ==> r.error in {KeyError(Str("base_address")), RuntimeError(NoPsMemory)}
    decreases |mem|
  {
    if |mem| == 0 then Err(RuntimeError(NoPsMemory))
    else
      var base :- Lookup(mem[0].1, "base_address");
      if base == Int(0) then Ok(mem[0].1) else FirstPsMemory(mem[1..])
  }

  /** `default_memory`: the region `get_memory` is asked to wrap. */
  function DefaultMemory(mem: MemDict): (r: Result<Region, MetaError>)
    ensures |mem| == 0 <==> r == Err(RuntimeError(NotDownloaded))
    ensures r.Ok? ==> IsPsRegion(r.value)
  {
    if |mem| == 0 then Err(RuntimeError(NotDownloaded)) else FirstPsMemory(mem)
  }

  /** Once the search has passed over the first `i` regions, region `i`
      decides it: a PS region is returned, a region without a base address
      raises `KeyError`. */
  lemma {:induction false} FirstPsMemoryAt(mem: MemDict, i: nat)
    requires i < |mem| && forall j :: 0 <= j < i ==> PassedOver(mem[j].1)
    ensures IsPsRegion(mem[i].1) ==> FirstPsMemory(mem) == Ok(mem[i].1)
    ensures "base_address" !in Keys(mem[i].1) ==> FirstPsMemory(mem) == Err(KeyError(Str("base_address")))
    decreases i
  {
    if i > 0 {
      forall j | 0 <= j < i - 1 ensures PassedOver(mem[1..][j].1) {
        assert mem[1..][j] == mem[j + 1];
      }
      assert mem[1..][i - 1] == mem[i];
      FirstPsMemoryAt(mem[1..], i - 1);
    }
  }

  /** When every region has a base address and none is 0, there is no PS
      memory. */
  lemma {:induction false} FirstPsMemoryNone(mem: MemDict)
    requires forall j :: 0 <= j < |mem| ==> PassedOver(mem[j].1)
    ensures FirstPsMemory(mem) == Err(RuntimeError(NoPsMemory))
    decreases |mem|
  {
    if |mem| > 0 {
      forall j | 0 <= j < |mem| - 1 ensures PassedOver(mem[1..][j].1) {
        assert mem[1..][j] == mem[j + 1];
      }
      FirstPsMemoryNone(mem[1..]);
    }
  }
}

=== FILE: ordereddicts.dfy ===
/** Python dictionaries: key/value pairs kept in insertion order, where storing
    under an existing key replaces its value in place and a new key goes last. */
module OrderedDicts {
  import opened Results

  type Dict<K, V> = seq<(K, V)>

  /** The keys in iteration order. */
  function Keys<K, V>(d: Dict<K, V>): (r: seq<K>)
    ensures |r| == |d|
    ensures forall i :: 0 <= i < |d| ==> r[i] == d[i].0
  {
    seq(|d|, i requires 0 <= i < |d| => d[i].0)
  }

  /** No key occurs twice, as in every Python dict. */
  predicate DistinctKeys<K(==), V>(d: Dict<K, V>) {
    forall i, j :: 0 <= i < j < |d| ==> d[i].0 != d[j].0
  }

  /** `d.get(k)`: the value stored under `k`, if any. */
  function Get<K(==), V>(d: Dict<K, V>, k: K): (r: Option<V>)
    ensures r.Some? <==> k in Keys(d)
    ensures DistinctKeys(d) ==> forall i :: 0 <= i < |d| && d[i].0 == k ==> r == Some(d[i].1)
  {
    if |d| == 0 then None
    else if d[0].0 == k then Some(d[0].1)
    else
      var r := Get(d[1..], k);
      assert Keys(d) == [d[0].0] + Keys(d[1..]);
      assert DistinctKeys(d) ==> DistinctKeys(d[1..]);
      assert forall i :: 1 <= i < |d| ==> d[i] == d[1..][i - 1];
      r
  }

  /** Position of key `k` in `d`. */
  function PositionOf<K(==), V>(d: Dict<K, V>, k: K): (i: nat)
    requires k in Keys(d)
    ensures i < |d| && d[i].0 == k
  {
    if d[0].0 == k then 0
    else
      KeyInTail(d, k);
      PositionOf(d[1..], k) + 1
  }

  lemma KeyInTail<K, V>(d: Dict<K, V>, k: K)
    requires k in Keys(d) && k != d[0].0
    ensures k in Keys(d[1..])
  {
    assert Keys(d) == [d[0].0] + Keys(d[1..]);
  }

  /** `d[k] = v`: an existing key keeps its place and takes the new value; a new
      key is appended. */
  function Put<K(==), V>(d: Dict<K, V>, k: K, v: V): (r: Dict<K, V>)
    requires DistinctKeys(d)
    ensures DistinctKeys(r)
    ensures Keys(r) == if k in Keys(d) then Keys(d) else Keys(d) + [k]
    ensures forall i :: 0 <= i < |d| ==> r[i] == if d[i].0 == k then (k, v) else d[i]
    ensures k !in Keys(d) ==> r == d + [(k, v)]
  {
    if k in Keys(d) then
      var r := d[PositionOf(d, k) := (k, v)];
      assert Keys(r) == Keys(d);
      r
    else
      var r := d + [(k, v)];
      assert Keys(r) == Keys(d) + [k];
      r
  }

  /** After `d[k] = v`, `k` reads `v` and every other key reads as before. */
  lemma PutGet<K, V>(d: Dict<K, V>, k: K, v: V, k': K)
    requires DistinctKeys(d)
    ensures Get(Put(d, k, v), k') == if k' == k then Some(v) else Get(d, k')
  {
    var r := Put(d, k, v);
    if k' in Keys(r) {
      var i := PositionOf(r, k');
      if i < |d| {
        assert Get(r, k') == Some(r[i].1);
      }
    }
  }

  /** `a.update(b)`: every entry of `b` stored into `a`, in `b`'s order. The keys
      of `a` keep their places at the front. */
  function Update<K(==), V>(a: Dict<K, V>, b: Dict<K, V>): (r: Dict<K, V>)
    requires DistinctKeys(a)
    ensures DistinctKeys(r)
    ensures |a| <= |r| && Keys(r)[..|a|] == Keys(a)
    decreases |b|
  {
    if |b| == 0 then a
    else
      var a' := Put(a, b[0].0, b[0].1);
      var r := Update(a', b[1..]);
      assert Keys(r)[..|a|] == Keys(a) by {
        assert Keys(a')[..|a|] == Keys(a);
        assert Keys(r)[..|a'|][..|a|] == Keys(r)[..|a|];
      }
      r
  }

  /** The value of the last entry with key `k`: what `dict(pairs)` keeps when a
      key repeats. */
  function GetLast<K(==), V>(d: Dict<K, V>, k: K): (r: Option<V>)
    ensures r.Some? <==> k in Keys(d)
    decreases |d|
  {
    if |d| == 0 then None
    else
      assert Keys(d) == [d[0].0] + Keys(d[1..]);
      if k in Keys(d[1..]) then GetLast(d[1..], k)
      else if d[0].0 == k then Some(d[0].1)
      else None
  }

  /** Without repeated keys the last entry is the only one. */
  lemma {:induction false} GetLastDistinct<K, V>(d: Dict<K, V>, k: K)
    requires DistinctKeys(d)
    ensures GetLast(d, k) == Get(d, k)
    decreases |d|
  {
    if |d| > 0 {
      DistinctTail(d);
      KeysTail(d, k);
      GetLastDistinct(d[1..], k);
    }
  }

  /** After `a.update(b)` a key reads its last value in `b` when `b` has it,
      and its value in `a` otherwise. */
  lemma {:induction false} UpdateGet<K, V>(a: Dict<K, V>, b: Dict<K, V>, k: K)
    requires DistinctKeys(a)
    ensures Get(Update(a, b), k) == if k in Keys(b) then GetLast(b, k) else Get(a, k)
    decreases |b|
  {
    if |b| > 0 {
      var a' := Put(a, b[0].0, b[0].1);
      assert Update(a, b) == Update(a', b[1..]);
      UpdateGet(a', b[1..], k);
      PutGet(a, b[0].0, b[0].1, k);
      KeysTail(b, k);
    }
  }

  lemma DistinctTail<K, V>(d: Dict<K, V>)
    requires DistinctKeys(d) && |d| > 0
    ensures DistinctKeys(d[1..])
    ensures d[0].0 !in Keys(d[1..])
  {
    assert forall i :: 0 <= i < |d| - 1 ==> d[1..][i] == d[i + 1];
  }

  /** How membership and lookup split between the first entry and the rest. */
  lemma KeysTail<K, V>(d: Dict<K, V>, k: K)
    requires |d| > 0
    ensures k in Keys(d) <==> k == d[0].0 || k in Keys(d[1..])
    ensures k != d[0].0 ==> Get(d, k) == Get(d[1..], k)
    ensures k == d[0].0 ==> Get(d, k) == Some(d[0].1)
  {
    assert Keys(d) == [d[0].0] + Keys(d[1..]);
  }

  /** The entries whose key is not in `gone`, in their original order. */
  function Without<K(==,!new), V>(d: Dict<K, V>, gone: set<K>): (r: Dict<K, V>)
    ensures forall k :: k in Keys(r) <==> k in Keys(d) && k !in gone
    ensures DistinctKeys(d) ==> DistinctKeys(r)
    decreases |d|
  {
    if |d| == 0 then []
    else
      var rest := Without(d[1..], gone);
      KeysCons(d);
      if d[0].0 in gone then rest
      else
        if DistinctKeys(d) then DistinctTail(d); ConsDistinct(d[0], rest); [d[0]] + rest
        else KeysCons([d[0]] + rest); [d[0]] + rest
  }

  lemma KeysCons<K, V>(d: Dict<K, V>)
    requires |d| > 0
    ensures Keys(d) == [d[0].0] + Keys(d[1..])
  {
  }

  /** Putting an entry with a new key in front keeps the keys distinct. */
  lemma ConsDistinct<K, V>(x: (K, V), rest: Dict<K, V>)
    requires DistinctKeys(rest) && x.0 !in Keys(rest)
    ensures DistinctKeys([x] + rest)
    ensures Keys([x] + rest) == [x.0] + Keys(rest)
  {
    var r := [x] + rest;
    assert r[1..] == rest;
    KeysCons(r);
    forall i, j | 0 <= i < j < |r| ensures r[i].0 != r[j].0 {
      ConsPairDistinct(x, rest, i, j);
    }
  }

  lemma ConsPairDistinct<K, V>(x: (K, V), rest: Dict<K, V>, i: nat, j: nat)
    requires DistinctKeys(rest) && x.0 !in Keys(rest)
    requires i < j < |rest| + 1
    ensures ([x] + rest)[i].0 != ([x] + rest)[j].0
  {
    var r := [x] + rest;
    assert r[j] == rest[j - 1];
    if i == 0 {
      assert Keys(rest)[j - 1] == rest[j - 1].0;
    } else {
      assert r[i] == rest[i - 1];
    }
  }

  /** A key in `gone` reads as absent; any other reads as before. */
  lemma {:induction false} WithoutGet<K(!new), V>(d: Dict<K, V>, gone: set<K>, k: K)
    ensures Get(Without(d, gone), k) == if k in gone then None else Get(d, k)
    decreases |d|
  {
    if |d| > 0 {
      WithoutGet(d[1..], gone, k);
      KeysTail(d, k);
      if d[0].0 !in gone {
        KeysTail([d[0]] + Without(d[1..], gone), k);
        assert ([d[0]] + Without(d[1..], gone))[1..] == Without(d[1..], gone);
      }
    }
  }

  /** Removing one set of keys and then another is removing both at once. */
  lemma {:induction false} WithoutTwice<K(!new), V>(d: Dict<K, V>, s: set<K>, t: set<K>)
    ensures Without(Without(d, s), t) == Without(d, s + t)
    decreases |d|
  {
    if |d| > 0 {
      WithoutTwice(d[1..], s, t);
      if d[0].0 !in s {
        assert Without(d, s)[1..] == Without(d[1..], s);
      }
    }
  }

  /** Removing keys the dictionary does not have changes nothing. */
  lemma {:induction false} WithoutAbsent<K(!new), V>(d: Dict<K, V>, gone: set<K>)
    requires forall k :: k in gone ==> k !in Keys(d)
    ensures Without(d, gone) == d
    decreases |d|
  {
    if |d| > 0 {
      KeysTail(d, d[0].0);
      forall k | k in gone ensures k !in Keys(d[1..]) {
        KeysTail(d, k);
      }
      WithoutAbsent(d[1..], gone);
      WithoutKeepsHead(d, gone);
      assert d == [d[0]] + d[1..];
    }
  }

  lemma WithoutKeepsHead<K(!new), V>(d: Dict<K, V>, gone: set<K>)
    requires |d| > 0 && d[0].0 !in gone
    ensures Without(d, gone) == [d[0]] + Without(d[1..], gone)
  {
  }

  /** Every value of `d` satisfies `p`. */
  predicate AllValues<K, V>(d: Dict<K, V>, p: V -> bool) {
    forall i :: 0 <= i < |d| ==> p(d[i].1)
  }

  /** `a.update(b)` holds only values taken from `a` or `b`. */
  lemma {:induction false} UpdateAllValues<K, V>(a: Dict<K, V>, b: Dict<K, V>, p: V -> bool)
    requires DistinctKeys(a) && AllValues(a, p) && AllValues(b, p)
    ensures AllValues(Update(a, b), p)
    decreases |b|
  {
    if |b| > 0 {
      var a' := Put(a, b[0].0, b[0].1);
      assert Update(a, b) == Update(a', b[1..]);
      assert AllValues(b[1..], p) by {
        forall i | 0 <= i < |b| - 1 ensures p(b[1..][i].1) {
          assert b[1..][i] == b[i + 1];
        }
      }
      UpdateAllValues(a', b[1..], p);
    }
  }

  /** The entry that no later entry shares a key with is the one `GetLast` finds. */
  lemma {:induction false} GetLastAt<K, V>(d: Dict<K, V>, j: nat)
    requires j < |d|
    requires forall i :: j < i < |d| ==> d[i].0 != d[j].0
    ensures GetLast(d, d[j].0) == Some(d[j].1)
    decreases |d|
  {
    if j == 0 {
      GetLastHead(d);
    } else {
      TailKeepsLast(d, j);
      GetLastAt(d[1..], j - 1);
      GetLastTail(d, d[j].0);
    }
  }

  lemma GetLastHead<K, V>(d: Dict<K, V>)
    requires |d| > 0
    requires forall i :: 0 < i < |d| ==> d[i].0 != d[0].0
    ensures GetLast(d, d[0].0) == Some(d[0].1)
  {
    assert d[0].0 !in Keys(d[1..]) by {
      forall i | 0 <= i < |d| - 1 ensures Keys(d[1..])[i] != d[0].0 {
        assert d[1..][i] == d[i + 1];
      }
    }
  }

  lemma TailKeepsLast<K, V>(d: Dict<K, V>, j: nat)
    requires 0 < j < |d|
    requires forall i :: j < i < |d| ==> d[i].0 != d[j].0
    ensures d[1..][j - 1] == d[j] && d[j].0 in Keys(d[1..])
    ensures forall i :: j - 1 < i < |d[1..]| ==> d[1..][i].0 != d[1..][j - 1].0
  {
    assert d[1..][j - 1] == d[j];
    assert Keys(d[1..])[j - 1] == d[j].0;
    forall i | j - 1 < i < |d| - 1 ensures d[1..][i].0 != d[1..][j - 1].0 {
      assert d[1..][i] == d[i + 1];
    }
  }

  lemma GetLastTail<K, V>(d: Dict<K, V>, k: K)
    requires |d| > 0 && k in Keys(d[1..])
    ensures GetLast(d, k) == GetLast(d[1..], k)
  {
  }

  /** In `a + b` the last entry for `k` lies in `b` whenever `b` has one. */
  lemma {:induction false} GetLastAppend<K, V>(a: Dict<K, V>, b: Dict<K, V>, k: K)
    ensures GetLast(a + b, k) == if k in Keys(b) then GetLast(b, k) else GetLast(a, k)
    decreases |a|
  {
    if |a| == 0 {
      assert a + b == b;
    } else {
      assert (a + b)[1..] == a[1..] + b;
      assert Keys(a[1..] + b) == Keys(a[1..]) + Keys(b);
      assert (a + b)[0] == a[0];
      GetLastAppend(a[1..], b, k);
    }
  }

  /** A value found under `k` is stored in a pair with `k`. */
  lemma {:induction false} GetIn<K, V>(d: Dict<K, V>, k: K)
    ensures Get(d, k).Some? ==> exists i :: 0 <= i < |d| && d[i] == (k, Get(d, k).value)
    decreases |d|
  {
    if |d| > 0 && d[0].0 != k {
      GetIn(d[1..], k);
      if Get(d, k).Some? {
        var i :| 0 <= i < |d[1..]| && d[1..][i] == (k, Get(d, k).value);
        assert d[i + 1] == d[1..][i];
      }
    }
  }
}

=== FILE: payload.dfy ===
/** `bit2bin` (pynq_vision_xclbin_sobel/embedded_device.py): the payload of a
    `.bit` file, reinterpreted as 32-bit words and byte-swapped, is the `.bin`
    image the FPGA manager loads. */
module Payload {
  import opened Results
  import opened Bytes
  import BitHeader
  import BitHeaderLemmas
  import PySeq

  /** Where the byte that lands at position `i` comes from when every four-byte
      word is reversed. */
  function SwapSource(i: nat): nat {
    i - i % 4 + (3 - i % 4)
  }

  lemma SwapSourceBound(i: nat, n: nat)
    requires n % 4 == 0 && i < n
    ensures SwapSource(i) < n
  {
    var w := i / 4;
    var k := i % 4;
    assert i == 4 * w + k;
    assert n == 4 * (n / 4);
    assert w < n / 4;
  }

  lemma SwapSourceFacts(i: nat)
    ensures i >= 4 ==> SwapSource(i) == SwapSource(i - 4) + 4
    ensures i < 4 ==> SwapSource(i) == 3 - i
    ensures SwapSource(SwapSource(i)) == i
    ensures SwapSource(i) / 4 == i / 4
  {
    var w := i / 4;
    var k := i % 4;
    assert i == 4 * w + k;
    assert SwapSource(i) == 4 * w + (3 - k);
    assert (4 * w + (3 - k)) % 4 == 3 - k;
    assert (4 * w + (3 - k)) / 4 == w;
    if i >= 4 {
      assert i - 4 == 4 * (w - 1) + k;
      assert (i - 4) % 4 == k;
    }
  }

  /** `np.frombuffer(data, 'i4').byteswap()` viewed as bytes: the length is kept
      and each byte moves to the mirror position inside its word. */
  function WordSwap(p: seq<byte>): (r: seq<byte>)
    requires |p| % 4 == 0
    ensures |r| == |p|
    ensures forall i :: 0 <= i < |p| ==> r[i] == p[SwapSource(i)]
    decreases |p|
  {
    if |p| == 0 then []
    else
      var rest := WordSwap(p[4..]);
      var r := [p[3], p[2], p[1], p[0]] + rest;
      forall i | 0 <= i < |p| ensures r[i] == p[SwapSource(i)] {
        SwapSourceFacts(i);
        if i >= 4 {
          assert r[i] == rest[i - 4] == p[4..][SwapSource(i - 4)];
        }
      }
      r
  }

  /** Swapping twice restores the payload. */
  lemma {:induction false} WordSwapInvolution(p: seq<byte>)
    requires |p| % 4 == 0
    ensures WordSwap(WordSwap(p)) == p
  {
    var w := WordSwap(p);
    var q := WordSwap(w);
    forall i | 0 <= i < |p| ensures q[i] == p[i] {
      SwapSourceFacts(i);
      SwapSourceBound(i, |p|);
      assert q[i] == w[SwapSource(i)] == p[SwapSource(SwapSource(i))];
    }
  }

  datatype BinError =
    | BadHeader(cause: BitHeader.ParseError)  // raised by the header scan
    | Misaligned(length: int)                 // numpy: size not a multiple of 4

  /** `bit2bin`: decode the header as the source does, with signed lengths,
      then swap the payload's words. It fails exactly when the header fails or
      the payload is not a whole number of words; on success swapping the
      image back gives the payload. The image has the declared payload length
      whenever the leading length does not move the scan before the start of
      the file. */
  function Bit2Bin(bitData: seq<byte>): (r: Result<seq<byte>, BinError>)
    ensures var h := BitHeader.ParseBitHeader(bitData);
      r.Ok? <==> h.Ok? && |h.value.data| % 4 == 0
    ensures var h := BitHeader.ParseBitHeader(bitData);
      r.Ok? ==> |r.value| == |h.value.data| && WordSwap(r.value) == h.value.data
    ensures r.Ok? ==> |bitData| >= 2
    ensures r.Ok? && BitHeader.LeadingLength(bitData) >= -4 ==>
      |r.value| == BitHeader.ParseBitHeader(bitData).value.length
  {
    BitHeaderLemmas.ParseBitHeaderPayload(bitData);
    match BitHeader.ParseBitHeader(bitData)
    case Err(e) => Err(BadHeader(e))
    case Ok(h) =>
      if |h.data| % 4 != 0 then Err(Misaligned(|h.data|))
      else
        WordSwapInvolution(h.data);
        Ok(WordSwap(h.data))
  }

  /** The conversion over the corrected header parser, which reads lengths
      unsigned: the image then always has the declared payload length. */
  function Bit2BinUnsigned(bitData: seq<byte>): (r: Result<seq<byte>, BinError>)
    ensures var h := BitHeader.ParseBitHeaderUnsigned(bitData);
      r.Ok? <==> h.Ok? && |h.value.data| % 4 == 0
    ensures var h := BitHeader.ParseBitHeaderUnsigned(bitData);
      r.Ok? ==> |r.value| == |h.value.data| == h.value.length && WordSwap(r.value) == h.value.data
  {
    BitHeaderLemmas.ParseBitHeaderUnsignedPayload(bitData);
    match BitHeader.ParseBitHeaderUnsigned(bitData)
    case Err(e) => Err(BadHeader(e))
    case Ok(h) =>
      if |h.data| % 4 != 0 then Err(Misaligned(|h.data|))
      else
        WordSwapInvolution(h.data);
        Ok(WordSwap(h.data))
  }

  /** The file FF F3 65 00 00 00 0F 01 02 03 04 converts, as written, to a
      four-byte image although its header declares fifteen payload bytes: the
      leading length -13 moves the scan to Python's index 2, and the declared
      length 15 ends exactly at the end of the file from offset -4. */
  lemma Bit2BinShortImage()
    ensures var c: seq<byte> := [0xFF, 0xF3, 0x65, 0x00, 0x00, 0x00, 0x0F, 0x01, 0x02, 0x03, 0x04];
      && BitHeader.ParseBitHeader(c).Ok? && BitHeader.ParseBitHeader(c).value.length == 15
      && Bit2Bin(c) == Ok([0x04, 0x03, 0x02, 0x01])
  {
    var c: seq<byte> := [0xFF, 0xF3, 0x65, 0x00, 0x00, 0x00, 0x0F, 0x01, 0x02, 0x03, 0x04];
    assert c[..2] == [0xFF, 0xF3];
    assert BeUnsigned([0xFF, 0xF3]) == 0xFFF3 by {
      assert [0xFF, 0xF3][..1] == [0xFF];
      assert [0xFF][..0] == [];
    }
    assert PySeq.Slice(c, 0, 2) == [0xFF, 0xF3];
    assert BitHeader.ReadLength(c, 0, 2, BitHeader.Signed) == Ok(-13);
    assert PySeq.Index(|c|, -9) == Some(2);
    assert PySeq.Slice(c, -8, -4) == [0x00, 0x00, 0x00, 0x0F];
    assert BeUnsigned([0x00, 0x00, 0x00, 0x0F]) == 15 by {
      assert [0x00, 0x00, 0x00, 0x0F][..3] == [0x00, 0x00, 0x00];
      assert [0x00, 0x00, 0x00][..2] == [0x00, 0x00];
      assert [0x00, 0x00][..1] == [0x00];
      assert [0x00][..0] == [];
    }
    assert BitHeader.ReadLength(c, -8, 4, BitHeader.Signed) == Ok(15);
    assert PySeq.Slice(c, -4, 11) == [0x01, 0x02, 0x03, 0x04];
    assert BitHeader.ParseBitHeader(c) == Ok(BitHeader.Header(BitHeader.NoFields, 15, [0x01, 0x02, 0x03, 0x04]));
    assert WordSwap([0x01, 0x02, 0x03, 0x04]) == [0x04, 0x03, 0x02, 0x01] by {
      assert [0x01, 0x02, 0x03, 0x04][4..] == [];
    }
  }
}

=== FILE: portwidth.dfy ===
/** `EmbeddedDevice.set_axi_port_width`
    (pynq_vision_xclbin_sobel/embedded_device.py): on a Zynq UltraScale+ the
    data width of each AXI port named in the processing system's parameters
    is written into the SLCR and AFIFM registers, using two fixed tables that
    name the register fields per parameter and the field value per width. */
module PortWidth {
  import opened Results
  import opened OrderedDicts
  import opened Bitfield
  import opened Bytes

  /** One processing-system parameter, the register fields it selects, and the
      table translating its width string into the fields' value. */
  datatype PortParam = PortParam(name: string, fields: seq<Field>, encoding: Dict<string, nat>)

  const FpdSlcrValue: Dict<string, nat> := [("32", 0), ("64", 1), ("128", 2)]

  const AxifmValue: Dict<string, nat> := [("32", 2), ("64", 1), ("128", 0)]

  /** The master ports' width selectors in the FPD and LPD SLCR. */
  const FpdSlcrRegs: seq<PortParam> := [
    PortParam("C_MAXIGP0_DATA_WIDTH", [Field(0xFD61_5000, 9, 8)], FpdSlcrValue),
    PortParam("C_MAXIGP1_DATA_WIDTH", [Field(0xFD61_5000, 11, 10)], FpdSlcrValue),
    PortParam("C_MAXIGP2_DATA_WIDTH", [Field(0xFF41_9000, 9, 8)], FpdSlcrValue)
  ]

  /** The slave ports' read and write fabric widths in the AFIFM blocks. */
  const AxifmRegs: seq<PortParam> := [
    PortParam("C_SAXIGP0_DATA_WIDTH", [Field(0xFD36_0000, 1, 0), Field(0xFD36_0014, 1, 0)], AxifmValue),
    PortParam("C_SAXIGP1_DATA_WIDTH", [Field(0xFD37_0000, 1, 0), Field(0xFD37_0014, 1, 0)], AxifmValue),
    PortParam("C_SAXIGP2_DATA_WIDTH", [Field(0xFD38_0000, 1, 0), Field(0xFD38_0014, 1, 0)], AxifmValue),
    PortParam("C_SAXIGP3_DATA_WIDTH", [Field(0xFD39_0000, 1, 0), Field(0xFD39_0014, 1, 0)], AxifmValue),
    PortParam("C_SAXIGP4_DATA_WIDTH", [Field(0xFD3A_0000, 1, 0), Field(0xFD3A_0014, 1, 0)], AxifmValue),
    PortParam("C_SAXIGP5_DATA_WIDTH", [Field(0xFD3B_0000, 1, 0), Field(0xFD3B_0014, 1, 0)], AxifmValue),
    PortParam("C_SAXIGP6_DATA_WIDTH", [Field(0xFF9B_0000, 1, 0), Field(0xFF9B_0014, 1, 0)], AxifmValue)
  ]

  /** Both loops of `set_axi_port_width`, one after the other. */
  const PortParams: seq<PortParam> := FpdSlcrRegs + AxifmRegs

  /** The entry's fields are valid bit ranges and every value of its encoding
      fits each of them. */
  predicate EntryWellFormed(p: PortParam) {
    forall j :: 0 <= j < |p.fields| ==>
      Valid(p.fields[j]) && forall k :: 0 <= k < |p.encoding| ==> Fits(p.fields[j], p.encoding[k].1)
  }

  /** Every field of the entry is `g` or shares no bit with it. */
  predicate EntryCompatible(p: PortParam, g: Field) {
    forall j :: 0 <= j < |p.fields| ==> p.fields[j] == g || Disjoint(p.fields[j], g)
  }

  /** Every entry is well formed and no two fields of the table share a bit. */
  predicate TableWellFormed(t: seq<PortParam>) {
    && (forall i :: 0 <= i < |t| ==> EntryWellFormed(t[i]))
    && (forall i, j :: 0 <= i < |t| && 0 <= j < |t[i].fields| ==> SoleOwner(t, i, j))
  }

  /** No field of the table other than field `j` of entry `i` shares a bit with
      it. */
  predicate SoleOwner(t: seq<PortParam>, i: nat, j: nat)
    requires i < |t| && j < |t[i].fields|
  {
    forall i', j' :: 0 <= i' < |t| && 0 <= j' < |t[i'].fields| && (i', j') != (i, j) ==>
      Disjoint(t[i'].fields[j'], t[i].fields[j])
  }

  /** The processing system as the parser describes it: its family and its
      configuration parameters. */
  datatype Ps = Ps(family: string, parameters: Dict<string, string>)

  /** The field writes performed, in order, and the width string whose lookup
      raised `KeyError`, if one did. */
  datatype Outcome = Outcome(writes: seq<(Field, nat)>, badWidth: Option<string>)

  /** The same value written to each field, in order. */
  function Emit(fields: seq<Field>, v: nat): (r: seq<(Field, nat)>)
    ensures |r| == |fields|
    ensures forall k :: 0 <= k < |fields| ==> r[k] == (fields[k], v)
  {
    seq(|fields|, k requires 0 <= k < |fields| => (fields[k], v))
  }

  /** The loop over a table: parameters absent from `params` are skipped; a
      present one has its width looked up (when it has a field to write) and
      each of its fields written; an unknown width stops everything. */
  function Plan(t: seq<PortParam>, params: Dict<string, string>): Outcome
    decreases |t|
  {
    if |t| == 0 then Outcome([], None)
    else
      var p := t[0];
      var rest := Plan(t[1..], params);
      match Get(params, p.name)
      case None => rest
      case Some(width) =>
        if |p.fields| == 0 then rest
        else
          match Get(p.encoding, width)
          case None => Outcome([], Some(width))
          case Some(v) => Outcome(Emit(p.fields, v) + rest.writes, rest.badWidth)
  }

  /** `set_axi_port_width(parser)`: nothing without a processing system or on
      a family other than Zynq UltraScale+. */
  function SetAxiPortWidth(ps: Option<Ps>): Outcome {
    if ps.None? || ps.value.family != "zynq_ultra_ps_e" then Outcome([], None)
    else Plan(PortParams, ps.value.parameters)
  }

  /** A parameter is handled without error: absent, without fields, or with a
      width its table knows. */
  predicate Accepted(p: PortParam, params: Dict<string, string>) {
    Get(params, p.name).None? || |p.fields| == 0 || Get(params, p.name).value in Keys(p.encoding)
  }

  /** The loop fails exactly when some parameter's width is unknown. */
  lemma {:induction false} PlanError(t: seq<PortParam>, params: Dict<string, string>)
    ensures Plan(t, params).badWidth.None? <==> forall i :: 0 <= i < |t| ==> Accepted(t[i], params)
    decreases |t|
  {
    if |t| > 0 {
      PlanError(t[1..], params);
      assert forall i :: 1 <= i < |t| ==> t[1..][i - 1] == t[i];
    }
  }

  /** When the loop fails, the width reported is that of the first parameter
      not accepted, and the writes done are those of the parameters before
      it. */
  lemma {:induction false} PlanErrorAt(t: seq<PortParam>, params: Dict<string, string>, i: nat)
    requires i < |t| && !Accepted(t[i], params)
    requires forall i' :: 0 <= i' < i ==> Accepted(t[i'], params)
    ensures Plan(t, params).badWidth == Get(params, t[i].name)
    ensures Plan(t, params).writes == Plan(t[..i], params).writes
    decreases i
  {
    if i > 0 {
      assert forall i' :: 1 <= i' < |t| ==> t[1..][i' - 1] == t[i'];
      PlanErrorAt(t[1..], params, i - 1);
      assert t[..i][1..] == t[1..][..i - 1];
      assert t[..i][0] == t[0];
    } else {
      assert t[..0] == [];
    }
  }

  /** Each write is valid when the table's entries are. */
  lemma {:induction false} PlanValid(t: seq<PortParam>, params: Dict<string, string>)
    requires forall i :: 0 <= i < |t| ==> EntryWellFormed(t[i])
    ensures ValidWrites(Plan(t, params).writes)
    decreases |t|
  {
    if |t| > 0 {
      assert forall i :: 1 <= i < |t| ==> t[1..][i - 1] == t[i];
      PlanValid(t[1..], params);
      var name := t[0].name;
      if Get(params, name).Some? && |t[0].fields| > 0 {
        var width := Get(params, name).value;
        if Get(t[0].encoding, width).Some? {
          var v := Get(t[0].encoding, width).value;
          GetIn(t[0].encoding, width);
          var k0 :| 0 <= k0 < |t[0].encoding| && t[0].encoding[k0] == (width, v);
          PlanAppend(t, params);
        }
      }
    }
  }

  /** A present, accepted first entry contributes its fields' writes ahead of
      the rest. */
  lemma PlanAppend(t: seq<PortParam>, params: Dict<string, string>)
    requires |t| > 0 && Get(params, t[0].name).Some? && |t[0].fields| > 0
    requires Get(t[0].encoding, Get(params, t[0].name).value).Some?
    ensures var v := Get(t[0].encoding, Get(params, t[0].name).value).value;
      var e := Emit(t[0].fields, v);
      var w := Plan(t, params).writes;
      var rest := Plan(t[1..], params).writes;
      && w == e + rest
      && (forall k :: 0 <= k < |e| ==> w[k] == e[k])
      && (forall k :: |e| <= k < |w| ==> w[k] == rest[k - |e|])
  {
  }

  /** Every field written satisfies `q` when every field of the table does. */
  lemma {:induction false} PlanTouches(t: seq<PortParam>, params: Dict<string, string>, q: Field -> bool)
    requires forall i, j :: 0 <= i < |t| && 0 <= j < |t[i].fields| ==> q(t[i].fields[j])
    ensures forall k :: 0 <= k < |Plan(t, params).writes| ==> q(Plan(t, params).writes[k].0)
    decreases |t|
  {
    if |t| > 0 {
      assert forall i :: 1 <= i < |t| ==> t[1..][i - 1] == t[i];
      PlanTouches(t[1..], params, q);
      var name := t[0].name;
      if Get(params, name).Some? && |t[0].fields| > 0 && Get(t[0].encoding, Get(params, name).value).Some? {
        PlanAppend(t, params);
        var w := Plan(t, params).writes;
        var n := |t[0].fields|;
        forall k | 0 <= k < |w| ensures q(w[k].0) {
          if k < n {
            assert w[k].0 == t[0].fields[k];
          }
        }
      }
    }
  }

  /** After a successful loop, field `j` of entry `i` was last written with the
      value its parameter's width selects, and not at all when the parameter
      is absent. */
  lemma {:induction false} PlanLast(t: seq<PortParam>, params: Dict<string, string>, i: nat, j: nat)
    requires i < |t| && j < |t[i].fields| && Valid(t[i].fields[j]) && SoleOwner(t, i, j)
    requires Plan(t, params).badWidth.None?
    ensures GetLast(Plan(t, params).writes, t[i].fields[j]) ==
      match Get(params, t[i].name)
      case None => None
      case Some(width) => Get(t[i].encoding, width)
    decreases i
  {
    var f := t[i].fields[j];
    assert forall i' :: 1 <= i' < |t| ==> t[1..][i' - 1] == t[i'];
    var rest := Plan(t[1..], params).writes;
    var name := t[0].name;
    var present := Get(params, name).Some? && |t[0].fields| > 0;
    if i == 0 {
      PlanTouches(t[1..], params, g => Disjoint(g, f));
      assert f !in Keys(rest);
      if present {
        var v := Get(t[0].encoding, Get(params, name).value).value;
        PlanAppend(t, params);
        var e := Emit(t[0].fields, v);
        GetLastAppend(e, rest, f);
        assert forall k :: j < k < |e| ==> e[k].0 != e[j].0 by {
          assert forall k :: j < k < |e| ==> Disjoint(t[0].fields[k], f);
        }
        GetLastAt(e, j);
      }
    } else {
      PlanLast(t[1..], params, i - 1, j);
      if present {
        var v := Get(t[0].encoding, Get(params, name).value).value;
        PlanAppend(t, params);
        var e := Emit(t[0].fields, v);
        GetLastAppend(e, rest, f);
        assert f !in Keys(e) by {
          assert forall k :: 0 <= k < |e| ==> Disjoint(t[0].fields[k], f);
        }
      }
    }
  }

  /** The AFIFM block base of slave port `n`. */
  function AxifmBase(n: nat): nat
    requires n < 7
  {
    [0xFD36_0000, 0xFD37_0000, 0xFD38_0000, 0xFD39_0000, 0xFD3A_0000, 0xFD3B_0000, 0xFF9B_0000][n]
  }

  /** Port `n`'s entry: its read and write control registers, 0x14 apart. */
  lemma AxifmShape(n: nat)
    requires n < 7
    ensures AxifmRegs[n].fields == [Field(AxifmBase(n), 1, 0), Field(AxifmBase(n) + 0x14, 1, 0)]
    ensures AxifmRegs[n].encoding == AxifmValue
  {
    assert n == 0 || n == 1 || n == 2 || n == 3 || n == 4 || n == 5 || n == 6;
  }

  /** The blocks lie at least 64 KiB apart, in increasing order. */
  lemma AxifmBasesApart(n: nat, n': nat)
    requires n < n' < 7
    ensures AxifmBase(n) + 0x1_0000 <= AxifmBase(n')
    ensures 0xFD36_0000 <= AxifmBase(n) && AxifmBase(n') <= 0xFF9B_0000
    ensures AxifmBase(n) <= 0xFD3B_0000
  {
  }

  /** Every AFIFM field lies in a register no SLCR selector uses. */
  lemma AxifmAddress(n: nat, j: nat)
    requires n < 7 && j < 2
    ensures var a := AxifmRegs[n].fields[j].addr;
      (0xFD36_0000 <= a <= 0xFD3B_0014 || 0xFF9B_0000 <= a <= 0xFF9B_0014)
  {
    AxifmShape(n);
    assert n == 0 || n == 1 || n == 2 || n == 3 || n == 4 || n == 5 || n == 6;
  }

  lemma SlcrShape(n: nat)
    requires n < 3
    ensures |FpdSlcrRegs[n].fields| == 1 && FpdSlcrRegs[n].encoding == FpdSlcrValue
    ensures var f := FpdSlcrRegs[n].fields[0];
      (f.addr == 0xFD61_5000 || f.addr == 0xFF41_9000) && f.hi == f.lo + 1 < 32
    ensures n != 1 ==> FpdSlcrRegs[n].fields[0].lo == 8
    ensures n == 1 ==> FpdSlcrRegs[n].fields[0] == Field(0xFD61_5000, 11, 10)
    ensures n != 2 ==> FpdSlcrRegs[n].fields[0].addr == 0xFD61_5000
    ensures n == 2 ==> FpdSlcrRegs[n].fields[0].addr == 0xFF41_9000
  {
    assert n == 0 || n == 1 || n == 2;
  }

  /** Every width encoding of every parameter fits each field the parameter
      writes, so the value written is the value read back. */
  lemma EncodingsFit(i: nat, j: nat, k: nat)
    requires i < |PortParams| && j < |PortParams[i].fields| && k < |PortParams[i].encoding|
    ensures Valid(PortParams[i].fields[j])
    ensures PortParams[i].encoding[k].1 < Pow2(Width(PortParams[i].fields[j]))
  {
    var t := PortParams;
    assert i < 3 ==> t[i] == FpdSlcrRegs[i];
    assert 3 <= i ==> t[i] == AxifmRegs[i - 3];
    if i < 3 {
      SlcrShape(i);
    } else {
      AxifmShape(i - 3);
    }
    assert Width(t[i].fields[j]) == 2 && Pow2(2) == 4;
    assert k < 3 ==> FpdSlcrValue[k].1 < 4 && AxifmValue[k].1 < 4;
  }

  /** The two tables of the source are well formed: the SLCR selectors share a
      register but not a bit, and every AFIFM field has a register of its
      own. */
  lemma PortParamsWellFormed()
    ensures TableWellFormed(PortParams)
  {
    var t := PortParams;
    assert |t| == 10;
    assert forall i :: 0 <= i < 3 ==> t[i] == FpdSlcrRegs[i];
    assert forall i :: 3 <= i < 10 ==> t[i] == AxifmRegs[i - 3];
    assert Pow2(2) == 4;
    forall i | 0 <= i < |t| ensures EntryWellFormed(t[i]) {
      if i < 3 {
        SlcrShape(i);
      } else {
        AxifmShape(i - 3);
      }
      forall j, k | 0 <= j < |t[i].fields| && 0 <= k < |t[i].encoding|
        ensures Valid(t[i].fields[j]) && Fits(t[i].fields[j], t[i].encoding[k].1)
      {
        EncodingsFit(i, j, k);
      }
    }
    forall i, j | 0 <= i < |t| && 0 <= j < |t[i].fields| ensures SoleOwner(t, i, j) {
      forall i', j' | 0 <= i' < |t| && 0 <= j' < |t[i'].fields| && (i', j') != (i, j)
        ensures Disjoint(t[i'].fields[j'], t[i].fields[j])
      {
        FieldsApart(i, j, i', j');
      }
    }
  }

  lemma FieldsApart(i: nat, j: nat, i': nat, j': nat)
    requires i < 10 && i' < 10
    requires j < |PortParams[i].fields| && j' < |PortParams[i'].fields| && (i', j') != (i, j)
    ensures Disjoint(PortParams[i'].fields[j'], PortParams[i].fields[j])
  {
    var t := PortParams;
    assert forall i :: 0 <= i < 3 ==> t[i] == FpdSlcrRegs[i];
    assert forall i :: 3 <= i < 10 ==> t[i] == AxifmRegs[i - 3];
    if i < 3 && i' < 3 {
      SlcrShape(i);
      SlcrShape(i');
    } else if i < 3 {
      SlcrShape(i);
      AxifmShape(i' - 3);
      AxifmAddress(i' - 3, j');
    } else if i' < 3 {
      SlcrShape(i');
      AxifmShape(i - 3);
      AxifmAddress(i - 3, j);
    } else {
      AxifmShape(i - 3);
      AxifmShape(i' - 3);
      if i < i' {
        AxifmBasesApart(i - 3, i' - 3);
      } else if i' < i {
        AxifmBasesApart(i' - 3, i - 3);
      }
    }
  }

  /** The widths both encodings know. */
  predicate KnownWidth(w: string) {
    w == "32" || w == "64" || w == "128"
  }

  lemma PortParamsEncodings(i: nat, w: string)
    requires i < |PortParams|
    ensures |PortParams[i].fields| > 0
    ensures w in Keys(PortParams[i].encoding) <==> KnownWidth(w)
  {
    var t := PortParams;
    assert Keys(FpdSlcrValue) == ["32", "64", "128"];
    assert Keys(AxifmValue) == ["32", "64", "128"];
    if i < 3 {
      assert t[i] == FpdSlcrRegs[i];
      SlcrShape(i);
    } else {
      assert t[i] == AxifmRegs[i - 3];
      AxifmShape(i - 3);
    }
  }

  /** Only a Zynq UltraScale+ processing system has registers written or a
      width rejected; there the call raises `KeyError` exactly when some port
      parameter present carries a width other than 32, 64 or 128. */
  lemma SetAxiPortWidthOutcome(ps: Option<Ps>)
    ensures |SetAxiPortWidth(ps).writes| > 0 || SetAxiPortWidth(ps).badWidth.Some? ==>
      ps.Some? && ps.value.family == "zynq_ultra_ps_e"
    ensures ps.Some? && ps.value.family == "zynq_ultra_ps_e" ==>
      (SetAxiPortWidth(ps).badWidth.None? <==>
        forall i :: 0 <= i < |PortParams| && Get(ps.value.parameters, PortParams[i].name).Some? ==>
          KnownWidth(Get(ps.value.parameters, PortParams[i].name).value))
  {
    if ps.Some? && ps.value.family == "zynq_ultra_ps_e" {
      var params := ps.value.parameters;
      PlanError(PortParams, params);
      forall i | 0 <= i < |PortParams|
        ensures Accepted(PortParams[i], params) <==>
          (Get(params, PortParams[i].name).Some? ==> KnownWidth(Get(params, PortParams[i].name).value))
      {
        if Get(params, PortParams[i].name).Some? {
          PortParamsEncodings(i, Get(params, PortParams[i].name).value);
        }
      }
    }
  }

  /** After a loop that raised nothing over a well-formed table, each field of
      a parameter present holds the encoding of its width, and each field of
      an absent one holds what it held before. */
  lemma PlanReads(t: seq<PortParam>, params: Dict<string, string>, m: Registers, i: nat, j: nat)
    requires TableWellFormed(t) && Plan(t, params).badWidth.None?
    requires i < |t| && j < |t[i].fields|
    ensures ValidWrites(Plan(t, params).writes) && Valid(t[i].fields[j])
    ensures var f := t[i].fields[j];
      var r := ReadField(Apply(m, Plan(t, params).writes), f);
      match Get(params, t[i].name)
      case None => r == ReadField(m, f)
      case Some(width) => Get(t[i].encoding, width) == Some(r)
  {
    var f := t[i].fields[j];
    assert EntryWellFormed(t[i]);
    PlanValid(t, params);
    assert SoleOwner(t, i, j);
    forall i', j' | 0 <= i' < |t| && 0 <= j' < |t[i'].fields|
      ensures t[i'].fields[j'] == f || Disjoint(t[i'].fields[j'], f)
    {
    }
    PlanTouches(t, params, g => g == f || Disjoint(g, f));
    PlanLast(t, params, i, j);
    PlanError(t, params);
    assert Accepted(t[i], params);
    ApplyRead(m, Plan(t, params).writes, f);
  }

  /** After a call that raised nothing, each field of a port named in the
      parameters holds the encoding of that port's width, and each field of
      a port not named holds what it held before. */
  lemma SetAxiPortWidthReads(ps: Ps, m: Registers, i: nat, j: nat)
    requires ps.family == "zynq_ultra_ps_e" && SetAxiPortWidth(Some(ps)).badWidth.None?
    requires i < |PortParams| && j < |PortParams[i].fields|
    ensures ValidWrites(SetAxiPortWidth(Some(ps)).writes) && Valid(PortParams[i].fields[j])
    ensures var f := PortParams[i].fields[j];
      var r := ReadField(Apply(m, SetAxiPortWidth(Some(ps)).writes), f);
      match Get(ps.parameters, PortParams[i].name)
      case None => r == ReadField(m, f)
      case Some(width) => Get(PortParams[i].encoding, width) == Some(r)
  {
    PortParamsWellFormed();
    PlanReads(PortParams, ps.parameters, m, i, j);
  }

  /** A field sharing no bit with any field of the tables is never changed. */
  lemma SetAxiPortWidthUntouched(ps: Option<Ps>, m: Registers, g: Field)
    requires Valid(g)
    requires forall i, j :: 0 <= i < |PortParams| && 0 <= j < |PortParams[i].fields| ==>
      Disjoint(PortParams[i].fields[j], g)
    ensures ValidWrites(SetAxiPortWidth(ps).writes)
    ensures ReadField(Apply(m, SetAxiPortWidth(ps).writes), g) == ReadField(m, g)
  {
    PortParamsWellFormed();
    if ps.Some? && ps.value.family == "zynq_ultra_ps_e" {
      var w := Plan(PortParams, ps.value.parameters).writes;
      PlanValid(PortParams, ps.value.parameters);
      PlanTouches(PortParams, ps.value.parameters, f => Disjoint(f, g));
      ApplyRead(m, w, g);
      assert g !in Keys(w);
    }
  }
}

=== FILE: pwmdriver.dfy ===
/** The PYNQ driver of the AXI4 PWM controller (pynq-axi4-pwm/pwm_driver.py,
    class `PWM`): argument checks, register offsets and the register
    self-test. Each call returns the writes it performs, in order, with what
    it returns or raises.

    The driver maps a 128-byte window (`MMIO(base_addr, 128)`). The `MMIO`
    class of pynq is not part of this model; its accesses are taken to raise,
    without touching the device, when the word lies outside the window or
    when the data written is not exactly an `int` (a `bool` included). */
module PwmDriver {
  import opened Results
  import opened Bytes
  import opened RegisterMap

  const CtrlOffset: nat := 0
  const PeriodOffset: nat := 8
  const DutyOffset: nat := 64
  const MaxClocks: int := 0xFFFF_FFFF
  const WindowSize: nat := 128

  /** A Python argument as `isinstance(x, int)` sees it: `bool` is a subclass
      of `int`, so `True` passes as 1 and `False` as 0. */
  datatype Arg = IntArg(i: int) | BoolArg(b: bool) | OtherArg

  function AsInt(a: Arg): Option<int> {
    match a
    case IntArg(i) => Some(i)
    case BoolArg(b) => Some(if b then 1 else 0)
    case OtherArg => None
  }

  datatype PwmError =
    | InvalidClocks   // "Invalid clock count ..." / "Invalid duty clock count ..."
    | InvalidIndex    // "Invalid PWM index (must be non-negative integer)"
    | NotIntData      // the MMIO write refuses data whose type is not `int`
    | OutsideWindow   // the MMIO access lies beyond the mapped 128 bytes

  datatype Call<T> = Call(writes: Writes, ret: Result<T, PwmError>)

  /** The clock count, when it is an integer in `[0, 0xFFFFFFFF]`. */
  function Clocks(a: Arg): Option<uint32> {
    match AsInt(a)
    case Some(v) => if 0 <= v <= MaxClocks then Some(v) else None
    case None => None
  }

  /** The channel index, when it is a non-negative integer. */
  function Index(a: Arg): Option<nat> {
    match AsInt(a)
    case Some(v) => if v >= 0 then Some(v) else None
    case None => None
  }

  /** The four bytes at `offset` lie inside the mapped window. */
  predicate InWindow(offset: nat) {
    offset + 4 <= WindowSize
  }

  /** `mmio.write(offset, data)` of a value that passed the driver's checks. */
  function MmioWrite(offset: nat, data: Arg, v: uint32): Call<()> {
    if !data.IntArg? then Call([], Err(NotIntData))
    else if !InWindow(offset) then Call([], Err(OutsideWindow))
    else Call([(offset, v)], Ok(()))
  }

  /** `set_period(clocks)`. */
  function SetPeriod(clocks: Arg): Call<()> {
    match Clocks(clocks)
    case None => Call([], Err(InvalidClocks))
    case Some(v) => MmioWrite(PeriodOffset, clocks, v)
  }

  /** `get_period()`. */
  function GetPeriod(m: RegFile): uint32 {
    Read(m, PeriodOffset)
  }

  /** The duty register of channel `index`, four bytes per channel. */
  function DutyRegister(index: nat): nat {
    DutyOffset + 4 * index
  }

  /** `set_duty(clocks, pwm_index)`: the count is checked before the index. */
  function SetDuty(clocks: Arg, index: Arg): Call<()> {
    match Clocks(clocks)
    case None => Call([], Err(InvalidClocks))
    case Some(v) =>
      match Index(index)
      case None => Call([], Err(InvalidIndex))
      case Some(k) => MmioWrite(DutyRegister(k), clocks, v)
  }

  /** `get_duty(pwm_index)`. */
  function GetDuty(m: RegFile, index: Arg): Result<uint32, PwmError> {
    match Index(index)
    case None => Err(InvalidIndex)
    case Some(k) =>
      if !InWindow(DutyRegister(k)) then Err(OutsideWindow)
      else Ok(Read(m, DutyRegister(k)))
  }

  function Enable(): Call<()> {
    Call([(CtrlOffset, 1)], Ok(()))
  }

  function Disable(): Call<()> {
    Call([(CtrlOffset, 0)], Ok(()))
  }

  /** `set_period` accepts exactly the plain integers in `[0, 0xFFFFFFFF]`: a
      value out of range or not an integer fails the driver's check, and a
      boolean, which passes it, is refused by the MMIO write; either way
      nothing is written. An accepted count is written to the period register
      alone, where `get_period` finds it. */
  lemma SetPeriodSpec(m: RegFile, clocks: Arg)
    ensures var c := SetPeriod(clocks);
      && (c.ret.Ok? <==> clocks.IntArg? && 0 <= clocks.i <= MaxClocks)
      && (c.ret.Err? ==> c.writes == [])
      && (AsInt(clocks).None? || AsInt(clocks).value < 0 || AsInt(clocks).value > MaxClocks
          <==> c.ret == Err(InvalidClocks))
      && (clocks.BoolArg? ==> c.ret == Err(NotIntData))
      && (c.ret.Ok? ==> c.writes == [(PeriodOffset, clocks.i)]
                        && GetPeriod(Perform(m, c.writes)) == clocks.i)
  {
    var c := SetPeriod(clocks);
    if c.ret.Ok? {
      assert Perform(m, c.writes) == Perform(Write(m, PeriodOffset, clocks.i), []);
    }
  }

  /** `set_duty` raises without a write when the count is not a 32-bit
      unsigned integer or, failing that, when the index is not a non-negative
      integer; a boolean count is refused by the MMIO write, and so is a
      channel from 16 on, whose register lies beyond the 128-byte window.
      Otherwise the count is written to `64 + 4 * index` alone. */
  lemma SetDutySpec(clocks: Arg, index: Arg)
    ensures var c := SetDuty(clocks, index);
      && (c.ret.Ok? <==> clocks.IntArg? && 0 <= clocks.i <= MaxClocks
                         && AsInt(index).Some? && 0 <= AsInt(index).value < 16)
      && (c.ret.Err? ==> c.writes == [])
      && (Clocks(clocks).None? ==> c.ret == Err(InvalidClocks))
      && (Clocks(clocks).Some? && (AsInt(index).None? || AsInt(index).value < 0) ==> c.ret == Err(InvalidIndex))
      && (Clocks(clocks).Some? && AsInt(index).Some? && AsInt(index).value >= 16 && clocks.IntArg?
          ==> c.ret == Err(OutsideWindow))
      && (c.ret.Ok? ==> c.writes == [(64 + 4 * AsInt(index).value, clocks.i)])
  {
  }

  /** `get_duty` raises for a negative or non-integer index, and for a channel
      from 16 on, beyond the window; otherwise it reads `64 + 4 * index`. */
  lemma GetDutySpec(m: RegFile, index: Arg)
    ensures GetDuty(m, index).Err? <==>
      AsInt(index).None? || AsInt(index).value < 0 || AsInt(index).value >= 16
    ensures AsInt(index).Some? && AsInt(index).value >= 16 ==> GetDuty(m, index) == Err(OutsideWindow)
    ensures GetDuty(m, index).Ok? ==> GetDuty(m, index).value == Read(m, 64 + 4 * AsInt(index).value)
  {
  }

  /** On plain registers `get_duty` reads back what `set_duty` wrote, and the
      other channels, the period and the control register keep their values. */
  lemma DutyRoundTrip(m: RegFile, clocks: Arg, index: Arg, other: nat)
    requires SetDuty(clocks, index).ret.Ok?
    ensures var m' := Perform(m, SetDuty(clocks, index).writes);
      && GetDuty(m', index) == Ok(Clocks(clocks).value)
      && (other != Index(index).value ==> GetDuty(m', IntArg(other)) == GetDuty(m, IntArg(other)))
      && GetPeriod(m') == GetPeriod(m)
      && Read(m', CtrlOffset) == Read(m, CtrlOffset)
  {
    var c := SetDuty(clocks, index);
    var k := Index(index).value;
    assert Perform(m, c.writes) == Perform(Write(m, DutyRegister(k), Clocks(clocks).value), []);
  }

  /** `enable` writes 1 and `disable` writes 0 to the control register, and
      nothing else. */
  lemma EnableDisableSpec(m: RegFile)
    ensures Enable().writes == [(CtrlOffset, 1)] && Disable().writes == [(CtrlOffset, 0)]
    ensures Read(Perform(m, Enable().writes), CtrlOffset) == 1
    ensures Read(Perform(m, Disable().writes), CtrlOffset) == 0
    ensures forall o :: o != CtrlOffset ==>
      Read(Perform(m, Enable().writes), o) == Read(m, o) && Read(Perform(m, Disable().writes), o) == Read(m, o)
  {
    assert Perform(m, Enable().writes) == Perform(Write(m, CtrlOffset, 1), []);
    assert Perform(m, Disable().writes) == Perform(Write(m, CtrlOffset, 0), []);
  }

  // ---- self_test ----

  /** The controller behind the window: its registers, and the offsets whose
      writes do not take (a register stuck at its value). */
  datatype Device = Device(regs: RegFile, stuck: set<nat>)

  function Load(dev: Device, offset: nat): uint32 {
    Read(dev.regs, offset)
  }

  function Store(dev: Device, offset: nat, v: uint32): Device {
    if offset in dev.stuck then dev else dev.(regs := Write(dev.regs, offset, v))
  }

  /** The writes of one driver call reaching the device. */
  function Issue(dev: Device, ws: Writes): Device
    decreases |ws|
  {
    if |ws| == 0 then dev else Issue(Store(dev, ws[0].0, ws[0].1), ws[1..])
  }

  const TestPattern: uint32 := 0x1234_5678

  /** `self_test()`: the device afterwards and the verdict. Every call it
      makes is given a valid argument, so no exception reaches its handler. */
  function SelfTest(dev: Device): (Device, bool) {
    var origCtrl := Load(dev, CtrlOffset);
    var origPeriod := Load(dev, PeriodOffset);
    var dev := Issue(dev, Disable().writes);
    var dev := Issue(dev, SetPeriod(IntArg(TestPattern)).writes);
    if Load(dev, PeriodOffset) != TestPattern then (dev, false)
    else
      var dev := Issue(dev, Enable().writes);
      if Load(dev, CtrlOffset) != 1 then (dev, false)
      else
        var dev := Issue(dev, Disable().writes);
        if Load(dev, CtrlOffset) != 0 then (dev, false)
        else
          var dev := Issue(dev, SetPeriod(IntArg(origPeriod)).writes);
          var dev := Issue(dev, [(CtrlOffset, origCtrl)]);
          (dev, true)
  }

  lemma IssueOne(dev: Device, o: nat, v: uint32)
    ensures Issue(dev, [(o, v)]) == Store(dev, o, v)
  {
    assert [(o, v)][1..] == [];
  }

  /** The self-test passes exactly when the control register takes writes and
      the period register takes them or already holds the test pattern; when
      it passes, the control and period registers are back at their original
      values and no other register has changed. */
  lemma SelfTestSpec(dev: Device)
    ensures var (dev', ok) := SelfTest(dev);
      && (ok <==> CtrlOffset !in dev.stuck && (PeriodOffset !in dev.stuck || Load(dev, PeriodOffset) == TestPattern))
      && (ok ==> forall o :: Load(dev', o) == Load(dev, o))
  {
    IssueOne(dev, CtrlOffset, 0);
    var d1 := Store(dev, CtrlOffset, 0);
    IssueOne(d1, PeriodOffset, TestPattern);
    var d2 := Store(d1, PeriodOffset, TestPattern);
    IssueOne(d2, CtrlOffset, 1);
    var d3 := Store(d2, CtrlOffset, 1);
    IssueOne(d3, CtrlOffset, 0);
    var d4 := Store(d3, CtrlOffset, 0);
    IssueOne(d4, PeriodOffset, Load(dev, PeriodOffset));
    var d5 := Store(d4, PeriodOffset, Load(dev, PeriodOffset));
    IssueOne(d5, CtrlOffset, Load(dev, CtrlOffset));
  }

  /** On a controller whose registers all take writes the self-test passes
      and leaves the registers as it found them. */
  lemma SelfTestPlain(regs: RegFile)
    ensures SelfTest(Device(regs, {})).1
    ensures forall o :: Load(SelfTest(Device(regs, {})).0, o) == Read(regs, o)
  {
    SelfTestSpec(Device(regs, {}));
  }
}

=== FILE: pyseq.dfy ===
/** Python's indexing and slicing of sequences, which the header scanner relies on:
    a negative index counts from the end, and slice bounds are clamped instead of
    raising. */
module PySeq {
  import opened Results

  /** The position a slice bound `i` denotes in a sequence of length `n`. */
  function Clamp(i: int, n: nat): (r: nat)
    ensures r <= n
    ensures 0 <= i <= n ==> r == i
    ensures i < 0 <= i + n ==> r == i + n
    ensures i + n < 0 ==> r == 0
    ensures n < i ==> r == n
  {
    if i < 0 then (if i + n < 0 then 0 else i + n)
    else if i > n then n
    else i
  }

  /** `s[i:j]`. */
  function Slice<T>(s: seq<T>, i: int, j: int): (r: seq<T>)
    ensures 0 <= i <= j <= |s| ==> r == s[i..j]
    ensures 0 <= i < j && |r| == j - i ==> j <= |s|
    ensures |r| <= |s|
  {
    var a := Clamp(i, |s|);
    var b := Clamp(j, |s|);
    if a <= b then s[a..b] else []
  }

  /** The position `s[i]` reads in a sequence of length `n`, or `None` where
      Python raises `IndexError`. */
  function Index(n: nat, i: int): (r: Option<nat>)
    ensures r.Some? <==> 0 <= i + n && i < n
    ensures r.Some? ==> r.value < n && (if i >= 0 then r.value == i else r.value == i + n)
  {
    if 0 <= i < n then Some(i)
    else if i < 0 <= i + n then Some(i + n)
    else None
  }

  /** An index inside the sequence reads itself. */
  lemma IndexInside(n: nat, i: nat)
    requires i < n
    ensures Index(n, i) == Some(i)
  {
  }
}

=== FILE: registermap.dfy ===
/** The AXI-Lite register block of an IP as its Python driver sees it through
    `read(offset)` and `write(offset, value)`: byte offsets to 32-bit values.
    The MMIO layer underneath is not modelled; an offset never written reads
    as zero. Bitwise `|` and `& ~` on register values are defined bit by bit
    on the 32-bit pattern. */
module RegisterMap {
  import opened Bytes
  import opened Bitfield

  type RegFile = map<nat, uint32>

  function Read(m: RegFile, offset: nat): uint32 {
    if offset in m then m[offset] else 0
  }

  /** A write changes the one offset it targets. */
  function Write(m: RegFile, offset: nat, v: uint32): (r: RegFile)
    ensures Read(r, offset) == v
    ensures forall o :: o != offset ==> Read(r, o) == Read(m, o)
  {
    m[offset := v]
  }

  /** The writes one driver call performs, in order. */
  type Writes = seq<(nat, uint32)>

  function Perform(m: RegFile, ws: Writes): RegFile
    decreases |ws|
  {
    if |ws| == 0 then m else Perform(Write(m, ws[0].0, ws[0].1), ws[1..])
  }

  /** `x & (1 << k) != 0`. */
  function TestBit(x: uint32, k: nat): bool
    requires k < 32
  {
    Bits(x, 32)[k]
  }

  /** The value whose bit pattern is `w`. */
  function FromBits(w: seq<bool>): (r: uint32)
    requires |w| == 32
    ensures forall k :: 0 <= k < 32 ==> TestBit(r, k) == w[k]
  {
    Pow2Of32();
    BitsValue(w);
    Value(w)
  }

  /** `x | y`. */
  function Or(x: uint32, y: uint32): (r: uint32)
    ensures forall k :: 0 <= k < 32 ==> TestBit(r, k) == (TestBit(x, k) || TestBit(y, k))
  {
    FromBits(seq(32, i requires 0 <= i < 32 => Bits(x, 32)[i] || Bits(y, 32)[i]))
  }

  /** `x & ~y`. */
  function AndNot(x: uint32, y: uint32): (r: uint32)
    ensures forall k :: 0 <= k < 32 ==> TestBit(r, k) == (TestBit(x, k) && !TestBit(y, k))
  {
    FromBits(seq(32, i requires 0 <= i < 32 => Bits(x, 32)[i] && !Bits(y, 32)[i]))
  }

  /** A 32-bit value is determined by its bits. */
  lemma SameBits(x: uint32, y: uint32)
    requires forall k :: 0 <= k < 32 ==> TestBit(x, k) == TestBit(y, k)
    ensures x == y
  {
    Pow2Of32();
    assert Bits(x, 32) == Bits(y, 32) by {
      forall k | 0 <= k < 32 ensures Bits(x, 32)[k] == Bits(y, 32)[k] {
        assert TestBit(x, k) == TestBit(y, k);
      }
    }
    ValueBits(x, 32);
    ValueBits(y, 32);
  }

  /** The mask `2**j` has bit `j` and no other. */
  lemma MaskBit(j: nat, k: nat)
    requires j < 32 && k < 32
    ensures Pow2(j) < Two32
    ensures TestBit(Pow2(j), k) == (j == k)
  {
    Pow2Of32();
    Pow2Grows(j, 32);
    BitsPow2(j, 32, k);
  }

  lemma {:induction false} Pow2Grows(j: nat, n: nat)
    requires j < n
    ensures Pow2(j) < Pow2(n)
    decreases n
  {
    if j < n - 1 {
      Pow2Grows(j, n - 1);
    }
  }

  /** Zero has no bit set. */
  lemma ZeroBits(k: nat)
    requires k < 32
    ensures !TestBit(0, k)
  {
    BitsZero(32, k);
  }

  /** `TestBit` agrees with the arithmetic reading `(x >> k) & 1`. */
  lemma TestBitArith(x: uint32, k: nat)
    requires k < 32
    ensures TestBit(x, k) == ((x / Pow2(k)) % 2 == 1)
  {
    BitsAt(x, 32, k);
  }
}

=== FILE: results.dfy ===
/** Failure-compatible wrappers used by every module of the model: `Option` for
    Python's `None`, `Result` for a call that either returns or raises. */
module Results {

  datatype Option<+T> = None | Some(value: T)

  /** `Err` stands for a raised exception; the error value says which one. */
  datatype Result<+T, +E> = Ok(value: T) | Err(error: E) {

    predicate IsFailure() {
      Err?
    }

    function PropagateFailure<U>(): Result<U, E>
      requires Err?
    {
      Err(error)
    }

    function Extract(): T
      requires Ok?
    {
      value
    }
  }
}

=== FILE: strings.dfy ===
/** The two pieces of Python string handling the core depends on: `str.split`
    with a one-character separator, and the decimal rendering an f-string gives
    a non-negative integer. */
module Strings {

  /** `sep.join(segments)`. */
  function Join(segments: seq<string>, sep: char): string
    requires |segments| >= 1
  {
    if |segments| == 1 then segments[0]
    else segments[0] + [sep] + Join(segments[1..], sep)
  }

  /** `s.split(sep)`: the segments between separators, at least one of them.
      A separator closes the current segment; any other character extends it. */
  function Split(s: string, sep: char): (r: seq<string>)
    ensures |r| >= 1
    decreases |s|
  {
    if |s| == 0 then [""]
    else
      var rest := Split(s[1..], sep);
      if s[0] == sep then [""] + rest
      else [[s[0]] + rest[0]] + rest[1..]
  }

  /** No segment holds the separator. */
  lemma {:induction false} SplitFree(s: string, sep: char)
    ensures forall i :: 0 <= i < |Split(s, sep)| ==> sep !in Split(s, sep)[i]
    decreases |s|
  {
    if |s| > 0 {
      var rest := Split(s[1..], sep);
      SplitFree(s[1..], sep);
      var segs := Split(s, sep);
      forall i | 0 <= i < |segs|
        ensures sep !in segs[i]
      {
        if s[0] == sep {
          SegmentAfterSeparator(s, sep, rest, i);
        } else {
          SegmentAfterChar(s, sep, rest, i);
        }
      }
    }
  }

  lemma SegmentAfterSeparator(s: string, sep: char, rest: seq<string>, i: nat)
    requires |s| > 0 && s[0] == sep && rest == Split(s[1..], sep)
    requires forall j :: 0 <= j < |rest| ==> sep !in rest[j]
    requires i < |Split(s, sep)|
    ensures sep !in Split(s, sep)[i]
  {
    var segs := Split(s, sep);
    assert segs == [""] + rest;
    if i > 0 {
      assert segs[i] == rest[i - 1];
    }
  }

  lemma SegmentAfterChar(s: string, sep: char, rest: seq<string>, i: nat)
    requires |s| > 0 && s[0] != sep && rest == Split(s[1..], sep)
    requires forall j :: 0 <= j < |rest| ==> sep !in rest[j]
    requires i < |Split(s, sep)|
    ensures sep !in Split(s, sep)[i]
  {
    var segs := Split(s, sep);
    assert segs == [[s[0]] + rest[0]] + rest[1..];
    if i > 0 {
      assert segs[i] == rest[i];
    } else {
      assert sep !in rest[0];
    }
  }

  /** Joining the segments with the separator gives back the string. */
  lemma {:induction false} SplitJoin(s: string, sep: char)
    ensures Join(Split(s, sep), sep) == s
    decreases |s|
  {
    if |s| > 0 {
      var rest := Split(s[1..], sep);
      SplitJoin(s[1..], sep);
      var segs := Split(s, sep);
      assert s == [s[0]] + s[1..];
      if s[0] == sep {
        assert segs == [""] + rest;
        assert segs[1..] == rest;
        assert Join(segs, sep) == "" + [sep] + Join(rest, sep);
      } else {
        var head := [s[0]] + rest[0];
        assert segs == [head] + rest[1..];
        if |rest| == 1 {
          assert Join(segs, sep) == head;
        } else {
          assert segs[1..] == rest[1..];
          assert Join(segs, sep) == head + [sep] + Join(rest[1..], sep);
          assert Join(rest, sep) == rest[0] + [sep] + Join(rest[1..], sep);
        }
      }
    }
  }

  /** A string splits into one segment exactly when it holds no separator,
      and that segment is the whole string. */
  lemma {:induction false} SplitSingle(s: string, sep: char)
    ensures |Split(s, sep)| == 1 <==> sep !in s
    ensures sep !in s ==> Split(s, sep) == [s]
    decreases |s|
  {
    if |s| > 0 {
      SplitSingle(s[1..], sep);
      assert s == [s[0]] + s[1..];
    }
  }

  /** `f` is a prefix of `s` free of `sep` that is all of `s` or is followed
      by a `sep`: the longest such prefix. */
  predicate LeadingSegment(f: string, s: string, sep: char) {
    && sep !in f
    && f <= s
    && (f == s || s[|f|] == sep)
  }

  /** `s.split(sep)[0]` is the longest prefix of `s` free of `sep`. */
  lemma {:induction false} FirstSegment(s: string, sep: char)
    ensures LeadingSegment(Split(s, sep)[0], s, sep)
    decreases |s|
  {
    if |s| > 0 && s[0] != sep {
      var rest := Split(s[1..], sep);
      FirstSegment(s[1..], sep);
      assert Split(s, sep)[0] == [s[0]] + rest[0];
      LeadingCons(s, sep, rest[0]);
    }
  }

  /** A leading segment of `s[1..]` grows by a first character that is not
      the separator. */
  lemma LeadingCons(s: string, sep: char, f: string)
    requires |s| > 0 && s[0] != sep
    requires LeadingSegment(f, s[1..], sep)
    ensures LeadingSegment([s[0]] + f, s, sep)
  {
    assert s == [s[0]] + s[1..];
    if f != s[1..] {
      assert s[|f| + 1] == s[1..][|f|];
    }
  }

  /** `l` is a suffix of `s` free of `sep` that is all of `s` or follows a
      `sep`: the longest such suffix. */
  predicate TrailingSegment(l: string, s: string, sep: char) {
    && sep !in l
    && |l| <= |s|
    && l == s[|s| - |l|..]
    && (l == s || s[|s| - |l| - 1] == sep)
  }

  /** `s.split(sep)[-1]` is the longest suffix of `s` free of `sep`. */
  lemma {:induction false} LastSegment(s: string, sep: char)
    ensures var segs := Split(s, sep);
      TrailingSegment(segs[|segs| - 1], s, sep)
    decreases |s|
  {
    if sep !in s {
      SplitSingle(s, sep);
    } else {
      var rest := Split(s[1..], sep);
      var l := rest[|rest| - 1];
      LastSegment(s[1..], sep);
      if s[0] != sep {
        SeparatorInTail(s, sep);
        assert l != s[1..];
      }
      LastOfSplit(s, sep, rest);
      TrailingTail(s, sep, l);
    }
  }

  lemma SeparatorInTail(s: string, sep: char)
    requires sep in s && s[0] != sep
    ensures sep in s[1..]
  {
    assert s == [s[0]] + s[1..];
  }

  /** Once `s[1..]` holds a separator or `s[0]` is one, the last segment of
      `s` is the last segment of `s[1..]`. */
  lemma LastOfSplit(s: string, sep: char, rest: seq<string>)
    requires |s| > 0 && rest == Split(s[1..], sep)
    requires s[0] == sep || sep in s[1..]
    ensures var segs := Split(s, sep);
      segs[|segs| - 1] == rest[|rest| - 1]
  {
    var segs := Split(s, sep);
    if s[0] == sep {
      assert segs == [""] + rest;
    } else {
      SplitSingle(s[1..], sep);
      assert segs == [[s[0]] + rest[0]] + rest[1..];
    }
  }

  /** A trailing segment of `s[1..]` is one of `s` unless it is all of
      `s[1..]` and `s[0]` is not the separator. */
  lemma TrailingTail(s: string, sep: char, l: string)
    requires |s| > 0 && TrailingSegment(l, s[1..], sep)
    requires l == s[1..] ==> s[0] == sep
    ensures TrailingSegment(l, s, sep)
  {
    if l == s[1..] {
      assert |s| - |l| - 1 == 0;
    } else {
      assert s[1..][|s| - 1 - |l| - 1] == s[|s| - |l| - 1];
    }
  }

  /** The character of a decimal digit. */
  function Digit(d: nat): (c: char)
    requires d < 10
    ensures '0' <= c <= '9' && c as int - '0' as int == d
  {
    ('0' as int + d) as char
  }

  /** `str(n)` / `f'{n}'` for a non-negative integer. */
  function NatToString(n: nat): (r: string)
    ensures |r| >= 1
    ensures forall i :: 0 <= i < |r| ==> '0' <= r[i] <= '9'
    decreases n
  {
    if n < 10 then [Digit(n)] else NatToString(n / 10) + [Digit(n % 10)]
  }

  /** The number a string of decimal digits denotes (`int(s)`). */
  function DecimalValue(s: string): (r: nat)
    requires forall i :: 0 <= i < |s| ==> '0' <= s[i] <= '9'
  {
    if |s| == 0 then 0
    else DecimalValue(s[..|s| - 1]) * 10 + (s[|s| - 1] as int - '0' as int)
  }

  /** `int(str(n)) == n`: the rendering loses nothing. */
  lemma {:induction false} DecimalRoundTrip(n: nat)
    ensures DecimalValue(NatToString(n)) == n
    decreases n
  {
    if n >= 10 {
      DecimalRoundTrip(n / 10);
      var s := NatToString(n);
      assert s[..|s| - 1] == NatToString(n / 10);
    }
  }

  /** Distinct numbers render as distinct strings. */
  lemma NatToStringInjective(a: nat, b: nat)
    requires NatToString(a) == NatToString(b)
    ensures a == b
  {
    DecimalRoundTrip(a);
    DecimalRoundTrip(b);
  }
}

=== FILE: topology.dfy ===
/** `_ip_to_topology` (pynq_vision_xclbin_sobel/embedded_device.py): the
    synthetic memory topology packaged into an xclbin when a design ships only
    HWH metadata. */
module Topology {
  import opened Results
  import opened OrderedDicts
  import opened Metadata
  import Strings

  datatype MemEntry = MemEntry(memType: string, used: int, sizeKB: int, tag: string, baseAddress: Value)

  /** The `mem_topology` table: its entries and `m_count`. */
  datatype MemTopology = MemTopology(memData: seq<MemEntry>, count: int)

  /** The entry every synthetic topology starts with: 256 MiB of PS DDR at
      address 0. */
  const PsDdr := MemEntry("MEM_DDR4", 1, 256 * 1024, "PSDDR", Int(0))

  /** `v // 1024` on a metadata value; only integers divide. Python's `//`
      floors, which for the positive divisor is Dafny's `/`. */
  function KiB(v: Value): (r: Result<int, MetaError>)
    ensures r.Ok? <==> v.Int?
    ensures r.Ok? ==> r.value * 1024 <= v.i < r.value * 1024 + 1024
  {
    match v
    case Int(n) => Ok(n / 1024)
    case _ => Err(TypeError)
  }

  /** A region the table can describe: an integer `addr_range` and a
      `phys_addr`. */
  predicate Describable(v: Region) {
    && Get(v, "addr_range").Some? && Get(v, "addr_range").value.Int?
    && "phys_addr" in Keys(v)
  }

  /** Entry `e` is the table row for region `v` at table position `idx`. */
  predicate Describes(e: MemEntry, v: Region, idx: nat) {
    && e.memType == "MEM_DDR4" && e.used == 1
    && e.tag == "MIG" + Strings.NatToString(idx)
    && Get(v, "addr_range").Some? && Get(v, "addr_range").value.Int?
    && e.sizeKB * 1024 <= Get(v, "addr_range").value.i < e.sizeKB * 1024 + 1024
    && Get(v, "phys_addr") == Some(e.baseAddress)
  }

  /** One pass of the loop: store `xrt_mem_idx`, then build the row from the
      updated region. */
  function Row(v: Region, idx: nat): (r: Result<(MemEntry, Region), MetaError>)
    requires DistinctKeys(v)
    ensures r.Ok? <==> Describable(v)
    ensures r.Ok? ==> Describes(r.value.0, v, idx) && r.value.1 == Put(v, "xrt_mem_idx", Int(idx))
  {
    var stored := Put(v, "xrt_mem_idx", Int(idx));
    PutGet(v, "xrt_mem_idx", Int(idx), "addr_range");
    PutGet(v, "xrt_mem_idx", Int(idx), "phys_addr");
    match Lookup(stored, "addr_range")
    case Err(e) => Err(e)
    case Ok(range) =>
      match KiB(range)
      case Err(e) => Err(e)
      case Ok(size) =>
        match Lookup(stored, "phys_addr")
        case Err(e) => Err(e)
        case Ok(base) => Ok((MemEntry("MEM_DDR4", 1, size, "MIG" + Strings.NatToString(idx), base), stored))
  }

  /** The loop of `_ip_to_topology` from table position `next` on: the rows,
      and the regions with `xrt_mem_idx` stored. */
  function Rows(mem: MemDict, next: nat): (r: Result<(seq<MemEntry>, MemDict), MetaError>)
    requires RegionsDistinct(mem)
    decreases |mem|
  {
    if |mem| == 0 then Ok(([], []))
    else
      match Row(mem[0].1, next)
      case Err(e) => Err(e)
      case Ok(first) =>
        RegionsDistinctTail(mem);
        match Rows(mem[1..], next + 1)
        case Err(e) => Err(e)
        case Ok(rest) => Ok(([first.0] + rest.0, [(mem[0].0, first.1)] + rest.1))
  }

  /** The loop succeeds exactly when every region is describable, with one
      row and one region per region. */
  lemma {:induction false} RowsOk(mem: MemDict, next: nat)
    requires RegionsDistinct(mem)
    ensures Rows(mem, next).Ok? <==> forall i :: 0 <= i < |mem| ==> Describable(mem[i].1)
    ensures var r := Rows(mem, next);
      r.Ok? ==> |r.value.0| == |mem| == |r.value.1|
    decreases |mem|
  {
    if |mem| > 0 {
      RegionsDistinctTail(mem);
      var tail := mem[1..];
      RowsOk(tail, next + 1);
      if Row(mem[0].1, next).Ok? {
        if Rows(tail, next + 1).Err? {
          var j :| 0 <= j < |tail| && !Describable(tail[j].1);
          assert tail[j] == mem[j + 1];
        } else {
          forall i | 0 < i < |mem| ensures Describable(mem[i].1) {
            assert tail[i - 1] == mem[i];
          }
        }
      }
    }
  }

  /** One pass of the loop, then the rest. */
  lemma RowsUnfold(mem: MemDict, next: nat)
    requires RegionsDistinct(mem) && |mem| > 0 && Rows(mem, next).Ok?
    ensures RegionsDistinct(mem[1..])
    ensures Row(mem[0].1, next).Ok? && Rows(mem[1..], next + 1).Ok?
    ensures var first := Row(mem[0].1, next).value;
      var rest := Rows(mem[1..], next + 1).value;
      Rows(mem, next).value == ([first.0] + rest.0, [(mem[0].0, first.1)] + rest.1)
  {
    RegionsDistinctTail(mem);
  }

  /** Row `i` of `r` describes region `i` at position `next + i`, and region
      `i` of `r` is region `i` of `mem` with `xrt_mem_idx = next + i` stored
      under its own name. */
  predicate RowAgrees(r: (seq<MemEntry>, MemDict), mem: MemDict, next: nat, i: nat)
    requires i < |mem| && DistinctKeys(mem[i].1)
  {
    && i < |r.0| && i < |r.1|
    && Describes(r.0[i], mem[i].1, next + i)
    && r.1[i] == (mem[i].0, Put(mem[i].1, "xrt_mem_idx", Int(next + i)))
  }

  /** Every row of the loop agrees with its region. */
  lemma {:induction false} RowsAt(mem: MemDict, next: nat, i: nat)
    requires RegionsDistinct(mem) && Rows(mem, next).Ok? && i < |mem|
    ensures RowAgrees(Rows(mem, next).value, mem, next, i)
    decreases i
  {
    RowsUnfold(mem, next);
    if i > 0 {
      var tail := mem[1..];
      RowsAt(tail, next + 1, i - 1);
      RowsShift(Row(mem[0].1, next).value, Rows(tail, next + 1).value, mem, next, i);
    }
  }

  /** Prepending the first row and region shifts the agreement by one. */
  lemma RowsShift(first: (MemEntry, Region), rest: (seq<MemEntry>, MemDict), mem: MemDict, next: nat, i: nat)
    requires 0 < i < |mem| && DistinctKeys(mem[i].1)
    requires RowAgrees(rest, mem[1..], next + 1, i - 1)
    ensures RowAgrees(([first.0] + rest.0, [(mem[0].0, first.1)] + rest.1), mem, next, i)
  {
    var rows := [first.0] + rest.0;
    var regions := [(mem[0].0, first.1)] + rest.1;
    assert next + 1 + (i - 1) == next + i;
    assert mem[1..][i - 1] == mem[i];
    assert rows[i] == rest.0[i - 1];
    assert regions[i] == rest.1[i - 1];
  }

  /** Both facts about the loop together. */
  lemma RowsSpec(mem: MemDict, next: nat)
    requires RegionsDistinct(mem)
    ensures Rows(mem, next).Ok? <==> forall i :: 0 <= i < |mem| ==> Describable(mem[i].1)
    ensures var r := Rows(mem, next);
      r.Ok? ==> |r.value.0| == |mem| == |r.value.1|
    ensures var r := Rows(mem, next);
      r.Ok? ==> forall i :: 0 <= i < |mem| ==>
        && Describes(r.value.0[i], mem[i].1, next + i)
        && r.value.1[i] == (mem[i].0, Put(mem[i].1, "xrt_mem_idx", Int(next + i)))
  {
    RowsOk(mem, next);
    if Rows(mem, next).Ok? {
      forall i | 0 <= i < |mem|
        ensures Describes(Rows(mem, next).value.0[i], mem[i].1, next + i)
        ensures Rows(mem, next).value.1[i] == (mem[i].0, Put(mem[i].1, "xrt_mem_idx", Int(next + i)))
      {
        RowsAt(mem, next, i);
        assert RowAgrees(Rows(mem, next).value, mem, next, i);
      }
    }
  }

  /** `_ip_to_topology(mem)`: the table, and the memory dictionary with every
      region's `xrt_mem_idx` set. */
  function IpToTopology(mem: MemDict): (r: Result<(MemTopology, MemDict), MetaError>)
    requires RegionsDistinct(mem)
  {
    match Rows(mem, 1)
    case Err(e) => Err(e)
    case Ok(rows) =>
      var data := [PsDdr] + rows.0;
      Ok((MemTopology(data, |data|), rows.1))
  }

  /** The table starts with the PS DDR row at address 0; region `i` becomes row
      `i + 1`, sized `addr_range // 1024` and tagged `MIG{i + 1}`; `m_count` is
      one more than the number of regions; and each region gains `xrt_mem_idx`
      naming its own row, every other field and every name left as it was. */
  lemma IpToTopologySpec(mem: MemDict)
    requires RegionsDistinct(mem)
    ensures IpToTopology(mem).Ok? <==> forall i :: 0 <= i < |mem| ==> Describable(mem[i].1)
    ensures var r := IpToTopology(mem);
      r.Ok? ==>
        var t := r.value.0;
        var m := r.value.1;
        && |t.memData| == |mem| + 1 && t.count == |mem| + 1
        && t.memData[0] == PsDdr
        && |m| == |mem|
        && forall i :: 0 <= i < |mem| ==>
             && Describes(t.memData[i + 1], mem[i].1, i + 1)
             && m[i].0 == mem[i].0
             && Get(m[i].1, "xrt_mem_idx") == Some(Int(i + 1))
             && Keys(mem[i].1) <= Keys(m[i].1)
             && forall k :: k != "xrt_mem_idx" ==> Get(m[i].1, k) == Get(mem[i].1, k)
  {
    RowsOk(mem, 1);
    TopologyOfRows(mem);
    if Rows(mem, 1).Ok? {
      var rows := Rows(mem, 1).value;
      var t := IpToTopology(mem).value.0;
      var m := IpToTopology(mem).value.1;
      forall i | 0 <= i < |mem|
        ensures && Describes(t.memData[i + 1], mem[i].1, i + 1)
                && m[i].0 == mem[i].0
                && Get(m[i].1, "xrt_mem_idx") == Some(Int(i + 1))
                && Keys(mem[i].1) <= Keys(m[i].1)
                && forall k :: k != "xrt_mem_idx" ==> Get(m[i].1, k) == Get(mem[i].1, k)
      {
        RowsAt(mem, 1, i);
        TopologyRow(mem, rows, t, m, i);
      }
    }
  }

  /** The table and dictionary `_ip_to_topology` returns, in terms of the loop's. */
  lemma TopologyOfRows(mem: MemDict)
    requires RegionsDistinct(mem)
    ensures IpToTopology(mem).Ok? <==> Rows(mem, 1).Ok?
    ensures Rows(mem, 1).Ok? ==>
      var rows := Rows(mem, 1).value;
      && IpToTopology(mem).value.0 == MemTopology([PsDdr] + rows.0, |rows.0| + 1)
      && IpToTopology(mem).value.1 == rows.1
  {
  }

  /** Row `i + 1` of the table and region `i` of the dictionary, from the
      loop's row `i`. */
  lemma TopologyRow(mem: MemDict, rows: (seq<MemEntry>, MemDict), t: MemTopology, m: MemDict, i: nat)
    requires i < |mem| && DistinctKeys(mem[i].1)
    requires RowAgrees(rows, mem, 1, i)
    requires t.memData == [PsDdr] + rows.0 && m == rows.1
    ensures && Describes(t.memData[i + 1], mem[i].1, i + 1)
            && m[i].0 == mem[i].0
            && Get(m[i].1, "xrt_mem_idx") == Some(Int(i + 1))
            && Keys(mem[i].1) <= Keys(m[i].1)
            && forall k :: k != "xrt_mem_idx" ==> Get(m[i].1, k) == Get(mem[i].1, k)
  {
    assert t.memData[i + 1] == rows.0[i];
    PutGet(mem[i].1, "xrt_mem_idx", Int(i + 1), "xrt_mem_idx");
    forall k | k != "xrt_mem_idx" ensures Get(m[i].1, k) == Get(mem[i].1, k) {
      PutGet(mem[i].1, "xrt_mem_idx", Int(i + 1), k);
    }
  }

  /** The generated tags differ from each other and from `PSDDR`. */
  lemma MigTagsDistinct(i: nat, j: nat)
    requires i != j
    ensures "MIG" + Strings.NatToString(i) != "MIG" + Strings.NatToString(j)
    ensures "MIG" + Strings.NatToString(i) != PsDdr.tag
  {
    var ti := "MIG" + Strings.NatToString(i);
    var tj := "MIG" + Strings.NatToString(j);
    assert ti[0] == 'M' && PsDdr.tag[0] == 'P';
    if ti == tj {
      assert ti[3..] == Strings.NatToString(i) && tj[3..] == Strings.NatToString(j);
      Strings.NatToStringInjective(i, j);
    }
  }

  /** No two rows share a tag, so each region's `xrt_mem_idx` picks out one row. */
  lemma TopologyTagsDistinct(mem: MemDict)
    requires RegionsDistinct(mem) && IpToTopology(mem).Ok?
    ensures var t := IpToTopology(mem).value.0;
      forall i, j :: 0 <= i < j < |t.memData| ==> t.memData[i].tag != t.memData[j].tag
  {
    var t := IpToTopology(mem).value.0;
    forall i, j | 0 <= i < j < |t.memData| ensures t.memData[i].tag != t.memData[j].tag {
      TagAt(mem, t, i);
      TagAt(mem, t, j);
      MigTagsDistinct(j, i);
    }
  }

  /** Row 0 is tagged `PSDDR` and row `k > 0` is tagged `MIG{k}`. */
  lemma TagAt(mem: MemDict, t: MemTopology, k: nat)
    requires RegionsDistinct(mem) && IpToTopology(mem).Ok? && t == IpToTopology(mem).value.0
    requires k < |t.memData|
    ensures t.memData[k].tag == if k == 0 then PsDdr.tag else "MIG" + Strings.NatToString(k)
  {
    RowsOk(mem, 1);
    TopologyOfRows(mem);
    var rows := Rows(mem, 1).value;
    if k > 0 {
      RowsAt(mem, 1, k - 1);
      assert t.memData[k] == rows.0[k - 1];
    }
  }

  /** The memory dictionary stays a proper dictionary of proper regions. */
  lemma TopologyKeepsWellFormed(mem: MemDict)
    requires WellFormed(mem) && IpToTopology(mem).Ok?
    ensures WellFormed(IpToTopology(mem).value.1)
  {
    RowsSpec(mem, 1);
    var m := IpToTopology(mem).value.1;
    assert Keys(m) == Keys(mem);
  }
}

=== FILE: uartcore.dfy ===
/** The HLS UART core (hls-uart/src/uart_hls.cpp): one call of `uart_hls` is one
    step of a state machine holding the latched configuration, the status
    flags, the two byte counters and the static state of `uart_tx` and
    `uart_rx`. Lines are booleans, `true` being the idle-high level. The
    transmit stream is the queue of bytes waiting; the receive stream is
    represented by whether it is full and by the byte written to it, if any. */
module UartCore {
  import opened Results
  import opened Bytes
  import opened Bitfield

  /** `ap_uint<3>`: the index of the data bit being sent or sampled. */
  type BitIndex = b: nat | b < 8

  /** A byte being assembled, least significant bit first. */
  type Octet = s: seq<bool> | |s| == 8 witness seq(8, _ => false)

  /** Bit `k` of a byte, as `tx_data[k]` reads it. */
  function BitOf(b: byte, k: BitIndex): bool {
    Bits(b, 8)[k]
  }

  /** `(x + 1)` in `ap_uint<32>`. */
  function Inc32(x: uint32): (r: uint32)
    ensures x < Two32 - 1 ==> r == x + 1
    ensures x == Two32 - 1 ==> r == 0
  {
    (x + 1) % Two32
  }

  // ---- uart_tx ----

  datatype TxPhase = TxIdle | TxStart | TxData | TxStop

  /** The static variables of `uart_tx`. */
  datatype Tx = Tx(phase: TxPhase, data: byte, bit: BitIndex, clk: uint32)

  /** What one call of `uart_tx` leaves behind: its state, the line it drove,
      the busy flag, the frame counter and the transmit stream. */
  datatype TxResult = TxResult(tx: Tx, txd: bool, busy: bool, count: uint32, queue: seq<byte>)

  /** One call of `uart_tx`. The comparison `clk >= baud_div - 1` is on
      integers: `ap_uint` arithmetic widens rather than wrapping. */
  function TxStep(tx: Tx, baudDiv: uint32, enable: bool, queue: seq<byte>, busy: bool, count: uint32): TxResult {
    match tx.phase
    case TxIdle =>
      if enable && |queue| > 0 then TxResult(Tx(TxStart, queue[0], tx.bit, 0), true, true, count, queue[1..])
      else TxResult(tx, true, false, count, queue)
    case TxStart =>
      if tx.clk >= baudDiv - 1 then TxResult(Tx(TxData, tx.data, 0, 0), false, busy, count, queue)
      else TxResult(tx.(clk := tx.clk + 1), false, busy, count, queue)
    case TxData =>
      var line := BitOf(tx.data, tx.bit);
      if tx.clk >= baudDiv - 1 then
        if tx.bit == 7 then TxResult(tx.(phase := TxStop, clk := 0), line, busy, count, queue)
        else TxResult(tx.(bit := tx.bit + 1, clk := 0), line, busy, count, queue)
      else TxResult(tx.(clk := tx.clk + 1), line, busy, count, queue)
    case TxStop =>
      if tx.clk >= baudDiv - 1 then TxResult(tx.(phase := TxIdle, clk := 0), true, busy, Inc32(count), queue)
      else TxResult(tx.(clk := tx.clk + 1), true, busy, count, queue)
  }

  /** The level the transmitter drives in a phase other than idle. */
  function TxLevel(tx: Tx): bool {
    match tx.phase
    case TxIdle => true
    case TxStart => false
    case TxData => BitOf(tx.data, tx.bit)
    case TxStop => true
  }

  /** The idle transmitter holds the line high; it leaves idle, taking exactly
      the head of the stream, only when enabled with a byte waiting, and its
      busy flag says whether it did. */
  lemma TxIdleStep(tx: Tx, baudDiv: uint32, enable: bool, queue: seq<byte>, busy: bool, count: uint32)
    requires tx.phase == TxIdle
    ensures var r := TxStep(tx, baudDiv, enable, queue, busy, count);
      && r.txd
      && r.count == count
      && r.busy == (enable && |queue| > 0)
      && (r.busy ==> r.tx.phase == TxStart && r.tx.data == queue[0] && r.tx.clk == 0 && [queue[0]] + r.queue == queue)
      && (!r.busy ==> r.tx == tx && r.queue == queue)
  {
  }

  /** Outside idle the transmitter drives its phase's level, leaves the stream
      and busy flag alone, and moves START -> DATA -> STOP -> IDLE, sending
      the data bits in order; the frame counter advances only when STOP ends. */
  lemma TxBusyStep(tx: Tx, baudDiv: uint32, enable: bool, queue: seq<byte>, busy: bool, count: uint32)
    requires tx.phase != TxIdle
    ensures var r := TxStep(tx, baudDiv, enable, queue, busy, count);
      var slotEnds := tx.clk >= baudDiv - 1;
      && r.txd == TxLevel(tx)
      && r.queue == queue && r.busy == busy
      && r.tx.data == tx.data
      && r.count == (if tx.phase == TxStop && slotEnds then Inc32(count) else count)
      && (!slotEnds ==> r.tx == tx.(clk := tx.clk + 1))
      && (slotEnds ==> r.tx.clk == 0)
      && (slotEnds && tx.phase == TxStart ==> r.tx.phase == TxData && r.tx.bit == 0)
      && (slotEnds && tx.phase == TxData && tx.bit < 7 ==> r.tx.phase == TxData && r.tx.bit == tx.bit + 1)
      && (slotEnds && tx.phase == TxData && tx.bit == 7 ==> r.tx.phase == TxStop)
      && (slotEnds && tx.phase == TxStop ==> r.tx.phase == TxIdle)
  {
  }

  // ---- uart_rx ----

  datatype RxPhase = RxIdle | RxStart | RxData | RxStop

  /** Three input flip-flops, `rxd_sync[0..2]`. */
  type Sync = s: seq<bool> | |s| == 3 witness [true, true, true]

  /** The static variables of `uart_rx`. */
  datatype Rx = Rx(phase: RxPhase, data: Octet, bit: BitIndex, clk: uint32, sync: Sync)

  /** What one call of `uart_rx` leaves behind: its state, the `rx_valid` flag,
      the byte counter and the byte written to the receive stream, if any. */
  datatype RxResult = RxResult(rx: Rx, valid: bool, count: uint32, written: Option<byte>)

  /** The three assignments of the synchroniser, in program order. */
  function Synchronise(sync: Sync, pin: bool): (r: (Sync, bool)) {
    var s0 := sync[0 := pin];
    var s1 := s0[1 := s0[0]];
    var s2 := s1[2 := s1[1]];
    (s2, s2[2])
  }

  /** Because the stages are assigned in order within one call, the sampled
      level is the pin's current level and every stage holds it. */
  lemma SynchroniseIsTransparent(sync: Sync, pin: bool)
    ensures Synchronise(sync, pin).1 == pin
    ensures Synchronise(sync, pin).0 == [pin, pin, pin]
  {
  }

  /** One call of `uart_rx`. */
  function RxStep(rx: Rx, pin: bool, baudDiv: uint32, enable: bool, full: bool, count: uint32): RxResult {
    var (sync, rxd) := Synchronise(rx.sync, pin);
    var rx := rx.(sync := sync);
    match rx.phase
    case RxIdle =>
      if enable && !rxd then RxResult(rx.(phase := RxStart, clk := 0), false, count, None)
      else RxResult(rx, false, count, None)
    case RxStart =>
      if rx.clk >= baudDiv / 2 then
        if !rxd then RxResult(rx.(phase := RxData, clk := 0, bit := 0), false, count, None)
        else RxResult(rx.(phase := RxIdle), false, count, None)
      else RxResult(rx.(clk := rx.clk + 1), false, count, None)
    case RxData =>
      if rx.clk >= baudDiv - 1 then
        var data := rx.data[rx.bit := rxd];
        if rx.bit == 7 then RxResult(rx.(data := data, clk := 0, phase := RxStop), false, count, None)
        else RxResult(rx.(data := data, clk := 0, bit := rx.bit + 1), false, count, None)
      else RxResult(rx.(clk := rx.clk + 1), false, count, None)
    case RxStop =>
      if rx.clk >= baudDiv - 1 then
        var idle := rx.(phase := RxIdle, clk := 0);
        if rxd && !full then RxResult(idle, true, Inc32(count), Some(Value(rx.data)))
        else RxResult(idle, false, count, None)
      else RxResult(rx.(clk := rx.clk + 1), false, count, None)
  }

  /** In START, a line found high at the half-divisor sample point is a false
      start: the receiver goes back to idle having received nothing. */
  lemma RxFalseStart(rx: Rx, pin: bool, baudDiv: uint32, enable: bool, full: bool, count: uint32)
    requires rx.phase == RxStart && rx.clk >= baudDiv / 2 && pin
    ensures var r := RxStep(rx, pin, baudDiv, enable, full, count);
      r.rx.phase == RxIdle && r.written == None && !r.valid && r.count == count
  {
  }

  /** A byte reaches the stream, with `rx_valid` raised and the counter
      advanced, exactly when the stop bit is sampled high and the stream has
      room; the byte is the eight sampled bits. Sampling the stop bit returns
      the receiver to idle either way. */
  lemma RxStopStep(rx: Rx, pin: bool, baudDiv: uint32, enable: bool, full: bool, count: uint32)
    ensures var r := RxStep(rx, pin, baudDiv, enable, full, count);
      var stopSample := rx.phase == RxStop && rx.clk >= baudDiv - 1;
      && (r.written.Some? <==> stopSample && pin && !full)
      && r.valid == r.written.Some?
      && r.count == (if r.written.Some? then Inc32(count) else count)
      && (r.written.Some? ==> r.written.value == Value(rx.data))
      && (stopSample ==> r.rx.phase == RxIdle)
  {
  }

  /** A data slot ending stores the sampled level as bit `bit`. */
  lemma RxDataStep(rx: Rx, pin: bool, baudDiv: uint32, enable: bool, full: bool, count: uint32)
    requires rx.phase == RxData && rx.clk >= baudDiv - 1
    ensures var r := RxStep(rx, pin, baudDiv, enable, full, count);
      && r.rx.data == rx.data[rx.bit := pin]
      && r.rx.clk == 0
      && (rx.bit < 7 ==> r.rx.phase == RxData && r.rx.bit == rx.bit + 1)
      && (rx.bit == 7 ==> r.rx.phase == RxStop)
  {
  }

  // ---- uart_hls ----

  /** The static variables of `uart_hls`, with those of the two machines. */
  datatype Uart = Uart(
    baudDiv: uint32, txEnable: bool, rxEnable: bool, reset: bool,
    txBusy: bool, rxValid: bool, txCount: uint32, rxCount: uint32,
    tx: Tx, rx: Rx)

  /** The power-on state: 115200 baud at 100 MHz, everything else zero. */
  const Init: Uart := Uart(54, false, false, false, false, false, 0, 0,
                           Tx(TxIdle, 0, 0, 0), Rx(RxIdle, seq(8, _ => false), 0, 0, [true, true, true]))

  /** The inputs of one call: the two AXI-Lite registers, the bytes waiting in
      the transmit stream, the receive pin and whether the receive stream is
      full. */
  datatype Inputs = Inputs(control: uint32, baudDivReg: uint32, txQueue: seq<byte>, rxdPin: bool, rxFull: bool)

  /** The outputs of one call: the three read-only registers, the transmit
      pin, the byte written to the receive stream and the bytes left in the
      transmit stream. */
  datatype Outputs = Outputs(status: uint32, txCountReg: uint32, rxCountReg: uint32,
                             txdPin: bool, rxWrite: Option<byte>, txQueue: seq<byte>)

  /** Bit `k` of a register value. */
  function Bit(x: nat, k: nat): bool {
    (x / Pow2(k)) % 2 == 1
  }

  /** `status_reg`: bit 0 `tx_busy`, bit 1 `rx_valid`, the rest zero. */
  function Status(txBusy: bool, rxValid: bool): uint32 {
    (if txBusy then 1 else 0) + (if rxValid then 2 else 0)
  }

  /** Which state the reset bit returns to its initial value. */
  datatype ResetScope =
    | FlagsAndCounters   // the counters and flags only, as `uart_hls` does
    | WholeCore          // also both machines, back to idle

  /** One call of `uart_hls`, with the reset bit clearing the state `scope`
      names. */
  function StepWith(u: Uart, i: Inputs, scope: ResetScope): (Uart, Outputs) {
    var u := u.(txEnable := Bit(i.control, 0), rxEnable := Bit(i.control, 1), reset := Bit(i.control, 2),
                baudDiv := if i.baudDivReg > 0 then i.baudDivReg else u.baudDiv);
    if u.reset then
      var u := u.(txCount := 0, rxCount := 0, txBusy := false, rxValid := false);
      var u := if scope == WholeCore then u.(tx := u.tx.(phase := TxIdle), rx := u.rx.(phase := RxIdle)) else u;
      (u, Outputs(Status(u.txBusy, u.rxValid), u.txCount, u.rxCount, true, None, i.txQueue))
    else
      var t := TxStep(u.tx, u.baudDiv, u.txEnable, i.txQueue, u.txBusy, u.txCount);
      var r := RxStep(u.rx, i.rxdPin, u.baudDiv, u.rxEnable, i.rxFull, u.rxCount);
      var u := u.(tx := t.tx, txBusy := t.busy, txCount := t.count, rx := r.rx, rxValid := r.valid, rxCount := r.count);
      (u, Outputs(Status(u.txBusy, u.rxValid), u.txCount, u.rxCount, t.txd, r.written, t.queue))
  }

  /** `uart_hls` as written: the reset bit clears the counters and flags and
      leaves both machines where they are. */
  function Step(u: Uart, i: Inputs): (Uart, Outputs) {
    StepWith(u, i, FlagsAndCounters)
  }

  /** With the reset bit set neither machine runs: the counters and flags are
      zero, the transmit pin is high, nothing is taken from or written to a
      stream, and the status register reads zero. As written the machines
      keep their state; the whole-core reset returns both to idle. */
  lemma ResetStep(u: Uart, i: Inputs, scope: ResetScope)
    requires Bit(i.control, 2)
    ensures var (u', o) := StepWith(u, i, scope);
      && u'.txCount == 0 && u'.rxCount == 0 && !u'.txBusy && !u'.rxValid
      && o.txdPin && o.rxWrite == None && o.txQueue == i.txQueue
      && o.status == 0 && o.txCountReg == 0 && o.rxCountReg == 0
      && (scope == FlagsAndCounters ==> u'.tx == u.tx && u'.rx == u.rx)
      && (scope == WholeCore ==> u'.tx.phase == TxIdle && u'.rx.phase == RxIdle)
  {
  }

  /** The divisor register is latched only when non-zero, so the latched
      divisor is never zero: it starts at 54 and every step keeps it
      positive. */
  lemma BaudLatch(u: Uart, i: Inputs, scope: ResetScope)
    ensures StepWith(u, i, scope).0.baudDiv == if i.baudDivReg > 0 then i.baudDivReg else u.baudDiv
    ensures u.baudDiv > 0 ==> StepWith(u, i, scope).0.baudDiv > 0
    ensures Init.baudDiv == 54
  {
  }

  /** The control register's bits 0..2 become the enables and the reset flag. */
  lemma ControlBits(u: Uart, i: Inputs, scope: ResetScope)
    ensures var u' := StepWith(u, i, scope).0;
      u'.txEnable == Bit(i.control, 0) && u'.rxEnable == Bit(i.control, 1) && u'.reset == Bit(i.control, 2)
  {
  }

  /** The status register carries `tx_busy` in bit 0 and `rx_valid` in bit 1,
      every other bit zero, and the count registers mirror the counters. */
  lemma StatusPacking(u: Uart, i: Inputs, scope: ResetScope)
    ensures var (u', o) := StepWith(u, i, scope);
      && Bit(o.status, 0) == u'.txBusy
      && Bit(o.status, 1) == u'.rxValid
      && (forall k :: 2 <= k < 32 ==> !Bit(o.status, k))
      && o.txCountReg == u'.txCount && o.rxCountReg == u'.rxCount
  {
    var (u', o) := StepWith(u, i, scope);
    StatusBits(u'.txBusy, u'.rxValid);
  }

  /** The packed word holds the two flags in bits 0 and 1 and nothing above. */
  lemma StatusBits(txBusy: bool, rxValid: bool)
    ensures Bit(Status(txBusy, rxValid), 0) == txBusy
    ensures Bit(Status(txBusy, rxValid), 1) == rxValid
    ensures forall k :: 2 <= k < 32 ==> !Bit(Status(txBusy, rxValid), k)
  {
    var s := Status(txBusy, rxValid);
    assert s < 4;
    assert Pow2(0) == 1 && Pow2(1) == 2;
    assert s / 1 == s;
    assert s % 2 == 1 <==> txBusy;
    assert (s / 2) % 2 == 1 <==> rxValid;
    forall k | 2 <= k < 32 ensures !Bit(s, k) {
      Pow2AtLeast4(k);
      DivModUnique(s, Pow2(k), 0, s);
    }
  }

  lemma {:induction false} Pow2AtLeast4(k: nat)
    requires k >= 2
    ensures Pow2(k) >= 4
  {
    if k > 2 {
      Pow2AtLeast4(k - 1);
    }
  }

  /** Outside reset the transmit frame counter advances, by one, only on the
      step that ends a STOP slot. */
  lemma TxCountOnlyAtStop(u: Uart, i: Inputs, scope: ResetScope)
    requires !Bit(i.control, 2)
    ensures var u' := StepWith(u, i, scope).0;
      var baud := if i.baudDivReg > 0 then i.baudDivReg else u.baudDiv;
      u'.txCount == if u.tx.phase == TxStop && u.tx.clk >= baud - 1 then Inc32(u.txCount) else u.txCount
  {
  }

  /** Without reset, the step is exactly `uart_tx` followed by `uart_rx` on the
      freshly latched configuration, whatever the reset's scope. */
  lemma RunStep(u: Uart, i: Inputs, scope: ResetScope)
    requires !Bit(i.control, 2)
    ensures var (u', o) := StepWith(u, i, scope);
      var baud := if i.baudDivReg > 0 then i.baudDivReg else u.baudDiv;
      var t := TxStep(u.tx, baud, Bit(i.control, 0), i.txQueue, u.txBusy, u.txCount);
      var r := RxStep(u.rx, i.rxdPin, baud, Bit(i.control, 1), i.rxFull, u.rxCount);
      && u'.tx == t.tx && u'.txBusy == t.busy && u'.txCount == t.count
      && u'.rx == r.rx && u'.rxValid == r.valid && u'.rxCount == r.count
      && o.txdPin == t.txd && o.rxWrite == r.written && o.txQueue == t.queue
      && StepWith(u, i, scope) == Step(u, i)
  {
  }

  // ---- the busy flag ----

  /** A frame in progress shows as busy: the transmitter is idle unless
      `tx_busy` is set. */
  predicate BusyCovers(u: Uart) {
    u.tx.phase != TxIdle ==> u.txBusy
  }

  /** The transmitter keeps `tx_busy` honest on its own: it raises the flag
      when it takes a byte and leaves it alone until it is idle again. */
  lemma TxKeepsBusy(tx: Tx, baudDiv: uint32, enable: bool, queue: seq<byte>, busy: bool, count: uint32)
    requires tx.phase != TxIdle ==> busy
    ensures var r := TxStep(tx, baudDiv, enable, queue, busy, count);
      r.tx.phase != TxIdle ==> r.busy
  {
  }

  /** Reset as written clears `tx_busy` but leaves the transmitter mid-frame:
      with the transmitter sending data bits, a step with only the reset bit
      set reports a status of zero, and the next step without reset carries
      on with the frame while the status still says idle. */
  lemma ResetHidesFrame()
    ensures var u := Init.(tx := Tx(TxData, 0x55, 3, 0), txBusy := true);
      var (u1, o1) := Step(u, Inputs(4, 0, [], true, false));
      var (u2, o2) := Step(u1, Inputs(0, 0, [], true, false));
      && BusyCovers(u)
      && u1.tx.phase == TxData && o1.status == 0 && !BusyCovers(u1)
      && u2.tx.phase == TxData && o2.status == 0 && o2.txdPin == BitOf(0x55, 3)
  {
    var u := Init.(tx := Tx(TxData, 0x55, 3, 0), txBusy := true);
    assert Pow2(2) == 4 && Bit(4, 2) && !Bit(4, 0) && !Bit(4, 1);
    assert Pow2(0) == 1 && Pow2(1) == 2 && !Bit(0, 2) && !Bit(0, 0) && !Bit(0, 1);
  }

  /** With the whole core reset, a frame in progress always shows as busy:
      the power-on state has it, and every step keeps it. */
  lemma WholeResetKeepsBusy(u: Uart, i: Inputs)
    requires BusyCovers(u)
    ensures BusyCovers(StepWith(u, i, WholeCore).0)
    ensures BusyCovers(Init)
    ensures var (u', o) := StepWith(u, i, WholeCore);
      u'.tx.phase != TxIdle ==> Bit(o.status, 0)
  {
    var (u', o) := StepWith(u, i, WholeCore);
    StatusPacking(u, i, WholeCore);
    if !Bit(i.control, 2) {
      var baud := if i.baudDivReg > 0 then i.baudDivReg else u.baudDiv;
      TxKeepsBusy(u.tx, baud, Bit(i.control, 0), i.txQueue, u.txBusy, u.txCount);
    }
  }
}

=== FILE: uartdriver.dfy ===
/** The register-level half of the PYNQ driver for the HLS UART
    (hls-uart/src/uart_hls_driver.py, class `UartHLS`): baud divisor, control
    bits, status decoding and reset. Each call reads the register block as it
    is and returns the writes it performs, in order, with its return value.
    The sleep between the two writes of `reset` and the console output of
    `set_baud_rate` are not modelled. */
module UartDriver {
  import opened Results
  import opened Bytes
  import opened RegisterMap
  import UartCore

  const RegControl: nat := 0x00
  const RegStatus: nat := 0x04
  const RegBaudDiv: nat := 0x08
  const RegTxCount: nat := 0x0C
  const RegRxCount: nat := 0x10

  const CtrlTxEnable: uint32 := 0x01
  const CtrlRxEnable: uint32 := 0x02
  const CtrlReset: uint32 := 0x04

  const ClkFreq: nat := 100_000_000
  const Oversample: nat := 16
  const ValidRates: seq<int> := [115200, 230400, 460800, 921600]

  datatype DriverError = ValueError   // "Baud rate must be one of ..."

  /** What one driver call does: its register writes and what it returns or
      raises. */
  datatype Call<T> = Call(writes: Writes, ret: Result<T, DriverError>)

  /** `set_baud_rate`: a supported rate gives the divisor
      `CLK_FREQ // (baud_rate * OVERSAMPLE)`, written to the divisor register
      and returned. */
  function SetBaudRate(rate: int): Call<uint32> {
    if rate !in ValidRates then Call([], Err(ValueError))
    else
      var divisor := ClkFreq / (rate * Oversample);
      Call([(RegBaudDiv, divisor)], Ok(divisor))
  }

  /** Only the four supported rates are accepted; anything else raises before
      any write. An accepted rate writes its divisor, the largest whose
      oversampled bit time fits in the clock, to the divisor register alone
      and returns it; the divisor is positive, so the core latches it. */
  lemma SetBaudRateSpec(rate: int)
    ensures SetBaudRate(rate).ret.Err? <==> rate !in ValidRates
    ensures SetBaudRate(rate).ret.Err? ==> SetBaudRate(rate).writes == []
    ensures var c := SetBaudRate(rate);
      c.ret.Ok? ==>
        && c.writes == [(RegBaudDiv, c.ret.value)]
        && c.ret.value * (rate * Oversample) <= ClkFreq < (c.ret.value + 1) * (rate * Oversample)
        && c.ret.value > 0
  {
    if rate in ValidRates {
      var n := rate * Oversample;
      var d := ClkFreq / n;
      assert ClkFreq == d * n + ClkFreq % n;
    }
  }

  /** The divisors of the four rates. */
  lemma BaudDivisors()
    ensures SetBaudRate(115200).ret == Ok(54)
    ensures SetBaudRate(230400).ret == Ok(27)
    ensures SetBaudRate(460800).ret == Ok(13)
    ensures SetBaudRate(921600).ret == Ok(6)
  {
  }

  /** The driver's 115200 baud agrees with the core's power-on divisor. */
  lemma DefaultRateIsPowerOn()
    ensures SetBaudRate(115200).ret == Ok(UartCore.Init.baudDiv)
  {
  }

  /** Set bit `mask` of the control word when `on`, clear it otherwise. */
  function Toggle(control: uint32, mask: uint32, on: bool): uint32 {
    if on then Or(control, mask) else AndNot(control, mask)
  }

  /** `enable_tx`: read the control word, set or clear bit 0, write it back. */
  function EnableTx(m: RegFile, enable: bool): (c: Call<()>) {
    Call([(RegControl, Toggle(Read(m, RegControl), CtrlTxEnable, enable))], Ok(()))
  }

  /** `enable_rx`: the same with bit 1. */
  function EnableRx(m: RegFile, enable: bool): (c: Call<()>) {
    Call([(RegControl, Toggle(Read(m, RegControl), CtrlRxEnable, enable))], Ok(()))
  }

  /** Setting or clearing bit `j` leaves every other bit of the word as it
      was. */
  lemma ToggleBits(control: uint32, j: nat, on: bool)
    requires j < 32
    ensures Pow2(j) < Two32
    ensures var r := Toggle(control, Pow2(j), on);
      forall k :: 0 <= k < 32 ==> TestBit(r, k) == (if k == j then on else TestBit(control, k))
  {
    MaskBit(j, 0);
    var r := Toggle(control, Pow2(j), on);
    forall k | 0 <= k < 32 ensures TestBit(r, k) == (if k == j then on else TestBit(control, k)) {
      MaskBit(j, k);
    }
  }

  /** `enable_tx(enable)` writes the control register once, with bit 0 equal
      to `enable` and every other bit as it was read. */
  lemma EnableTxSpec(m: RegFile, enable: bool)
    ensures var c := EnableTx(m, enable);
      && c.ret.Ok? && |c.writes| == 1 && c.writes[0].0 == RegControl
      && TestBit(c.writes[0].1, 0) == enable
      && forall k :: 1 <= k < 32 ==> TestBit(c.writes[0].1, k) == TestBit(Read(m, RegControl), k)
  {
    assert Pow2(0) == CtrlTxEnable;
    ToggleBits(Read(m, RegControl), 0, enable);
  }

  /** `enable_rx(enable)` writes the control register once, with bit 1 equal
      to `enable` and every other bit as it was read. */
  lemma EnableRxSpec(m: RegFile, enable: bool)
    ensures var c := EnableRx(m, enable);
      && c.ret.Ok? && |c.writes| == 1 && c.writes[0].0 == RegControl
      && TestBit(c.writes[0].1, 1) == enable
      && forall k :: 0 <= k < 32 && k != 1 ==> TestBit(c.writes[0].1, k) == TestBit(Read(m, RegControl), k)
  {
    assert Pow2(1) == CtrlRxEnable;
    ToggleBits(Read(m, RegControl), 1, enable);
  }

  /** `enable(tx, rx)`: a fresh control word with the requested enables. */
  function Enable(tx: bool, rx: bool): (c: Call<()>) {
    var control := 0;
    var control := if tx then Or(control, CtrlTxEnable) else control;
    var control := if rx then Or(control, CtrlRxEnable) else control;
    Call([(RegControl, control)], Ok(()))
  }

  /** `enable(tx, rx)` writes the control register once: bit 0 is `tx`, bit 1
      is `rx`, and every other bit, the reset bit included, is zero. */
  lemma EnableSpec(tx: bool, rx: bool)
    ensures var c := Enable(tx, rx);
      && c.ret.Ok? && |c.writes| == 1 && c.writes[0].0 == RegControl
      && TestBit(c.writes[0].1, 0) == tx && TestBit(c.writes[0].1, 1) == rx
      && forall k :: 2 <= k < 32 ==> !TestBit(c.writes[0].1, k)
  {
    assert Pow2(0) == CtrlTxEnable && Pow2(1) == CtrlRxEnable;
    var c0: uint32 := 0;
    var c1: uint32 := if tx then Or(c0, CtrlTxEnable) else c0;
    var c2: uint32 := if rx then Or(c1, CtrlRxEnable) else c1;
    assert Enable(tx, rx).writes[0].1 == c2;
    forall k | 0 <= k < 32
      ensures TestBit(c2, k) == ((k == 0 && tx) || (k == 1 && rx))
    {
      ZeroBits(k);
      MaskBit(0, k);
      MaskBit(1, k);
    }
  }

  /** The core, handed the word `enable(tx, rx)` writes, enables exactly the
      requested machines and is not held in reset. */
  lemma EnableReachesCore(tx: bool, rx: bool)
    ensures var w := Enable(tx, rx).writes[0].1;
      UartCore.Bit(w, 0) == tx && UartCore.Bit(w, 1) == rx && !UartCore.Bit(w, 2)
  {
    EnableSpec(tx, rx);
    var w := Enable(tx, rx).writes[0].1;
    TestBitArith(w, 0);
    TestBitArith(w, 1);
    TestBitArith(w, 2);
  }

  /** The dictionary `get_status` returns. */
  datatype Status = Status(txBusy: bool, rxValid: bool, txFifoFull: bool, rxFifoEmpty: bool,
                           txCount: uint32, rxCount: uint32)

  /** `get_status`: status bits 0 to 3 and the two counters. */
  function GetStatus(m: RegFile): Status {
    var s := Read(m, RegStatus);
    Status(TestBit(s, 0), TestBit(s, 1), TestBit(s, 2), TestBit(s, 3),
           Read(m, RegTxCount), Read(m, RegRxCount))
  }

  /** Reading the registers one call of the core produced, `get_status`
      reports the core's busy and valid flags and counters, and the two FIFO
      flags, which the core never sets, as false. */
  lemma GetStatusOfCore(m: RegFile, u: UartCore.Uart, i: UartCore.Inputs, scope: UartCore.ResetScope)
    requires var (u', o) := UartCore.StepWith(u, i, scope);
      Read(m, RegStatus) == o.status && Read(m, RegTxCount) == o.txCountReg && Read(m, RegRxCount) == o.rxCountReg
    ensures var (u', o) := UartCore.StepWith(u, i, scope);
      GetStatus(m) == Status(u'.txBusy, u'.rxValid, false, false, u'.txCount, u'.rxCount)
  {
    UartCore.StatusPacking(u, i, scope);
    var step := UartCore.StepWith(u, i, scope);
    ReadStatus(m);
  }

  /** `get_status` reports bits 0 to 3 of the status word, read as the core
      writes them, and the two count registers. */
  lemma ReadStatus(m: RegFile)
    ensures var s := Read(m, RegStatus);
      GetStatus(m) == Status(UartCore.Bit(s, 0), UartCore.Bit(s, 1), UartCore.Bit(s, 2), UartCore.Bit(s, 3),
                             Read(m, RegTxCount), Read(m, RegRxCount))
  {
    var s := Read(m, RegStatus);
    TestBitArith(s, 0);
    TestBitArith(s, 1);
    TestBitArith(s, 2);
    TestBitArith(s, 3);
  }

  /** `reset`: the reset bit alone, then zero. */
  function Reset(): (c: Call<()>) {
    Call([(RegControl, CtrlReset), (RegControl, 0)], Ok(()))
  }

  /** `reset` first hands the core a control word that resets it with both
      machines disabled, then leaves the control register at zero: both
      machines disabled and reset released. */
  lemma ResetSpec(m: RegFile)
    ensures var c := Reset();
      && |c.writes| == 2 && c.writes[0].0 == RegControl && c.writes[1].0 == RegControl
      && UartCore.Bit(c.writes[0].1, 2) && !UartCore.Bit(c.writes[0].1, 0) && !UartCore.Bit(c.writes[0].1, 1)
      && Read(Perform(m, c.writes), RegControl) == 0
      && forall o :: o != RegControl ==> Read(Perform(m, c.writes), o) == Read(m, o)
  {
    assert Pow2(0) == 1 && Pow2(1) == 2 && Pow2(2) == 4;
    var c := Reset();
    var m1 := Write(m, RegControl, CtrlReset);
    assert c.writes[1..] == [(RegControl, 0)] && c.writes[1..][1..] == [];
    assert Perform(m, c.writes) == Perform(m1, [(RegControl, 0)]);
    assert Perform(m1, [(RegControl, 0)]) == Write(m1, RegControl, 0);
  }
}

=== FILE: uartframes.dfy ===
/** Whole 8N1 frames through the HLS UART (hls-uart/src/uart_hls.cpp): what
    `uart_tx` drives on the line for one byte, what `uart_rx` makes of such a
    line, and the loopback the testbench relies on. Every slot of a frame
    lasts `d` calls, `d` being the latched baud divisor. */
module UartFrames {
  import opened Results
  import opened Bytes
  import opened Bitfield
  import opened UartCore

  function Repeat(level: bool, n: nat): (r: seq<bool>)
    ensures |r| == n
    ensures forall i :: 0 <= i < n ==> r[i] == level
  {
    seq(n, _ => level)
  }

  /** The level of slot `s` of a frame carrying `b`: the start bit, the eight
      data bits least significant first, the stop bit. */
  function SlotLevel(b: byte, s: nat): bool
    requires s < 10
  {
    if s == 0 then false else if s == 9 then true else BitOf(b, s - 1)
  }

  /** The number of calls slots `s` to 9 take, each held for `d` calls. */
  function Span(s: nat, d: nat): nat
    requires s <= 10
    decreases 10 - s
  {
    if s == 10 then 0 else d + Span(s + 1, d)
  }

  lemma MulSucc(a: nat, d: nat)
    ensures a * d + d == (a + 1) * d
  {
  }

  /** Slots `s` to `t - 1` take `(t - s) * d` calls. */
  lemma {:induction false} SpanBetween(s: nat, t: nat, d: nat)
    requires s <= t <= 10
    ensures Span(s, d) == (t - s) * d + Span(t, d)
    decreases t - s
  {
    if s < t {
      SpanBetween(s + 1, t, d);
      SpanStep(s, t, d, t - (s + 1), Span(s + 1, d), Span(t, d));
    } else {
      assert t - s == 0;
    }
  }

  lemma SpanStep(s: nat, t: nat, d: nat, a: nat, rest: nat, last: nat)
    requires s < t <= 10 && a == t - (s + 1)
    requires rest == Span(s + 1, d) && last == Span(t, d) && rest == a * d + last
    ensures Span(s, d) == (t - s) * d + last
  {
    MulSucc(a, d);
    assert a + 1 == t - s;
  }

  /** Slots `s` to 9 of the frame, each held for `d` calls. */
  function FrameFrom(b: byte, d: nat, s: nat): (r: seq<bool>)
    requires s <= 10
    ensures |r| == Span(s, d)
    decreases 10 - s
  {
    if s == 10 then [] else Repeat(SlotLevel(b, s), d) + FrameFrom(b, d, s + 1)
  }

  function Frame(b: byte, d: nat): (r: seq<bool>)
    ensures |r| == 10 * d
  {
    SpanBetween(0, 10, d);
    FrameFrom(b, d, 0)
  }

  /** Offset `o` of slot `t` carries that slot's level; slot `t` starts where
      the slots before it end. */
  predicate SlotAt(b: byte, d: nat, s: nat, t: nat, o: nat)
    requires s <= t < 10
  {
    && Span(t, d) <= Span(s, d)
    && Span(s, d) - Span(t, d) + o < |FrameFrom(b, d, s)|
    && FrameFrom(b, d, s)[Span(s, d) - Span(t, d) + o] == SlotLevel(b, t)
  }

  lemma {:induction false} FrameFromSpan(b: byte, d: nat, s: nat, t: nat, o: nat)
    requires s <= t < 10 && o < d
    ensures SlotAt(b, d, s, t, o)
    decreases t - s
  {
    if t == s {
      SlotHere(b, d, s, o);
    } else {
      FrameFromSpan(b, d, s + 1, t, o);
      SlotShift(b, d, s, t, o);
    }
  }

  lemma SlotHere(b: byte, d: nat, s: nat, o: nat)
    requires s < 10 && o < d
    ensures SlotAt(b, d, s, s, o)
  {
    var head := Repeat(SlotLevel(b, s), d);
    var r := FrameFrom(b, d, s);
    assert r == head + FrameFrom(b, d, s + 1);
    ConcatLeft(head, FrameFrom(b, d, s + 1), o);
    assert Span(s, d) - Span(s, d) + o == o;
  }

  lemma SlotShift(b: byte, d: nat, s: nat, t: nat, o: nat)
    requires s < t < 10 && o < d
    requires SlotAt(b, d, s + 1, t, o)
    ensures SlotAt(b, d, s, t, o)
  {
    var head := Repeat(SlotLevel(b, s), d);
    var tail := FrameFrom(b, d, s + 1);
    var r := FrameFrom(b, d, s);
    assert r == head + tail;
    assert Span(s, d) == d + Span(s + 1, d);
    var k := Span(s + 1, d) - Span(t, d) + o;
    assert tail[k] == SlotLevel(b, t);
    ConcatRight(head, tail, k);
    assert Span(s, d) - Span(t, d) + o == |head| + k;
  }

  lemma ConcatLeft<T>(x: seq<T>, y: seq<T>, k: nat)
    requires k < |x|
    ensures (x + y)[k] == x[k]
  {
  }

  lemma ConcatRight<T>(x: seq<T>, y: seq<T>, k: nat)
    requires k < |y|
    ensures |x| + k < |x + y| && (x + y)[|x| + k] == y[k]
  {
  }

  /** Offset `o` of slot `t` is level `t * d + o` of the frame and carries
      that slot's level. */
  lemma FrameAt(b: byte, d: nat, t: nat, o: nat, n: nat)
    requires t < 10 && o < d && n == t * d + o
    ensures n < |Frame(b, d)| && Frame(b, d)[n] == SlotLevel(b, t)
  {
    FrameFromSpan(b, d, 0, t, o);
    SpanOffset(t, d, o, n);
    SlotInFrame(b, d, t, o, n);
  }

  lemma SpanOffset(t: nat, d: nat, o: nat, n: nat)
    requires t < 10 && n == t * d + o
    ensures Span(t, d) <= Span(0, d) && Span(0, d) - Span(t, d) + o == n
  {
    SpanBetween(0, t, d);
    assert (t - 0) * d == t * d by { assert t - 0 == t; }
  }

  lemma SlotInFrame(b: byte, d: nat, t: nat, o: nat, n: nat)
    requires t < 10 && SlotAt(b, d, 0, t, o) && Span(t, d) <= Span(0, d) && Span(0, d) - Span(t, d) + o == n
    ensures n < |Frame(b, d)| && Frame(b, d)[n] == SlotLevel(b, t)
  {
    var f := FrameFrom(b, d, 0);
    assert Frame(b, d) == f;
    LevelMoves(f, Span(0, d) - Span(t, d) + o, n, SlotLevel(b, t));
  }

  lemma LevelMoves(f: seq<bool>, i: int, n: int, v: bool)
    requires 0 <= i < |f| && f[i] == v && n == i
    ensures 0 <= n < |f| && f[n] == v
  {
  }


  // ---- transmitting ----

  datatype TxRun = TxRun(tx: Tx, lines: seq<bool>, count: uint32)

  /** `n` calls of `uart_tx` with divisor `d`, the line levels they drive and
      the frame counter after them. The enable flag and the stream are only
      read in idle (`UartCore.TxBusyStep`); here the transmitter is disabled
      and its stream empty. */
  function RunTx(tx: Tx, d: uint32, n: nat, count: uint32): (r: TxRun)
    ensures |r.lines| == n
    decreases n
  {
    if n == 0 then TxRun(tx, [], count)
    else
      var r := TxStep(tx, d, false, [], true, count);
      var rest := RunTx(r.tx, d, n - 1, r.count);
      TxRun(rest.tx, [r.txd] + rest.lines, rest.count)
  }

  /** Running `a` calls and then `b` more is running `a + b`. */
  lemma {:induction false} RunTxAppend(tx: Tx, d: uint32, a: nat, b: nat, n: nat, count: uint32)
    requires n == a + b
    ensures var x := RunTx(tx, d, a, count);
      var y := RunTx(x.tx, d, b, x.count);
      RunTx(tx, d, n, count) == TxRun(y.tx, x.lines + y.lines, y.count)
    decreases a
  {
    if a > 0 {
      var r := TxStep(tx, d, false, [], true, count);
      RunTxAppend(r.tx, d, a - 1, b, n - 1, r.count);
      var x := RunTx(r.tx, d, a - 1, r.count);
      var y := RunTx(x.tx, d, b, x.count);
      assert [r.txd] + (x.lines + y.lines) == ([r.txd] + x.lines) + y.lines;
    }
  }

  /** Before its slot ends the transmitter only counts, driving its level. */
  lemma {:induction false} TxHold(tx: Tx, d: uint32, k: nat, count: uint32)
    requires tx.phase != TxIdle && tx.clk + k <= d - 1
    ensures RunTx(tx, d, k, count) == TxRun(tx.(clk := tx.clk + k), Repeat(TxLevel(tx), k), count)
    decreases k
  {
    if k > 0 {
      var r := TxStep(tx, d, false, [], true, count);
      assert r.tx == tx.(clk := tx.clk + 1) && r.count == count && r.txd == TxLevel(tx);
      TxHold(r.tx, d, k - 1, count);
      assert [TxLevel(tx)] + Repeat(TxLevel(tx), k - 1) == Repeat(TxLevel(tx), k);
    }
  }

  /** The transmitter at the start of slot `s` of a frame carrying `b`. */
  predicate AtSlot(tx: Tx, b: byte, s: nat) {
    && tx.data == b && tx.clk == 0
    && (s == 0 ==> tx.phase == TxStart)
    && (1 <= s <= 8 ==> tx.phase == TxData && tx.bit == s - 1)
    && (s == 9 ==> tx.phase == TxStop)
    && s < 10
  }

  /** The last call of a slot drives the slot's level and moves to the next
      slot, or to idle with the frame counted after the stop bit. */
  lemma TxSlotEnd(tx: Tx, b: byte, d: uint32, s: nat, count: uint32)
    requires d >= 1 && AtSlot(tx.(clk := 0), b, s) && tx.clk == d - 1
    ensures var r := TxStep(tx, d, false, [], true, count);
      && r.txd == SlotLevel(b, s)
      && (s < 9 ==> AtSlot(r.tx, b, s + 1) && r.count == count)
      && (s == 9 ==> r.tx.phase == TxIdle && r.count == Inc32(count))
  {
  }

  /** One slot: `d` calls driving the slot's level, ending at the start of the
      next slot, or in idle with the frame counted after the stop bit. */
  lemma TxSlot(tx: Tx, b: byte, d: uint32, s: nat, count: uint32)
    requires d >= 1 && AtSlot(tx, b, s)
    ensures var r := RunTx(tx, d, d, count);
      && r.lines == Repeat(SlotLevel(b, s), d)
      && (s < 9 ==> AtSlot(r.tx, b, s + 1) && r.count == count)
      && (s == 9 ==> r.tx.phase == TxIdle && r.count == Inc32(count))
  {
    assert TxLevel(tx) == SlotLevel(b, s);
    TxHold(tx, d, d - 1, count);
    RunTxAppend(tx, d, d - 1, 1, d, count);
    var x := RunTx(tx, d, d - 1, count);
    assert x.tx == tx.(clk := d - 1) && x.count == count;
    TxSlotEnd(x.tx, b, d, s, count);
    var last := TxStep(x.tx, d, false, [], true, count);
    assert RunTx(x.tx, d, 1, count) == TxRun(last.tx, [last.txd], last.count);
    assert Repeat(SlotLevel(b, s), d - 1) + [last.txd] == Repeat(SlotLevel(b, s), d);
  }

  /** The stop slot is the last of the frame. */
  lemma TxStopSlot(tx: Tx, b: byte, d: uint32, count: uint32)
    requires d >= 1 && AtSlot(tx, b, 9)
    ensures var r := RunTx(tx, d, d, count);
      r.lines == FrameFrom(b, d, 9) && r.tx.phase == TxIdle && r.count == Inc32(count)
  {
    TxSlot(tx, b, d, 9, count);
    assert FrameFrom(b, d, 9) == Repeat(SlotLevel(b, 9), d) + [];
  }

  /** From the start of slot `s`, the rest of the frame. */
  lemma {:induction false} TxFrameFrom(tx: Tx, b: byte, d: uint32, s: nat, count: uint32)
    requires d >= 1 && AtSlot(tx, b, s)
    ensures var r := RunTx(tx, d, Span(s, d), count);
      r.lines == FrameFrom(b, d, s) && r.tx.phase == TxIdle && r.count == Inc32(count)
    decreases 10 - s
  {
    if s < 9 {
      TxSlot(tx, b, d, s, count);
      var x := RunTx(tx, d, d, count);
      TxFrameFrom(x.tx, b, d, s + 1, x.count);
      TxSlotThenRest(tx, b, d, s, count);
    } else {
      assert Span(s, d) == d + Span(10, d) == d;
      TxStopSlot(tx, b, d, count);
    }
  }

  /** Slot `s` followed by the rest of the frame from slot `s + 1` on. */
  lemma TxSlotThenRest(tx: Tx, b: byte, d: uint32, s: nat, count: uint32)
    requires d >= 1 && AtSlot(tx, b, s) && s < 9
    requires var x := RunTx(tx, d, d, count);
      var y := RunTx(x.tx, d, Span(s + 1, d), x.count);
      y.lines == FrameFrom(b, d, s + 1) && y.tx.phase == TxIdle && y.count == Inc32(x.count)
    ensures var r := RunTx(tx, d, Span(s, d), count);
      r.lines == FrameFrom(b, d, s) && r.tx.phase == TxIdle && r.count == Inc32(count)
  {
    TxSlot(tx, b, d, s, count);
    assert Span(s, d) == d + Span(s + 1, d);
    RunTxAppend(tx, d, d, Span(s + 1, d), Span(s, d), count);
    var x := RunTx(tx, d, d, count);
    var y := RunTx(x.tx, d, Span(s + 1, d), x.count);
    assert FrameFrom(b, d, s) == x.lines + y.lines;
  }

  /** Once a byte has been taken from the stream (`UartCore.TxIdleStep`), the
      next `10 * d` calls drive exactly its frame: start bit low, data bits
      least significant first, stop bit high; the transmitter is then idle
      and the frame counter has advanced by one. */
  lemma TxFrame(b: byte, bit: BitIndex, d: uint32, count: uint32)
    requires d >= 1
    ensures var r := RunTx(Tx(TxStart, b, bit, 0), d, 10 * d, count);
      r.lines == Frame(b, d) && r.tx.phase == TxIdle && r.count == Inc32(count)
  {
    SpanBetween(0, 10, d);
    TxFrameFrom(Tx(TxStart, b, bit, 0), b, d, 0, count);
  }

  // ---- receiving ----

  datatype RxRun = RxRun(rx: Rx, written: seq<byte>, count: uint32)

  /** One call of `uart_rx` per level of `lines`, with divisor `d`, the
      receiver enabled and room in its stream: its state, the bytes it wrote
      and its counter. */
  function RunRx(rx: Rx, d: uint32, lines: seq<bool>, count: uint32): RxRun
    decreases |lines|
  {
    if |lines| == 0 then RxRun(rx, [], count)
    else
      var r := RxStep(rx, lines[0], d, true, false, count);
      var rest := RunRx(r.rx, d, lines[1..], r.count);
      RxRun(rest.rx, (if r.written.Some? then [r.written.value] else []) + rest.written, rest.count)
  }

  /** Feeding two stretches of line one after the other. */
  lemma {:induction false} RunRxAppend(rx: Rx, d: uint32, a: seq<bool>, b: seq<bool>, count: uint32)
    ensures var x := RunRx(rx, d, a, count);
      var y := RunRx(x.rx, d, b, x.count);
      RunRx(rx, d, a + b, count) == RxRun(y.rx, x.written + y.written, y.count)
    decreases |a|
  {
    if |a| > 0 {
      var r := RxStep(rx, a[0], d, true, false, count);
      assert (a + b)[0] == a[0] && (a + b)[1..] == a[1..] + b;
      RunRxAppend(r.rx, d, a[1..], b, r.count);
      var w := if r.written.Some? then [r.written.value] else [];
      var x := RunRx(r.rx, d, a[1..], r.count);
      var y := RunRx(x.rx, d, b, x.count);
      assert w + (x.written + y.written) == (w + x.written) + y.written;
    } else {
      assert a + b == b;
    }
  }

  /** The count at which a phase takes its sample. */
  function SampleAt(phase: RxPhase, d: uint32): int {
    if phase == RxStart then d / 2 else d - 1
  }

  /** Before its sample point the receiver only counts, whatever the line. */
  lemma {:induction false} RxHold(rx: Rx, d: uint32, lines: seq<bool>, count: uint32)
    requires rx.phase != RxIdle && rx.clk + |lines| <= SampleAt(rx.phase, d)
    ensures var r := RunRx(rx, d, lines, count);
      && r.rx.phase == rx.phase && r.rx.data == rx.data && r.rx.bit == rx.bit
      && r.rx.clk == rx.clk + |lines| && r.written == [] && r.count == count
    decreases |lines|
  {
    if |lines| > 0 {
      var r := RxStep(rx, lines[0], d, true, false, count);
      assert r.rx.clk == rx.clk + 1 && r.written == None && r.count == count;
      RxHold(r.rx, d, lines[1..], count);
    }
  }

  /** Sampling after a wait: `|lines| - 1` calls of counting, then the sample
      of the last level. */
  lemma RxWindow(rx: Rx, d: uint32, lines: seq<bool>, count: uint32)
    requires d >= 1 && rx.phase != RxIdle && rx.clk == 0 && |lines| == SampleAt(rx.phase, d) + 1
    ensures var x := RunRx(rx, d, lines[..|lines| - 1], count);
      && RunRx(rx, d, lines, count) == RunRx(x.rx, d, [lines[|lines| - 1]], count)
      && x.rx.phase == rx.phase && x.rx.data == rx.data && x.rx.bit == rx.bit
      && x.rx.clk == SampleAt(rx.phase, d) && x.count == count && x.written == []
  {
    var n := |lines| - 1;
    RxHold(rx, d, lines[..n], count);
    RunRxAppend(rx, d, lines[..n], [lines[n]], count);
    assert lines[..n] + [lines[n]] == lines;
  }

  /** The start window: after the falling edge the start bit is sampled at
      half the divisor; found low, it starts the data bits. */
  lemma RxStartWindow(rx: Rx, d: uint32, lines: seq<bool>, count: uint32)
    requires d >= 1 && rx.phase == RxStart && rx.clk == 0 && |lines| == d / 2 + 1 && !lines[d / 2]
    ensures var r := RunRx(rx, d, lines, count);
      r.rx.phase == RxData && r.rx.bit == 0 && r.rx.clk == 0 && r.rx.data == rx.data
      && r.written == [] && r.count == count
  {
    RxWindow(rx, d, lines, count);
  }

  /** A data window: `d` calls, the last of which stores its level as the
      current bit. */
  lemma RxDataWindow(rx: Rx, d: uint32, lines: seq<bool>, count: uint32)
    requires d >= 1 && rx.phase == RxData && rx.clk == 0 && |lines| == d
    ensures var r := RunRx(rx, d, lines, count);
      && r.rx.data == rx.data[rx.bit := lines[d - 1]] && r.rx.clk == 0
      && (rx.bit < 7 ==> r.rx.phase == RxData && r.rx.bit == rx.bit + 1)
      && (rx.bit == 7 ==> r.rx.phase == RxStop)
      && r.written == [] && r.count == count
  {
    RxWindow(rx, d, lines, count);
  }

  /** The last level of window `i` when windows are `d` calls long. */
  function WindowLast(lines: seq<bool>, d: nat, i: nat): bool {
    var n := i * d + d - 1;
    if 0 <= n < |lines| then lines[n] else false
  }

  /** Dropping the first window renumbers the others. */
  lemma WindowLastShift(lines: seq<bool>, d: nat, i: nat)
    requires d >= 1 && i >= 1 && |lines| >= d
    ensures WindowLast(lines[d..], d, i - 1) == WindowLast(lines, d, i)
  {
    assert i * d + d - 1 == d + ((i - 1) * d + d - 1);
  }

  /** A prefix that writes nothing and leaves the counter alone can be run
      first on its own. */
  lemma QuietPrefix(rx: Rx, d: uint32, lines: seq<bool>, n: nat, count: uint32)
    requires n <= |lines|
    requires RunRx(rx, d, lines[..n], count).written == []
    requires RunRx(rx, d, lines[..n], count).count == count
    ensures RunRx(rx, d, lines, count) == RunRx(RunRx(rx, d, lines[..n], count).rx, d, lines[n..], count)
  {
    assert lines[..n] + lines[n..] == lines;
    RunRxAppend(rx, d, lines[..n], lines[n..], count);
    var x := RunRx(rx, d, lines[..n], count);
    var y := RunRx(x.rx, d, lines[n..], x.count);
    assert x.written + y.written == y.written;
  }

  /** The first data window of a longer stretch of line, split off. */
  lemma RxDataSplit(rx: Rx, d: uint32, lines: seq<bool>, count: uint32)
    requires d >= 1 && rx.phase == RxData && rx.clk == 0 && |lines| >= d
    ensures var x := RunRx(rx, d, lines[..d], count);
      && RunRx(rx, d, lines, count) == RunRx(x.rx, d, lines[d..], count)
      && x.rx.data == rx.data[rx.bit := WindowLast(lines, d, 0)] && x.rx.clk == 0
      && (rx.bit < 7 ==> x.rx.phase == RxData && x.rx.bit == rx.bit + 1)
      && (rx.bit == 7 ==> x.rx.phase == RxStop)
      && x.count == count
  {
    var first := lines[..d];
    RxDataWindow(rx, d, first, count);
    QuietPrefix(rx, d, lines, d, count);
    assert 0 * d + d - 1 == d - 1;
    assert WindowLast(lines, d, 0) == first[d - 1];
  }

  /** The receiver has sampled data windows `k` to 7 of `lines` into bits `k`
      to 7, kept bits below `k`, and waits for the stop bit. */
  predicate DataDone(r: RxRun, rx: Rx, lines: seq<bool>, d: nat, k: nat, count: uint32) {
    && r.rx.phase == RxStop && r.rx.clk == 0 && r.written == [] && r.count == count
    && (forall j :: 0 <= j < k && j < 8 ==> r.rx.data[j] == rx.data[j])
    && (forall j :: k <= j < 8 ==> r.rx.data[j] == WindowLast(lines, d, j - k))
  }

  /** Data windows for bits `k` to 7: bit `j` is the last level of its
      window, and the bits below `k` are kept. */
  lemma {:induction false} RxDataWindows(rx: Rx, d: uint32, lines: seq<bool>, count: uint32, k: nat)
    requires d >= 1 && rx.phase == RxData && rx.clk == 0 && rx.bit == k
    requires |lines| == (8 - k) * d
    ensures DataDone(RunRx(rx, d, lines, count), rx, lines, d, k, count)
    decreases 8 - k
  {
    WindowsLeft(k, d, |lines|);
    RxDataSplit(rx, d, lines, count);
    var x := RunRx(rx, d, lines[..d], count);
    var rest := lines[d..];
    if k < 7 {
      RxDataWindows(x.rx, d, rest, x.count, k + 1);
      RxDataWindowsStep(rx, d, lines, count, k);
    } else {
      assert rest == [];
    }
  }

  /** After window `k`, the windows `k + 1` to 7 remain. */
  lemma WindowsLeft(k: nat, d: nat, n: nat)
    requires k < 8 && n == (8 - k) * d
    ensures n >= d && n - d == (8 - (k + 1)) * d
  {
    MulSucc(8 - (k + 1), d);
    assert 8 - (k + 1) + 1 == 8 - k;
  }

  /** Window `k` followed by windows `k + 1` to 7. */
  lemma RxDataWindowsStep(rx: Rx, d: uint32, lines: seq<bool>, count: uint32, k: nat)
    requires d >= 1 && rx.phase == RxData && rx.clk == 0 && rx.bit == k && k < 7 && |lines| >= d
    requires var x := RunRx(rx, d, lines[..d], count);
      DataDone(RunRx(x.rx, d, lines[d..], x.count), x.rx, lines[d..], d, k + 1, x.count)
    ensures DataDone(RunRx(rx, d, lines, count), rx, lines, d, k, count)
  {
    RxDataSplit(rx, d, lines, count);
    var x := RunRx(rx, d, lines[..d], count);
    var r := RunRx(x.rx, d, lines[d..], x.count);
    forall j | k + 1 <= j < 8 ensures r.rx.data[j] == WindowLast(lines, d, j - k) {
      WindowLastShift(lines, d, j - k);
      assert j - k - 1 == j - (k + 1);
    }
    assert r.rx.data[k] == WindowLast(lines, d, k - k);
  }


  /** The stop window: `d` calls; a high last level writes the assembled byte
      and returns to idle. */
  lemma RxStopWindow(rx: Rx, d: uint32, lines: seq<bool>, count: uint32)
    requires d >= 1 && rx.phase == RxStop && rx.clk == 0 && |lines| == d && lines[d - 1]
    ensures var r := RunRx(rx, d, lines, count);
      r.rx.phase == RxIdle && r.written == [Value(rx.data)] && r.count == Inc32(count)
  {
    RxWindow(rx, d, lines, count);
  }

  /** An idle receiver on a high line stays idle and writes nothing. */
  lemma {:induction false} RxIdleHigh(rx: Rx, d: uint32, lines: seq<bool>, count: uint32)
    requires rx.phase == RxIdle && forall i :: 0 <= i < |lines| ==> lines[i]
    ensures var r := RunRx(rx, d, lines, count);
      r.rx.phase == RxIdle && r.written == [] && r.count == count
    decreases |lines|
  {
    if |lines| > 0 {
      var r := RxStep(rx, lines[0], d, true, false, count);
      RxIdleHigh(r.rx, d, lines[1..], count);
    }
  }

  /** The assembled bits of a frame make up its byte. */
  lemma AssembledByte(data: Octet, b: byte)
    requires forall j :: 0 <= j < 8 ==> data[j] == BitOf(b, j)
    ensures Value(data) == b
  {
    assert data == Bits(b, 8);
    ValueBits(b, 8);
  }

  /** Level `o` of slot `t` when slots are `d` levels long, or low past the
      end of the line. */
  function LevelAt(f: seq<bool>, d: nat, t: nat, o: nat): bool {
    var n := t * d + o;
    if n < |f| then f[n] else false
  }

  /** A line carrying a frame: `10 * d` levels, slot `t` held for `d` of them. */
  predicate CarriesFrame(f: seq<bool>, b: byte, d: nat) {
    && |f| == 10 * d
    && forall t: nat, o: nat :: t < 10 && o < d ==> LevelAt(f, d, t, o) == SlotLevel(b, t)
  }

  /** Slot `t < 10` of a `d`-level-per-slot line lies inside `10 * d` levels. */
  lemma SlotInside(t: nat, d: nat, o: nat)
    requires t < 10 && o < d
    ensures t * d + o < 10 * d
  {
    assert (9 - t) * d >= 0;
    assert t * d + d + (9 - t) * d == 10 * d;
  }

  lemma FrameLevel(f: seq<bool>, b: byte, d: nat, t: nat, o: nat)
    requires CarriesFrame(f, b, d) && t < 10 && o < d
    ensures t * d + o < |f| && f[t * d + o] == SlotLevel(b, t)
  {
    SlotInside(t, d, o);
    assert LevelAt(f, d, t, o) == SlotLevel(b, t);
  }

  lemma FrameCarriesFrame(b: byte, d: nat)
    ensures CarriesFrame(Frame(b, d), b, d)
  {
    forall t: nat, o: nat | t < 10 && o < d
      ensures LevelAt(Frame(b, d), d, t, o) == SlotLevel(b, t)
    {
      FrameAt(b, d, t, o, t * d + o);
    }
  }

  /** `(j + 1) * d` is the start of data slot `j`, whose window lies inside the
      eight data windows. */
  lemma WindowInside(j: BitIndex, d: nat)
    ensures j * d + d <= 8 * d
    ensures (j + 1) * d == j * d + d
  {
    assert (7 - j) * d >= 0;
    assert j * d + d + (7 - j) * d == 8 * d;
  }

  /** Where the receiver samples data bit `j` of a frame: the data windows
      start `d / 2 + 2` levels in, and each sample falls `d / 2 + 1` levels
      into its slot. */
  lemma FrameDataSample(f: seq<bool>, b: byte, d: uint32, j: BitIndex)
    requires d >= 3 && CarriesFrame(f, b, d)
    ensures var h := d / 2;
      WindowLast(f[h + 2..h + 2 + 8 * d], d, j) == BitOf(b, j)
  {
    var h := d / 2;
    WindowInside(j, d);
    var n := j * d + d - 1;
    var p := (j + 1) * d + (h + 1);
    assert p == h + 2 + n;
    FrameLevelAt(f, b, d, j + 1, h + 1, p);
    var m := f[h + 2..h + 2 + 8 * d];
    assert 0 <= n < |m|;
    assert m[n] == f[p];
  }

  lemma FrameLevelAt(f: seq<bool>, b: byte, d: nat, t: nat, o: nat, n: nat)
    requires CarriesFrame(f, b, d) && t < 10 && o < d && n == t * d + o
    ensures n < |f| && f[n] == SlotLevel(b, t)
  {
    FrameLevel(f, b, d, t, o);
  }

  /** A low level wakes the idle receiver into START. */
  lemma RxDetect(rx: Rx, d: uint32, lines: seq<bool>, count: uint32)
    requires rx.phase == RxIdle && |lines| == 1 && !lines[0]
    ensures var r := RunRx(rx, d, lines, count);
      r.rx.phase == RxStart && r.rx.clk == 0 && r.written == [] && r.count == count
  {
    assert lines[1..] == [];
  }

  /** The falling edge and the start bit: the receiver is ready for data bit 0
      `d / 2 + 2` levels into a frame. */
  lemma RxFrameStart(rx: Rx, f: seq<bool>, b: byte, d: uint32, count: uint32)
    requires d >= 3 && rx.phase == RxIdle && CarriesFrame(f, b, d)
    ensures var r := RunRx(rx, d, f[..d / 2 + 2], count);
      r.rx.phase == RxData && r.rx.bit == 0 && r.rx.clk == 0 && r.written == [] && r.count == count
  {
    var s0, s1 := f[..1], f[1..d / 2 + 2];
    assert f[..d / 2 + 2] == s0 + s1;
    FrameLevel(f, b, d, 0, 0);
    RxDetect(rx, d, s0, count);
    var r0 := RunRx(rx, d, s0, count);
    FrameLevel(f, b, d, 0, d / 2 + 1);
    assert s1[d / 2] == f[0 * d + (d / 2 + 1)];
    RxStartWindow(r0.rx, d, s1, count);
    RunRxAppend(rx, d, s0, s1, count);
  }

  /** The stop bit: sampled high `d / 2 + 1` levels into its slot, it writes
      the assembled byte; the receiver then idles through the rest of it. */
  lemma RxFrameEnd(rx: Rx, f: seq<bool>, b: byte, d: uint32, count: uint32)
    requires d >= 3 && CarriesFrame(f, b, d)
    requires rx.phase == RxStop && rx.clk == 0 && Value(rx.data) == b
    ensures var r := RunRx(rx, d, f[d / 2 + 2 + 8 * d..], count);
      r.rx.phase == RxIdle && r.written == [b] && r.count == Inc32(count)
  {
    var s3, s4 := f[d / 2 + 2 + 8 * d..d / 2 + 2 + 9 * d], f[d / 2 + 2 + 9 * d..];
    assert f[d / 2 + 2 + 8 * d..] == s3 + s4;
    FrameLevel(f, b, d, 9, d / 2 + 1);
    assert s3[d - 1] == f[9 * d + (d / 2 + 1)];
    RxStopWindow(rx, d, s3, count);
    var r3 := RunRx(rx, d, s3, count);
    forall i | 0 <= i < |s4| ensures s4[i] {
      FrameLevel(f, b, d, 9, d / 2 + 2 + i);
      assert s4[i] == f[9 * d + (d / 2 + 2 + i)];
    }
    RxIdleHigh(r3.rx, d, s4, r3.count);
    RunRxAppend(rx, d, s3, s4, count);
  }

  /** An idle receiver fed a line carrying a frame of `b`, with a divisor of
      at least 3, writes exactly `b` to its stream, counts it, and is idle
      again when the frame ends. */
  lemma RxFrameOn(rx: Rx, f: seq<bool>, b: byte, d: uint32, count: uint32)
    requires d >= 3 && rx.phase == RxIdle && CarriesFrame(f, b, d)
    ensures var r := RunRx(rx, d, f, count);
      r.rx.phase == RxIdle && r.written == [b] && r.count == Inc32(count)
  {
    var a, rest := f[..d / 2 + 2], f[d / 2 + 2..];
    assert f == a + rest;
    RxFrameStart(rx, f, b, d, count);
    var r1 := RunRx(rx, d, a, count);
    RxFrameRest(r1.rx, f, b, d, count);
    RunRxAppend(rx, d, a, rest, count);
  }

  /** From data bit 0 to the end of the frame. */
  lemma RxFrameRest(rx: Rx, f: seq<bool>, b: byte, d: uint32, count: uint32)
    requires d >= 3 && CarriesFrame(f, b, d)
    requires rx.phase == RxData && rx.bit == 0 && rx.clk == 0
    ensures var r := RunRx(rx, d, f[d / 2 + 2..], count);
      r.rx.phase == RxIdle && r.written == [b] && r.count == Inc32(count)
  {
    var m, z := f[d / 2 + 2..d / 2 + 2 + 8 * d], f[d / 2 + 2 + 8 * d..];
    assert f[d / 2 + 2..] == m + z;
    RxFrameData(rx, f, b, d, count);
    var r2 := RunRx(rx, d, m, count);
    assert DataEnds(r2, b, count);
    RxFrameEnd(r2.rx, f, b, d, count);
    RunRxAppend(rx, d, m, z, count);
  }


  /** The eight data bits: sampled `d / 2 + 1` levels into their slots, they
      assemble the frame's byte, and the receiver waits for the stop bit. */
  lemma RxFrameData(rx: Rx, f: seq<bool>, b: byte, d: uint32, count: uint32)
    requires d >= 3 && CarriesFrame(f, b, d)
    requires rx.phase == RxData && rx.bit == 0 && rx.clk == 0
    ensures DataEnds(RunRx(rx, d, f[d / 2 + 2..d / 2 + 2 + 8 * d], count), b, count)
  {
    var m := f[d / 2 + 2..d / 2 + 2 + 8 * d];
    assert (8 - 0) * d == 8 * d;
    RxDataWindows(rx, d, m, count, 0);
    var r := RunRx(rx, d, m, count);
    assert DataDone(r, rx, m, d, 0, count);
    forall j | 0 <= j < 8 ensures r.rx.data[j] == BitOf(b, j) {
      FrameDataSample(f, b, d, j);
      assert r.rx.data[j] == WindowLast(m, d, j - 0);
      assert j - 0 == j;
    }
    AssembledByte(r.rx.data, b);
    assert DataEnds(r, b, count);
  }

  /** The receiver has assembled `b` and waits for the stop bit. */
  predicate DataEnds(r: RxRun, b: byte, count: uint32) {
    r.rx.phase == RxStop && r.rx.clk == 0 && Value(r.rx.data) == b && r.written == [] && r.count == count
  }

  /** An idle receiver fed one frame carrying `b`, with a divisor of at least
      3, writes exactly `b` to its stream, counts it, and is idle again when
      the frame ends. */
  lemma RxFrame(rx: Rx, b: byte, d: uint32, count: uint32)
    requires d >= 3 && rx.phase == RxIdle
    ensures var r := RunRx(rx, d, Frame(b, d), count);
      r.rx.phase == RxIdle && r.written == [b] && r.count == Inc32(count)
  {
    FrameCarriesFrame(b, d);
    RxFrameOn(rx, Frame(b, d), b, d, count);
  }

  /** Loopback, as the testbench wires it: the receive pin is the transmit
      pin of the previous call, high before the first. An idle transmitter,
      enabled with `b` at the head of its stream, takes it and drives its
      frame; an idle receiver on the wire writes `b` back, and both counters
      advance by one. */
  lemma Loopback(tx: Tx, rx: Rx, b: byte, rest: seq<byte>, d: uint32, txCount: uint32, rxCount: uint32)
    requires d >= 3 && tx.phase == TxIdle && rx.phase == RxIdle
    ensures var t0 := TxStep(tx, d, true, [b] + rest, false, txCount);
      var t := RunTx(t0.tx, d, 10 * d, t0.count);
      var r := RunRx(rx, d, [true, t0.txd] + t.lines, rxCount);
      && t0.busy && t0.queue == rest
      && t.tx.phase == TxIdle && t.count == Inc32(txCount)
      && r.rx.phase == RxIdle && r.written == [b] && r.count == Inc32(rxCount)
  {
    var t0 := TxStep(tx, d, true, [b] + rest, false, txCount);
    TxIdleStep(tx, d, true, [b] + rest, false, txCount);
    assert t0.tx == Tx(TxStart, b, tx.bit, 0);
    TxFrame(b, tx.bit, d, txCount);
    var t := RunTx(t0.tx, d, 10 * d, t0.count);
    RxIdleHigh(rx, d, [true, t0.txd], rxCount);
    var r0 := RunRx(rx, d, [true, t0.txd], rxCount);
    RxFrame(r0.rx, b, d, rxCount);
    RunRxAppend(rx, d, [true, t0.txd], t.lines, rxCount);
  }
}
